=== FILE: README.md ===
# IntelBluetoothFirmware — a Dafny model of the firmware-loading core

This project models the parts of the Intel Bluetooth driver for macOS that
decide something about firmware: which controllers the driver takes on, how
it names their firmware files, how it reads the version reports the
controller sends, and how it pushes firmware into the controller's
bootloader. It also models the build-time packager that turns a firmware
directory into a C source file of compressed arrays.

Several classes carry copies of the same logic: the `HostController`
controller class and its `IntelBluetoothFamily` twin, and older and newer
builds of the per-generation USB transports. Where two copies behave the
same, one Dafny function models both and its row cites both. Where they
differ, each copy gets its own function and a lemma states the difference.

The modules follow the driver's structure:

- `Bytes`, `Text` hold byte, little-endian and `printf`-style text helpers.
- `IntelTypes` holds the opcode macro, the hardware-field macros, the TLV
  type codes and the packed structures: version reports, boot parameters,
  Write_Boot_Params, bootloader events.
- `Hci` models an HCI command packet and a link that may refuse a command.
  Sending a list of commands stops at the first refusal.
- `SecureSend` covers fragmentation into 0xFC09 secure-send commands, the
  RSA and ECDSA CSS headers, and the 4-byte-aligned payload groups.
- `FirmwareImage` covers the Write_Boot_Params scanners and the `.ddc` record walker.
- `TlvParser` holds the two parsers of the TLV version report.
- `Controller` holds the version checks, the device-address check, the
  Microsoft-extension opcode and the command-complete tables.
- `BootloaderEvents` covers how bootloader vendor events set the driver's flags.
- `Download` holds what all download trees share: sending the image,
  waiting for the load, and the final reset.
- `LegacyPatch` covers the first-generation `.bseq` patch file and its
  expected-event queue.
- `Gen1`, `Gen2`, `Gen3` cover the per-generation `start`, firmware name and
  `DownloadFirmware`/`PatchFirmware` decision trees, copy by copy.
- `UsbTransport` covers the routing of command packets, the injected
  Command Complete event for the vendor Reset, power states and the base
  firmware lookup.
- `FirmwarePackager` models `Scripts/fw_gen.py`.

The environment is given to each decision tree as data:

- the file the firmware loader returns;
- the link's first refusal;
- the status of the reset;
- the outcome of the wait for the bootloader's verdict.

Each tree returns a `Run` record: the final status, the commands that went
out, the controller flags it leaves, the number of resets, and whether it
waited for the firmware to load.

There are two reset routines. The HostController class's
`ResetToBootloader(bool)` sets bootloader mode and marks a download under
way before it sends the reset. The Family class's `ResetToBootloader(inID)`
only sends it. The older second- and third-generation transports use the
first routine; the newer transports and the Family controllers use the second.

## Model

| member | source | states |
|---|---|---|
| IntelTypes.MakeOpCode | HostController/IntelBluetoothHostControllerTypes.h:223-263 | the top 6 bits of the opcode are the OGF and the low 10 bits are the OCF |
| IntelTypes.HardwarePlatform | HostController/IntelBluetoothHostControllerTypes.h:370 | the platform is the second little-endian byte of a CNVi register |
| IntelTypes.HardwareVariant | HostController/IntelBluetoothHostControllerTypes.h:371 | the variant is the low 6 bits of the register's third byte, so it is at most 0x3F |
| IntelTypes.TopType | HostController/IntelBluetoothHostControllerTypes.h:372 | the TOP type is the first byte plus the low nibble of the second, at most 0xFFF |
| IntelTypes.TopStep | HostController/IntelBluetoothHostControllerTypes.h:373 | the TOP step is the low nibble of the fourth byte, at most 0xF |
| IntelTypes.CnvxTopSwapped | HostController/IntelBluetoothHostControllerTypes.h:374 | swapping the result's bytes back gives the type above the step's 4 bits |
| IntelTypes.Swap16Involutive | HostController/IntelBluetoothHostControllerTypes.h:374 | swapping the bytes of a 16-bit value twice gives it back |
| IntelTypes.TlvCodesConsecutive | HostController/IntelBluetoothHostControllerTypes.h:142-178 | every code from 0x10 to 0x31 names a TLV type whose code is that code again; codes outside that range name none |
| IntelTypes.WriteBootParamsRoundTrip | HostController/IntelBluetoothHostControllerTypes.h:335-341 | the packed Write_Boot_Params layout decodes to what was encoded, and encoding the decoded fields restores the bytes |
| IntelTypes.BootupEventParamsRoundTrip | HostController/IntelBluetoothHostControllerTypes.h:343-351 | the same round trip for the bootup event parameters |
| IntelTypes.SecureSendResultRoundTrip | HostController/IntelBluetoothHostControllerTypes.h:353-358 | the same round trip for the secure-send result event |
| IntelTypes.VersionInfoRoundTrip | HostController/IntelBluetoothHostControllerTypes.h:295-306 | the same round trip for the legacy version reply |
| IntelTypes.BootParamsRoundTrip | HostController/IntelBluetoothHostControllerTypes.h:308-326 | the same round trip for the boot parameters, with the signed 16-bit fields read in two's complement |
| Text.Bounded | IntelGen3BluetoothHostControllerUSBTransport/IntelGen3BluetoothHostControllerUSBTransport.cpp:178 | `snprintf` into a buffer keeps a prefix that is shorter than the buffer, and the whole text when it fits |
| Text.ByteLiteral | Scripts/fw_gen.py:98 | a byte is written `0x` and two upper-case hex digits that read back to the byte |
| Hci.WireRoundTrip | Transports/USB/IntelBluetoothHostControllerUSBTransport.cpp:171-178 | a command packet is opcode, length byte and parameters; parsing inverts writing, both ways |
| Hci.Deliver | HostController/IntelBluetoothHostController.cpp:1420-1446 | commands go out in order until the link refuses one; the result is the prefix sent, with success exactly when none was refused |
| Hci.DeliverAppend | HostController/IntelBluetoothHostController.cpp:1420-1446 | sending two lists one after the other is sending their concatenation |
| SecureSend.Fragments | HostController/IntelBluetoothHostController.cpp:1414-1449 | data goes out in ceil(n/252) secure sends of the given fragment type; all but the last carry 252 bytes; the carried bytes are the data |
| SecureSend.OfTypeFragments | IntelBluetoothFamily/IntelBluetoothHostController.cpp:625-649 | a fragmentation holds only commands of its own fragment type |
| SecureSend.RsaHeaderSlices | HostController/IntelBluetoothHostController.cpp:1997-2033 | the RSA header sends image bytes [0,128) as Init, [128,384) as PKey and [388,644) as Sign, and no Data |
| SecureSend.EcdsaHeaderSlices | HostController/IntelBluetoothHostController.cpp:2035-2069 | the ECDSA header sends [644,772) as Init, [772,868) as PKey and [868,964) as Sign |
| SecureSend.PayloadGroups | HostController/IntelBluetoothHostController.cpp:1965-1992 | the payload is cut into groups of whole records, each a non-empty multiple of 4 bytes, whose concatenation is the payload |
| SecureSend.DownloadPayload | HostController/IntelBluetoothHostController.cpp:1954-1995 | an empty payload yields Invalid with nothing sent; otherwise only Data fragments go out, and success means the whole payload was carried |
| FirmwareImage.FindIsFirstRecord | HostController/IntelBluetoothHostController.cpp:2071-2096 | the scan finds the first Write_Boot_Params record reached by skipping other records, and finds none exactly when there is none |
| FirmwareImage.CheckFirmwareVersion | HostController/IntelBluetoothHostController.cpp:2071-2096 | it matches exactly when number, week and year equal the first Write_Boot_Params record's, and it stores that record's boot address (or keeps the old one when there is no record) |
| FirmwareImage.ScannersAgree | IntelBluetoothFamily/IntelBluetoothHostController.cpp:1086-1116 | the Family scanner, which writes no boot address, gives the same verdict |
| FirmwareImage.DdcRecords | HostController/IntelBluetoothHostController.cpp:1391-1407 | the walk splits the file into length-prefixed records whose concatenation is the file |
| FirmwareImage.DdcRoundTrip | HostController/IntelBluetoothHostController.cpp:1379-1412 | writing records back to back and walking the file gives the same records |
| FirmwareImage.LoadDdcConfig | IntelBluetoothFamily/IntelBluetoothHostController.cpp:462-487 | each record goes out as one Write DDC command, and on success the parameters sent are the whole file |
| TlvParser.SplitTlvs | Transports/Gen3/IntelGen3BluetoothHostControllerUSBTransport.cpp:63-69 | the walk yields records of at most 255 value bytes, and what it leaves over is too short for a header or for the length it declares |
| TlvParser.SplitConsumes | Transports/Gen3/IntelGen3BluetoothHostControllerUSBTransport.cpp:142-145 | the records the walk yields, written back, followed by the leftover, are the buffer |
| TlvParser.SplitEncoded | Transports/Gen3/IntelGen3BluetoothHostControllerUSBTransport.cpp:142-145 | encoding a list of records and walking the bytes gives the records back with nothing left over |
| TlvParser.ParseLenient | Transports/Gen3/IntelGen3BluetoothHostControllerUSBTransport.cpp:51-148 | the lenient parser succeeds exactly when both the version record and the buffer are there; on failure the version is left as it was |
| TlvParser.ReadsAreTriples | Transports/Gen3/IntelGen3BluetoothHostControllerUSBTransport.cpp:71-140 | when every record is at least as long as the field its type reads, each field is read from inside its own record |
| TlvParser.ShortTripleReadsOn | Transports/Gen3/IntelGen3BluetoothHostControllerUSBTransport.cpp:79-80 | a CNVi BT record of length 1 takes the register from its one byte and the next record's type, length and first value byte, and the walk still goes on to that next record |
| TlvParser.StrictMatchesLenient | IntelGen3BluetoothHostControllerUSBTransport/IntelGen3BluetoothHostControllerUSBTransport.cpp:183-277 | the strict parser succeeds exactly when the walk leaves nothing over, fails with Invalid otherwise, and yields the same version as the lenient parser either way |
| TlvParser.StrictAcceptsEncoded | IntelBluetoothFamily/IntelGen3BluetoothHostController.cpp:178-272 | a buffer made of whole records walks back to those records, and the strict parser accepts it with every record applied |
| TlvParser.UnknownTypeIgnored | Transports/Gen3/IntelGen3BluetoothHostControllerUSBTransport.cpp:137-139 | a record of unknown type changes nothing |
| TlvParser.TimestampFields | Transports/Gen3/IntelGen3BluetoothHostControllerUSBTransport.cpp:91-99 | a timestamp record sets the week from its first value byte and the year from its second, and the timestamp is week plus 256 times year |
| TlvParser.LaterTlvWins | Transports/Gen3/IntelGen3BluetoothHostControllerUSBTransport.cpp:71-140 | after all records are applied, the build number, week and year are those written by the last record that writes each, or the old values when none does |
| TlvParser.ApplyWrites | Transports/Gen3/IntelGen3BluetoothHostControllerUSBTransport.cpp:103-127 | a record writes the build number, week and year exactly as its type says, and leaves them alone otherwise |
| Controller.CheckLegacyVersion | HostController/IntelBluetoothHostController.cpp:957-990 | the legacy report is accepted exactly when the platform is 0x37 and the hardware variant is a legacy one; anything else is Invalid |
| Controller.LegacyChecksCompared | IntelBluetoothFamily/IntelBluetoothHostController.cpp:250-304 | the Family check accepts exactly the reports the controller-class check accepts whose firmware variant is 01, 06, 22 or 23, so it is strictly stricter |
| Controller.CheckTlvVersion | HostController/IntelBluetoothHostController.cpp:992-1050 | a TLV report is accepted exactly when it has platform 0x37, variant TyP, Slr or SlrF, and, for a bootloader image, limited-CCE 0 and an SBE type of at most 1; anything else is Invalid |
| Controller.TlvChecksCompared | IntelBluetoothFamily/IntelBluetoothHostController.cpp:306-377 | the Family TLV check accepts exactly the reports the other accepts whose image type is bootloader or operational, and both demand limited-CCE 0 and an SBE type of at most 1 for a bootloader image |
| Controller.CheckDeviceAddress | HostController/IntelBluetoothHostController.cpp:854-889 | the check succeeds exactly when the address could be read, and it flags the address as invalid exactly when it equals the factory default (or was already flagged) |
| Controller.FamilyAddressCheckInverted | IntelBluetoothFamily/IntelBluetoothHostController.cpp:211-236 | the Family check flags every address except the factory default, and lets the default through |
| Controller.MicrosoftExtensionOpCode | HostController/IntelBluetoothHostController.cpp:750-772 | the supported variants get opcode 0xFC1E, and all others keep the current one |
| Controller.CommandCompleteTablesAgree | HostController/IntelBluetoothHostController.cpp:1328-1377 | every opcode that requires a Command Complete event has that event as its complete code |
| BootloaderEvents.ProcessEvent | HostController/IntelBluetoothHostController.cpp:1251-1326 | the loaded flag never changes; booting and downloading can only be cleared and failure only set; nothing changes unless the packet is a framed vendor event in bootloader mode |
| BootloaderEvents.BootupEndsBooting | HostController/IntelBluetoothHostController.cpp:1287-1300 | a well-formed bootup event clears the booting flag and changes nothing else |
| BootloaderEvents.ResultEventOutcome | HostController/IntelBluetoothHostController.cpp:1302-1321 | a well-formed secure-send result event sets the failure flag exactly when its result is non-zero, and ends a download exactly when the firmware is marked loaded |
| BootloaderEvents.FlagChangesExplained | HostController/IntelBluetoothHostController.cpp:1280-1323 | booting is cleared only by a bootup event of the right size, failure is set only by a result event of the right size with a non-zero result, and downloading is cleared only by a result event while the firmware is marked loaded |
| BootloaderEvents.ProcessEventFamily | IntelBluetoothFamily/IntelBluetoothHostController.cpp:558-617 | the Family handler never changes the loaded flag, and changes nothing unless the packet is a framed vendor event in bootloader mode |
| BootloaderEvents.FamilyIgnoresWellFormedEvents | IntelBluetoothFamily/IntelBluetoothHostController.cpp:574-575 | a well-formed vendor event is never recognised by the Family handler |
| BootloaderEvents.FamilyShortResultAlwaysFails | IntelBluetoothFamily/IntelBluetoothHostController.cpp:593-614 | a result event that the Family handler does recognise always sets the failure flag |
| BootloaderEvents.FamilyAcceptsShortBootup | IntelBluetoothFamily/IntelBluetoothHostController.cpp:576-591 | a bootup event one byte short is the one the Family handler acts on |
| Download.WaitStatus | HostController/IntelBluetoothHostController.cpp:1162-1189 | the wait succeeds exactly when the load completes and times out exactly when the bootloader never answers |
| Download.Waited | HostController/IntelBluetoothHostController.cpp:1167-1168 | waiting marks the firmware loaded and touches nothing else |
| Download.SendImage | IntelBluetoothFamily/IntelBluetoothHostController.cpp:969-1048 | the header goes first, then only Data fragments; success means the payload from the offset was carried |
| Download.Transmit | HostController/IntelBluetoothHostController.cpp:1162-1189 | the wait happens only after a complete send and its status is the wait's; a refused plan sends nothing |
| Download.AfterReset | HostController/IntelBluetoothHostController.cpp:774-781 | the HostController reset sets bootloader mode and downloading and changes no other flag; the Family reset changes no flag at all |
| Download.Finish | IntelBluetoothFamily/IntelGen3BluetoothHostController.cpp:479-483 | the tree end reports the status it reached; a success never resets and leaves only the firmware marked loaded; a refusal or a failed send resets once, with the flags the reset routine sets; a timeout resets once, and the HostController reset leaves bootloader mode on; a failed load after the wait does not reset |
| LegacyPatch.FifoOrder | Transports/Gen1/IntelGen1BluetoothHostControllerUSBTransport.cpp:62-94 | the expected-event queue gives events back in the order they were queued |
| LegacyPatch.ReceiveEvent | Transports/Gen1/IntelGen1BluetoothHostControllerUSBTransport.cpp:96-135 | an event is answered exactly when the queue head has its length and its bytes after the event code |
| LegacyPatch.EventCodeNotCompared | Transports/Gen1/IntelGen1BluetoothHostControllerUSBTransport.cpp:116 | two events that differ only in their event code get the same answer |
| LegacyPatch.ScanEventsRoundTrip | Transports/Gen1/IntelGen1BluetoothHostControllerUSBTransport.cpp:228-262 | the event records after a command are read back as the events that were written |
| LegacyPatch.ParseRecordRoundTrip | Transports/Gen1/IntelGen1BluetoothHostControllerUSBTransport.cpp:164-262 | a command record and its events parse back from their encoding, and the parser stops exactly where the record ends |
| LegacyPatch.PatchFileRoundTrip | HostController/IntelBluetoothHostController.cpp:444-465 | a well-formed patch file goes through a reliable link completely: every record's command is sent, in file order, and the loop ends with success |
| LegacyPatch.ActivatesIffPatchLoaded | HostController/IntelBluetoothHostController.cpp:448-499 | the patches are activated exactly when the whole file went through and one of the commands sent loads patch data (0xFC8E) |
| Gen1.AdmitLegacy | IntelGen1BluetoothHostControllerUSBTransport/IntelGen1BluetoothHostControllerUSBTransport.cpp:44-65 | the controller is taken on exactly when the platform is 0x37 and the variant is WP or StP, and it then gets the legacy-ROM and broken-LED quirks |
| Gen1.AdmissionsAgree | IntelBluetoothFamily/IntelGen1BluetoothHostController.cpp:41-61 | an admitted controller gets the same quirks that setup turns on, wideband speech exactly for the variants that support it, passes the legacy version check, and is not taken on by the second-generation driver |
| Gen1.SetupQuirks | HostController/IntelBluetoothHostController.cpp:368-383 | setup always turns on the legacy-ROM and broken-LED quirks |
| Gen1.PatchFileName | Transports/Gen1/IntelGen1BluetoothHostControllerUSBTransport.cpp:137-149 | the name fits the 64-byte buffer and is a prefix of the full specific or default name |
| Gen1.SpecificNameIdentifies | IntelBluetoothFamily/IntelGen1BluetoothHostController.cpp:186-198 | two specific names that fit the buffer are equal only when their hardware and firmware fields are |
| Gen1.DefaultNameIdentifies | IntelGen1BluetoothHostControllerUSBTransport/IntelGen1BluetoothHostControllerUSBTransport.cpp:190-202 | two default names that fit the buffer are equal only when their hardware fields are |
| Gen1.SpecificIsNotDefault | Transports/Gen1/IntelGen1BluetoothHostControllerUSBTransport.cpp:137-149 | a specific name that fits the buffer is never a default name |
| Gen1.LoadLegacyFindsFirstFile | IntelGen1BluetoothHostControllerUSBTransport/IntelGen1BluetoothHostControllerUSBTransport.cpp:204-234 | the loader takes the specific file when it opens, otherwise the default one, and fails only when neither opens |
| Gen1.LoadFamily | IntelBluetoothFamily/IntelGen1BluetoothHostController.cpp:200-244 | the Family loader tries the current name and at most the default name after it, and reports only success or not-found |
| Gen1.FamilyAgreesUnlessDefaultFails | IntelBluetoothFamily/IntelGen1BluetoothHostController.cpp:222-243 | when the default file opens, or fails as unsupported, the Family loader as written agrees with the corrected one |
| Gen1.FamilyDefaultFailureWitness | IntelBluetoothFamily/IntelGen1BluetoothHostController.cpp:233-243 | when no file opens, the Family loader as written reports success and hands out the stale firmware; the corrected loader and the transport loader report the error |
| Gen1.LoadFamilyCorrected | IntelBluetoothFamily/IntelGen1BluetoothHostController.cpp:200-244 | the corrected Family loader succeeds exactly when it hands out data, and that data is the file under the last name it tried |
| Gen1.FamilyMatchesTransport | IntelBluetoothFamily/IntelGen1BluetoothHostController.cpp:200-232 | where no open fails as unsupported, the corrected Family loader tries the same names, succeeds on the same files and hands out the same data as the transport loader |
| Gen1.LoadDdcConfigLegacy | IntelBluetoothFamily/IntelGen1BluetoothHostController.cpp:370-373 | first-generation controllers have no DDC file, so the load never reports success |
| Gen1.SetupLegacy | HostController/IntelBluetoothHostController.cpp:353-514 | an already patched controller or a missing file gets no patch commands and succeeds; nothing is sent unless manufacturer mode was entered; a failure is the status of the enter, the exit, or the version read after activation; the device address is checked exactly when the setup succeeds |
| Gen1.SetupExitMatchesPatchRun | HostController/IntelBluetoothHostController.cpp:444-499 | setup sends what the patch loop sends, and leaves manufacturer mode activating the patches, without a reset, or deactivating them exactly as the loop loaded patch data, loaded none, or failed |
| Gen1.SetupSendsWholeFile | HostController/IntelBluetoothHostController.cpp:444-465 | over a reliable link a well-formed patch file goes out whole, in order, and the patches are activated exactly when one of its commands loads patch data |
| Gen1.StartLegacy | IntelGen1BluetoothHostControllerUSBTransport/IntelGen1BluetoothHostControllerUSBTransport.cpp:28-188 | start goes on only for an admitted controller |
| Gen1.StartActivationFailureWitness | IntelBluetoothFamily/IntelGen1BluetoothHostController.cpp:154-158 | for a file holding one patch-loading record, a reliable link and a failing exit, start as written goes on and the corrected start does not |
| Gen1.StartChecksAddress | IntelBluetoothFamily/IntelGen1BluetoothHostController.cpp:171-183 | the corrected start goes on exactly when an admitted controller's setup reached the address check; the as-written start goes on without it only after a failed activating exit |
| Gen1.StartLegacyCorrected | IntelBluetoothFamily/IntelGen1BluetoothHostController.cpp:29-183 | the corrected start goes on exactly when the controller is admitted and setup succeeds |
| Gen1.StartsDiffer | IntelBluetoothFamily/IntelGen1BluetoothHostController.cpp:117-165 | the as-written start and the corrected one differ exactly when an admitted controller fails the exit that activates the patches |
| Gen2.Admit | IntelGen2BluetoothHostControllerUSBTransport/IntelGen2BluetoothHostControllerUSBTransport.cpp:45-59 | the controller is taken on exactly when the platform is 0x37 and the variant is SfP, WsP, JfP, ThP, HrP or CcP; wideband speech is always set and valid LE states exactly for JfP and ThP |
| Gen2.AdmissionsCompared | IntelBluetoothFamily/IntelGen2BluetoothHostController.cpp:42-51 | the Family start admits the same controllers; every admitted controller passes the legacy version check; SfP and WsP keep the current Microsoft opcode and the others get 0xFC1E |
| Gen2.FirmwareName | Transports/Gen2/IntelGen2BluetoothHostControllerUSBTransport.cpp:39-62 | a name exists exactly for the second-generation variants; it fits the 64-byte buffer and is the full name whenever that fits |
| Gen2.NameDeterminesFields | IntelGen2BluetoothHostControllerUSBTransport/IntelGen2BluetoothHostControllerUSBTransport.cpp:136-159 | two equal names that fit the buffer come from the same variant and the same name fields |
| Gen2.DownloadFirmware | IntelGen2BluetoothHostControllerUSBTransport/IntelGen2BluetoothHostControllerUSBTransport.cpp:186-364 | a tree that waited reports the wait's status; the newer copies never touch the boot address, and the older copy changes it only to the boot address of the image's first Write_Boot_Params record, found while comparing versions; nothing is sent without a fetched image at least as long as the RSA header; after a reset the older copy is in bootloader mode with a download marked, while the newer copies' reset leaves bootloader mode as it was |
| Gen2.OlderCopyTakesBootAddress | Transports/Gen2/IntelGen2BluetoothHostControllerUSBTransport.cpp:191-204 | where the older copy compares versions, the boot address afterwards is that of the image's first Write_Boot_Params record, whatever the verdict; without such a record, and in the newer copies, it is the old one |
| Gen2.DownloadImage | Transports/Gen2/IntelGen2BluetoothHostControllerUSBTransport.cpp:183-249 | once an image of at least 644 bytes is fetched, a tree that waited reports the wait's status; the address check ran exactly for operational firmware; only the older copy's scan can change the boot address, and only to the image's first Write_Boot_Params address; a reset leaves the older copy in bootloader mode with a download marked and the newer copies' bootloader mode as it was |
| Gen2.OperationalSfpDoesNothing | Transports/Gen2/IntelGen2BluetoothHostControllerUSBTransport.cpp:92-104 | operational SfP or WsP firmware sends nothing, checks the address, leaves bootloader mode and succeeds |
| Gen2.BootParamsGate | IntelBluetoothFamily/IntelGen2BluetoothHostController.cpp:229-249 | in bootloader mode a failed boot-params read returns its error and a limited-CCE bootloader is Invalid, both with nothing sent; an OTP without an address flags the address as invalid |
| Gen2.ShortImageUnsupported | IntelBluetoothFamily/IntelGen2BluetoothHostController.cpp:287-290 | an image shorter than the RSA header is Unsupported |
| Gen2.VersionMatchSkips | IntelGen2BluetoothHostControllerUSBTransport/IntelGen2BluetoothHostControllerUSBTransport.cpp:305-322 | where the copy compares versions, a matching version succeeds with nothing sent, no reset, and the firmware marked loaded |
| Gen2.CopiesDifferInBootloader | Transports/Gen2/IntelGen2BluetoothHostControllerUSBTransport.cpp:191-204 | for a bootloader (firmware variant 06) whose version matches the file, the older copy sends nothing and the newer copies send the image and wait |
| Gen2.OperationalMismatch | IntelBluetoothFamily/IntelGen2BluetoothHostController.cpp:330-333 | operational firmware of another version is Invalid, with nothing sent and one reset; the controller ends in bootloader mode exactly in the older copy, whose reset sets that flag |
| Gen2.DownloadSendsTail | IntelBluetoothFamily/IntelGen2BluetoothHostController.cpp:336-359 | a tree that waited sent the image from offset 644 as Data fragments, and succeeds exactly when the load completed |
| Gen3.Admit | IntelGen3BluetoothHostControllerUSBTransport/IntelGen3BluetoothHostControllerUSBTransport.cpp:44-167 | the controller is taken on exactly when the report parses, the platform is 0x37 and the variant is TyP, Slr or SlrF; only Slr gets the LE-states quirk |
| Gen3.AdmittedReportsValid | IntelBluetoothFamily/IntelGen3BluetoothHostController.cpp:41-73 | an admitted controller passes the TLV check unless its bootloader fields are out of range |
| Gen3.TopField | Transports/Gen3/IntelGen3BluetoothHostControllerUSBTransport.cpp:46 | each name field is four hex digits of the swapped TOP type and step |
| Gen3.FirmwareName | IntelGen3BluetoothHostControllerUSBTransport/IntelGen3BluetoothHostControllerUSBTransport.cpp:171-181 | the name fits the 64-byte buffer, and a short suffix is kept whole |
| Gen3.NameDeterminesTops | IntelBluetoothFamily/IntelGen3BluetoothHostController.cpp:166-176 | two equal names come from equal CNVi and CNVr TOP types and steps |
| Gen3.ImagePlan | Transports/Gen3/IntelGen3BluetoothHostControllerUSBTransport.cpp:255-313 | an image without the RSA CSS version is refused; older variants get the RSA header only; newer ones get RSA or ECDSA by the SBE type; variants in between send nothing |
| Gen3.Prologue | Transports/Gen3/IntelGen3BluetoothHostControllerUSBTransport.cpp:178-210 | the steps before sending stop with nothing sent; a fetch failure in operational mode counts as loaded |
| Gen3.DownloadLenient | Transports/Gen3/IntelGen3BluetoothHostControllerUSBTransport.cpp:150-335 | in the older tree a success that sent anything went through the wait, and a run that reset the device leaves it in bootloader mode |
| Gen3.FinishesCompared | Transports/Gen3/IntelGen3BluetoothHostControllerUSBTransport.cpp:327-335 | the older tree's end and the shared end leave the same run except for the status, and the statuses differ exactly when the wait reported a failed load |
| Gen3.LenientFinish | Transports/Gen3/IntelGen3BluetoothHostControllerUSBTransport.cpp:327-335 | the older tree succeeds exactly when it waited and the wait did not time out; otherwise it resets, which enters bootloader mode and marks a download under way |
| Gen3.LenientIgnoresLoadFailure | Transports/Gen3/IntelGen3BluetoothHostControllerUSBTransport.cpp:327-335 | when the bootloader reports the load failed, the older tree still succeeds, and the corrected tree fails |
| Gen3.DownloadLenientCorrected | Transports/Gen3/IntelGen3BluetoothHostControllerUSBTransport.cpp:327-335 | the corrected tree's status after waiting is the wait's status |
| Gen3.DownloadStrict | IntelGen3BluetoothHostControllerUSBTransport/IntelGen3BluetoothHostControllerUSBTransport.cpp:305-487 | the newer tree reports the wait's status and leaves the boot address alone |
| Gen3.LenientMatchSkips | Transports/Gen3/IntelGen3BluetoothHostControllerUSBTransport.cpp:218-224 | a matching version makes the older tree succeed with nothing sent, clears the downloading flag and takes the boot address from the image |
| Gen3.StrictMatchSkips | IntelBluetoothFamily/IntelGen3BluetoothHostController.cpp:368-376 | outside a bootloader image a matching version makes the newer tree succeed with nothing sent and the firmware loaded, but the downloading flag stays set |
| Gen3.StrictIgnoresVersionInBootloader | IntelGen3BluetoothHostControllerUSBTransport/IntelGen3BluetoothHostControllerUSBTransport.cpp:372-380 | in bootloader mode the newer tree does not depend on the image version |
| Gen3.OperationalMismatch | IntelBluetoothFamily/IntelGen3BluetoothHostController.cpp:388-391 | operational firmware of another version: the newer tree refuses it with one reset and nothing sent; the older tree resets, is in bootloader mode from then on, and fails only when the reset fails |
| Gen3.FetchFailure | IntelGen3BluetoothHostControllerUSBTransport/IntelGen3BluetoothHostControllerUSBTransport.cpp:333-364 | a failed fetch sends nothing and both trees agree: it counts as success with the firmware loaded outside bootloader mode or for operational firmware, and is the fetch error otherwise |
| Gen3.TransferTail | IntelGen3BluetoothHostControllerUSBTransport/IntelGen3BluetoothHostControllerUSBTransport.cpp:410-469 | a transfer that sent something and waited carried the image from offset 644 for variants up to CcP and from 964 for TyP onwards |
| Gen3.StrictSendsTail | IntelBluetoothFamily/IntelGen3BluetoothHostController.cpp:406-465 | a successful download of the newer tree carried the image from offset 644 for variants up to CcP and from 964 for TyP onwards |
| Gen3.LenientSendsTail | Transports/Gen3/IntelGen3BluetoothHostControllerUSBTransport.cpp:280-313 | the same for a successful download of the older tree |
| Gen3.ReliableSendWaits | IntelGen3BluetoothHostControllerUSBTransport/IntelGen3BluetoothHostControllerUSBTransport.cpp:483-487 | on a reliable link a bootloader image whose plan sends something reaches the wait in both trees, and the newer one reports the wait's status |
| UsbTransport.CommandCompleteRoundTrip | Transports/USB/IntelBluetoothHostControllerUSBTransport.cpp:201-225 | the injected packet reads back as a successful completion of its opcode, and a successful completion packet is the one made for its opcode |
| UsbTransport.InjectedEventIsOrdinary | Transports/USB/IntelBluetoothHostControllerUSBTransport.cpp:191-196 | the injected event for Reset is the complete code the driver waits for, and the bootloader flags ignore it |
| UsbTransport.SendRequest | Transports/USB/IntelBluetoothHostControllerUSBTransport.cpp:171-199 | short packets are refused; a bootloader secure send goes only to the bulk pipe; a Command Complete is injected exactly when a Reset went out the ordinary way |
| UsbTransport.SecureSendRouting | Transports/USB/IntelBluetoothHostControllerUSBTransport.cpp:178-189 | in bootloader mode a secure send depends only on the bulk write and the posted read |
| UsbTransport.PowerStatesRoundTrip | Transports/USB/IntelBluetoothHostControllerUSBTransport.cpp:474-495 | Off and On map to the two power states and back; Idle is not passed on |
| UsbTransport.GetFirmware | Transports/USB/IntelBluetoothHostControllerUSBTransport.cpp:691-715 | no name is Invalid; a file that opens is handed out; otherwise the error handler decides |
| UsbTransport.BaseFetchFails | Transports/USB/IntelBluetoothHostControllerUSBTransport.cpp:686-720 | the base class has no name and its handler gives up with Unsupported |
| FirmwarePackager.VarNameInjective | Scripts/fw_gen.py:61-62 | array names are `firmware_` plus the digest, so distinct digests give distinct names |
| FirmwarePackager.LStripIdempotent | Scripts/fw_gen.py:69 | stripping leading dots twice is stripping them once |
| FirmwarePackager.RowsShape | Scripts/fw_gen.py:84-101 | the data is cut into rows of 16 bytes with a shorter non-empty last row, and the rows concatenate to the data |
| FirmwarePackager.WriteRows | Scripts/fw_gen.py:84-101 | the row loop produces exactly those rows |
| FirmwarePackager.WriteSingleFile | Scripts/fw_gen.py:64-104 | each file adds one descriptor at the end, with the path stripped of leading dots and the file's digest; earlier descriptors are kept |
| FirmwarePackager.PackAllPacks | Scripts/fw_gen.py:113-117 | after packing, descriptors match the files in order; no digest has two arrays; every array belongs to a descriptor; every descriptor names the array of the first file with its digest and records that array's length |
| FirmwarePackager.EntryRecoversFile | Scripts/fw_gen.py:71-80 | when the digest is injective, decompressing the array a descriptor names gives that file's data back |
| FirmwarePackager.Extension | Scripts/fw_gen.py:116 | the extension taken from a path is empty or one dot followed by neither dot nor slash, and it is the end of the path |
| FirmwarePackager.FilterKeepsSelected | Scripts/fw_gen.py:116 | a file is kept exactly when its extension without the dot is in the list |
| FirmwarePackager.SplitJoin | Scripts/fw_gen.py:140 | splitting the extension argument at commas and joining again gives it back |
| FirmwarePackager.EmptyArgumentKeepsPlainFiles | Scripts/fw_gen.py:140 | an empty argument keeps exactly the files without an extension (or whose name ends in a dot) |
| FirmwarePackager.ArrayHoldsData | Scripts/fw_gen.py:92-101 | reading the hex literals of an array's lines gives its bytes back |
| FirmwarePackager.RowsTextReadsBack | Scripts/fw_gen.py:94-101 | the lines of any row list read back as the rows' bytes |
| FirmwarePackager.CountIsKeptFiles | Scripts/fw_gen.py:132-135 | the file ends with the number of kept files in decimal |

## Left out

- The length preconditions `ScanWalks`, `DdcWalks`, `PayloadWalks`, `PatchWalks`, `HeaderFits`, `FileWalks`, `Readable` and `DataFits` keep every read inside its buffer. The driver does not check these bounds. The model states what the code does on files whose records stay inside the buffer, and says nothing about out-of-bounds reads.
- Null-pointer checks and failures of `HCIRequestCreate`: these are allocation and plumbing failures with no decision in them.
- The Gen2 transport's `GetFirmwareWL` returns an uninitialised `err` when the file does not open. The model gives that path an error status.
- The first-generation `start` copies read `fwData` before it is set on some paths. The model takes the loader's result instead.
- The per-command sleep in `PatchFirmware`, all sleeps and timeouts, and `THREAD_INTERRUPTED`: time is reduced to the outcome of `WaitForFirmwareDownload` and of the boot wait.
- `BootDevice`, the DDC load after boot in `start`, and the debug features: the model stops when firmware is loaded and the device is reset.
- Logging, `setProperty`, and IOKit object lifetimes.
- UsbTransport.CommandCompletePacket: the results structure is taken to be packed (one byte then the opcode). A padded layout would change the length byte.
- Power-state side effects, such as changing the USB pipes: only the mapping from ordinal to power state is modelled.
- The base transport's `PatchFirmware` (Transports/USB/IntelBluetoothHostControllerUSBTransport.cpp:721-724) returns Unsupported and calls nothing. Only the first-generation override (Transports/Gen1/IntelGen1BluetoothHostControllerUSBTransport.cpp:164) is modelled, because no modelled tree reaches the base routine.
- Gen1.StartLegacy: the two `start` copies drive their own patch parsers, the `PatchFirmware(id, …)` of IntelGen1BluetoothHostControllerUSBTransport/IntelGen1BluetoothHostControllerUSBTransport.cpp:237-350 and of IntelBluetoothFamily/IntelGen1BluetoothHostController.cpp:246-366. The model runs them with the parser of Transports/Gen1 instead. Those two parsers read the opcode from the address of the buffer pointer instead of from the buffer (`*(BluetoothHCICommandOpCode *) fwPtr`, Family :273). They fail a record with no expected event (Family :331). They compare the answer with the USB interrupt buffer. With such a parser, whether a record counts as loading patch data depends on that pointer's bytes, and a record with no event takes the deactivating exit at Family :128-130, not the activation at :157.
- Gen1.StartLegacy: the Set Event Mask command the two `start` copies send at `complete:` is left out, because its status is ignored. The address check there is the one `Setup.addressChecked` records; in the Family copy it is the inverted check of the second Findings row.
- The HardwareError / ReadExceptionInfo branch of `ProcessEventDataWL`: it only logs and reads diagnostics.
- The HostController `ResetToBootloader(bool)` also clears `mBooting`. The download record `Ctl` does not carry that flag, because no download tree reads it.
- The second-generation transport under `Transports/Gen2` drives the HostController class. It calls `ResetToBootloader()` without the `retry` argument that class's routine declares, and `ParseFirmwareVersion`, which that class does not declare. The model binds them to the class's `ResetToBootloader(bool)`, with its flag writes, and to its `CheckFirmwareVersion` (HostController/IntelBluetoothHostController.cpp:2071-2096), which stores the image's boot address. That is the address the HostController setup boots at.
- BootloaderEvents.ProcessEvent: the downloading flag it clears is not fed back into the `Run` record. The decision trees take the wait outcome as given.
- FirmwarePackager: the licence banner is a parameter; `os.walk` becomes the list of files in walk order; SHA-1, zlib and its inverse are function parameters; the Python 2 `type(b) is str` branch is dropped because the model has bytes only.
- Concurrency between the workloop and the interrupt path: the model runs one request at a time.

## Findings

| source | as written | input that shows it | evidently intended | confidence | as-written member | corrected member |
|---|---|---|---|---|---|---|
| IntelBluetoothFamily/IntelBluetoothHostController.cpp:574-605 | `++inDataPtr; --inDataSize;` stand before the first `case` label and never run, so the sub-code byte stays in the size and at the front of the parameters | a well-formed secure-send result event with result 0 is ignored because its size counts the sub-code; an event one byte shorter is taken, and its result is read as the sub-code 0x06, a failure | read the vendor sub-code and then the fields at their own offsets, as the controller-class copy does | not executed | BootloaderEvents.ProcessEventFamily | BootloaderEvents.ProcessEvent |
| IntelBluetoothFamily/IntelBluetoothHostController.cpp:229-233 | the address is refused when `memcmp` with the default address is non-zero | any address other than the default one is refused, and the default one is accepted | refuse the address only when it equals the default address | not executed | Controller.FamilyAddressCheckInverted | Controller.CheckDeviceAddress |
| Transports/Gen3/IntelGen3BluetoothHostControllerUSBTransport.cpp:327-335 | after waiting, only a timeout is an error | the bootloader answers the load with a failure result: the wait returns an error and the download still returns success | return the wait's status | not executed | Gen3.LenientIgnoresLoadFailure | Gen3.DownloadLenientCorrected |
| IntelBluetoothFamily/IntelGen1BluetoothHostController.cpp:233-243 | when the default file also fails to open, control falls through to `return kIOReturnSuccess` | neither the specific nor the default patch file exists: the loader reports success with no firmware | return the failure of the default fetch | not executed | Gen1.FamilyDefaultFailureWitness | Gen1.LoadFamilyCorrected |
| IntelBluetoothFamily/IntelGen1BluetoothHostController.cpp:157-158 | `return err` in a function that returns `bool` | the activation command fails with a non-zero status: `start` returns true | return false when activation fails | not executed | Gen1.StartActivationFailureWitness | Gen1.StartLegacyCorrected |

=== FILE: bytes.dfy ===
/** Byte-level vocabulary shared by the whole model: the fixed-width unsigned
    integers of the C code, little-endian field access as the packed structures
    of the driver read them on x86, and the IOKit status codes it returns. */
module Bytes {

  type byte = x: int | 0 <= x < 0x100
  type uint16 = x: int | 0 <= x < 0x1_0000
  type uint32 = x: int | 0 <= x < 0x1_0000_0000

  datatype Option<T> = None | Some(value: T)

  /** The IOReturn values the modelled code produces or passes on. */
  datatype Status = Success | Invalid | Unsupported | Error | NotFound | Timeout | NoResources

  /** The 16-bit little-endian word stored at `s[i]`, `s[i+1]`. */
  function LE16(s: seq<byte>, i: nat): (v: uint16)
    requires i + 2 <= |s|
  {
    s[i] as int + 0x100 * (s[i + 1] as int)
  }

  /** The 32-bit little-endian word stored at `s[i..i+4]`. */
  function LE32(s: seq<byte>, i: nat): (v: uint32)
    requires i + 4 <= |s|
  {
    LE16(s, i) as int + 0x1_0000 * (LE16(s, i + 2) as int)
  }

  /** The two bytes a 16-bit field occupies, low byte first. */
  function EncodeLE16(v: uint16): (b: seq<byte>)
    ensures |b| == 2 && LE16(b, 0) == v
  {
    [v % 0x100, v / 0x100]
  }

  /** The four bytes a 32-bit field occupies, low byte first. */
  function EncodeLE32(v: uint32): (b: seq<byte>)
    ensures |b| == 4 && LE32(b, 0) == v
  {
    var lo := EncodeLE16(v % 0x1_0000);
    var hi := EncodeLE16(v / 0x1_0000);
    assert LE16(lo + hi, 0) == LE16(lo, 0);
    assert LE16(lo + hi, 2) == LE16(hi, 0);
    lo + hi
  }

  /** Division and remainder are determined by any quotient and remainder
      that rebuild the dividend. */
  lemma DivModUnique(v: int, k: int, a: int, b: int)
    requires k > 0 && 0 <= b < k && v == a * k + b
    ensures v / k == a && v % k == b
  {
    var q, r := v / k, v % k;
    var d := a - q;
    assert d * k == r - b;
    if d >= 1 {
      AtLeastOneMultiple(d, k);
      assert false;
    } else if d <= -1 {
      AtLeastOneMultiple(-d, k);
      assert false;
    }
  }

  /** A positive multiple of `k` is at least `k`. */
  lemma AtLeastOneMultiple(x: int, k: int)
    requires x >= 1 && k > 0
    ensures x * k >= k
  {
    assert x * k == (x - 1) * k + k;
  }

  /** Taking the remainder by a multiple of `m` first does not change the
      remainder by `m`. */
  lemma ModMod(x: nat, m: nat, n: nat)
    requires m > 0 && n > 0
    ensures (x % (m * n)) % m == x % m
  {
    var q, r := x / (m * n), x % (m * n);
    assert x == (q * n) * m + r;
    DivModUnique(r, m, r / m, r % m);
    DivModUnique(x, m, q * n + r / m, r % m);
  }

  /** The bytes of a 32-bit word, low byte first, as quotients and
      remainders of the word. */
  lemma EncodeLE32Bytes(v: uint32)
    ensures EncodeLE32(v)[0] == v % 0x100
    ensures EncodeLE32(v)[1] == (v / 0x100) % 0x100
    ensures EncodeLE32(v)[2] == (v / 0x1_0000) % 0x100
    ensures EncodeLE32(v)[3] == v / 0x100_0000
  {
    var lo, hi := v % 0x1_0000, v / 0x1_0000;
    var l1, l0 := lo / 0x100, lo % 0x100;
    var h1, h0 := hi / 0x100, hi % 0x100;
    assert v == (hi * 0x100 + l1) * 0x100 + l0;
    DivModUnique(v, 0x100, hi * 0x100 + l1, l0);
    DivModUnique(v / 0x100, 0x100, hi, l1);
    assert v == h1 * 0x100_0000 + (h0 * 0x1_0000 + lo);
    DivModUnique(v, 0x100_0000, h1, h0 * 0x1_0000 + lo);
  }

  /** Reading a 16-bit field and writing it back gives the same two bytes:
      the little-endian reading loses nothing. */
  lemma DecodeEncodeLE16(s: seq<byte>, i: nat)
    requires i + 2 <= |s|
    ensures EncodeLE16(LE16(s, i)) == s[i..i + 2]
  {
  }

  /** The same for 32-bit fields. */
  lemma DecodeEncodeLE32(s: seq<byte>, i: nat)
    requires i + 4 <= |s|
    ensures EncodeLE32(LE32(s, i)) == s[i..i + 4]
  {
    DecodeEncodeLE16(s, i);
    DecodeEncodeLE16(s, i + 2);
    var v := LE32(s, i);
    assert v % 0x1_0000 == LE16(s, i);
    assert v / 0x1_0000 == LE16(s, i + 2);
  }

  /** True when every byte of `s` is zero. */
  predicate AllZero(s: seq<byte>)
  {
    forall i :: 0 <= i < |s| ==> s[i] == 0
  }

  /** The elements of a sequence of sequences, in order. */
  function Flatten<T>(ss: seq<seq<T>>): (r: seq<T>)
  {
    if ss == [] then [] else ss[0] + Flatten(ss[1..])
  }

  lemma {:induction false} FlattenAppend<T>(a: seq<seq<T>>, b: seq<seq<T>>)
    ensures Flatten(a + b) == Flatten(a) + Flatten(b)
  {
    if a == [] {
      assert a + b == b;
    } else {
      assert (a + b)[1..] == a[1..] + b;
      FlattenAppend(a[1..], b);
    }
  }

  lemma FlattenOne<T>(x: seq<T>)
    ensures Flatten([x]) == x
  {
    assert [x][1..] == [];
  }
}

=== FILE: controller.dfy ===
/** Decisions the controller class takes about the device it drives: which
    version reports it accepts, whether the device address is the shared
    factory default, which opcode the Microsoft extension uses, and which
    vendor commands finish with a Command Complete event. Where the
    HostController and the Family copy of the class differ, both are here. */
module Controller {
  import opened Bytes
  import opened IntelTypes
  import opened TlvParser

  /** Hardware variants the legacy version report may name. */
  const LegacyReportVariants: set<byte> :=
    {VariantWP, VariantStP, VariantSfP, VariantWsP, VariantJfP, VariantThP, VariantHrP, VariantCcP}

  /** Hardware variants the TLV version report may name. */
  const TlvReportVariants: set<byte> := {VariantTyP, VariantSlr, VariantSlrF}

  /** `PrintVersionInfo(BluetoothIntelVersionInfo *)` of the HostController
      class: platform 0x37 and one of the eight legacy variants. */
  function CheckLegacyVersion(v: VersionInfo): (s: Status)
    ensures s == Success || s == Invalid
    ensures s == Success <==> v.hardwarePlatform == IntelPlatform && v.hardwareVariant in LegacyReportVariants
  {
    if v.hardwarePlatform != 0x37 then Invalid
    else if v.hardwareVariant != VariantWP && v.hardwareVariant != VariantStP
         && v.hardwareVariant != VariantSfP && v.hardwareVariant != VariantWsP
         && v.hardwareVariant != VariantJfP && v.hardwareVariant != VariantThP
         && v.hardwareVariant != VariantHrP && v.hardwareVariant != VariantCcP then Invalid
    else Success
  }

  /** The same check in the Family class, which also names the firmware
      variant and refuses any variant it has no name for. */
  function CheckLegacyVersionFamily(v: VersionInfo): (s: Status)
    ensures s == Success || s == Invalid
  {
    if CheckLegacyVersion(v) != Success then Invalid
    else match v.firmwareVariant
      case 0x01 => Success   // Legacy ROM 2.5
      case 0x06 => Success   // Bootloader
      case 0x22 => Success   // Legacy ROM 2.x
      case 0x23 => Success   // Firmware
      case _ => Invalid
  }

  /** The Family check accepts exactly the reports the HostController check
      accepts whose firmware variant is one of 01, 06, 22, 23; so it is the
      stricter of the two, and strictly so. */
  lemma LegacyChecksCompared(v: VersionInfo)
    ensures CheckLegacyVersionFamily(v) == Success <==>
      CheckLegacyVersion(v) == Success && v.firmwareVariant in {0x01, 0x06, 0x22, 0x23}
    ensures var w := VersionInfo(0x37, VariantJfP, 0, 0x02, 0, 0, 0, 0, 0);
      CheckLegacyVersion(w) == Success && CheckLegacyVersionFamily(w) == Invalid
  {
  }

  /** `PrintVersionInfo(BluetoothIntelVersionInfoTLV *)` of the HostController
      class: platform 0x37 and variant TyP, Slr or SlrF read from the CNVi BT
      register; a bootloader image must also acknowledge every fragment
      (`limitedCCE` 0) and use secure-boot engine 0 (RSA) or 1 (ECDSA). */
  function CheckTlvVersion(v: VersionInfoTlv): (s: Status)
    ensures s == Success || s == Invalid
    ensures s == Success <==>
      HardwarePlatform(v.cnviBT) == IntelPlatform && HardwareVariant(v.cnviBT) in TlvReportVariants
      && (v.imageType == ImageBootloader ==> v.limitedCCE == 0 && v.sbeType <= 1)
  {
    if HardwarePlatform(v.cnviBT) != 0x37 then Invalid
    else if HardwareVariant(v.cnviBT) !in {VariantTyP, VariantSlr, VariantSlrF} then Invalid
    else if v.imageType == ImageBootloader && v.limitedCCE != 0 then Invalid
    else if v.imageType == ImageBootloader && v.sbeType > 1 then Invalid
    else Success
  }

  /** The Family copy: the same, but an image type other than bootloader
      (01) or operational firmware (03) is refused. */
  function CheckTlvVersionFamily(v: VersionInfoTlv): (s: Status)
    ensures s == Success || s == Invalid
    ensures s == Success <==>
      HardwarePlatform(v.cnviBT) == IntelPlatform && HardwareVariant(v.cnviBT) in TlvReportVariants
      && (v.imageType == ImageFirmware || (v.imageType == ImageBootloader && v.limitedCCE == 0 && v.sbeType <= 1))
  {
    if HardwarePlatform(v.cnviBT) != 0x37 then Invalid
    else if HardwareVariant(v.cnviBT) !in {VariantTyP, VariantSlr, VariantSlrF} then Invalid
    else match v.imageType
      case 0x01 => if v.limitedCCE != 0 then Invalid else if v.sbeType > 1 then Invalid else Success
      case 0x03 => Success
      case _ => Invalid
  }

  /** The two TLV checks agree except on image types other than 01 and 03,
      which only the Family copy refuses. */
  lemma TlvChecksCompared(v: VersionInfoTlv)
    ensures CheckTlvVersionFamily(v) == Success <==>
      CheckTlvVersion(v) == Success && v.imageType in {ImageBootloader, ImageFirmware}
    ensures v.imageType == ImageBootloader && CheckTlvVersion(v) == Success ==> v.limitedCCE == 0 && v.sbeType <= 1
  {
  }

  /** The factory-default device address some controllers ship with. */
  const DefaultAddress: seq<byte> := [0x00, 0x8B, 0x9E, 0x19, 0x03, 0x00]

  /** The outcome of `CheckDeviceAddress`: its status and the new value of
      `mInvalidDeviceAddress`. */
  datatype AddressCheck = AddressCheck(status: Status, invalidAddress: bool)

  /** `CheckDeviceAddress` of the HostController class. `read` is the reply
      to Read BD_ADDR: an address, or the error the request failed with.
      The flag is raised when the address is the factory default and never
      lowered. */
  function CheckDeviceAddress(read: Result, invalidAddress: bool): (r: AddressCheck)
    requires read.Valid()
    ensures r.status == Success <==> read.Address?
    ensures r.invalidAddress == (invalidAddress || (read.Address? && read.address == DefaultAddress))
  {
    match read
    case Failed(e) => AddressCheck(e, invalidAddress)
    case Address(a) =>
      // `!memcmp(&address, &defaultAddress, 6)`
      AddressCheck(Success, if a == DefaultAddress then true else invalidAddress)
  }

  /** The reply of a device request: the six address bytes, or an error. */
  datatype Result = Address(address: seq<byte>) | Failed(error: Status)
  {
    predicate Valid()
    {
      (Address? ==> |address| == 6) && (Failed? ==> error != Success)
    }
  }

  /** `CheckDeviceAddress` of the Family class as written: the test is
      `memcmp(...)` without the negation, so the flag is raised when the
      address differs from the factory default. */
  function CheckDeviceAddressFamily(read: Result, invalidAddress: bool): (r: AddressCheck)
    requires read.Valid()
    ensures r.status == Success <==> read.Address?
  {
    match read
    case Failed(e) => AddressCheck(e, invalidAddress)
    case Address(a) => AddressCheck(Success, if a != DefaultAddress then true else invalidAddress)
  }

  /** The Family check flags every address except the default one, and
      leaves the default one unflagged: the opposite of the other check. */
  lemma FamilyAddressCheckInverted(a: seq<byte>)
    requires |a| == 6
    ensures CheckDeviceAddressFamily(Address(a), false).invalidAddress == (a != DefaultAddress)
    ensures CheckDeviceAddress(Address(a), false).invalidAddress == (a == DefaultAddress)
    ensures CheckDeviceAddressFamily(Address(DefaultAddress), false).invalidAddress == false
    ensures CheckDeviceAddress(Address(DefaultAddress), false).invalidAddress == true
  {
  }

  /** `SetMicrosoftExtensionOpCode`: variants JfP..CcP and TyP..SlrF use the
      vendor opcode 0xFC1E; for any other variant the opcode is left as it
      was. The HostController and Family copies are identical. */
  function MicrosoftExtensionOpCode(current: uint16, variant: byte): (op: uint16)
    ensures (0x11 <= variant <= 0x14 || 0x17 <= variant <= 0x19) ==> op == OpMicrosoftExtension
    ensures !(0x11 <= variant <= 0x14 || 0x17 <= variant <= 0x19) ==> op == current
  {
    match variant
    case 0x11 => 0xFC1E case 0x12 => 0xFC1E case 0x13 => 0xFC1E case 0x14 => 0xFC1E
    case 0x17 => 0xFC1E case 0x18 => 0xFC1E case 0x19 => 0xFC1E
    case _ => current
  }

  /** Vendor commands that the controller answers with Command Complete
      rather than Command Status. */
  const CommandCompleteOpCodes: set<uint16> :=
    {OpReset, OpReadVersionInfo, OpSecureSend, OpSetEventMask, OpReadOffloadUseCases,
     OpWriteConfigDDC, OpSetLinkStatsTracing, OpReadDebugFeatures}

  /** How `SetHCIRequestRequireEvents` configures a request. */
  datatype EventRequirement =
    | NoRequest                     // null request: returns false
    | ExpectCommandComplete         // expected event 2, no explicit complete events
    | Inherited                     // left to the IOBluetoothFamily superclass

  function RequireEvents(op: uint16, requestPresent: bool): (r: EventRequirement)
    ensures !requestPresent <==> r == NoRequest
  {
    if !requestPresent then NoRequest
    else match op
      case 0xFC01 => ExpectCommandComplete case 0xFC05 => ExpectCommandComplete
      case 0xFC09 => ExpectCommandComplete case 0xFC52 => ExpectCommandComplete
      case 0xFC86 => ExpectCommandComplete case 0xFC8B => ExpectCommandComplete
      case 0xFCA1 => ExpectCommandComplete case 0xFCA6 => ExpectCommandComplete
      case _ => Inherited
  }

  /** The Command Complete event code (section 7.7.14 of the Bluetooth Core
      Specification, Vol 4 Part E). */
  const EventCommandComplete: byte := 0x0E

  /** `GetCompleteCodeForCommand`: the completing event for the vendor
      commands it knows, `None` where it defers to the superclass. */
  function CompleteCodeFor(op: uint16): (code: Option<byte>)
  {
    match op
    case 0xFC01 => Some(EventCommandComplete) case 0xFC05 => Some(EventCommandComplete)
    case 0xFC09 => Some(EventCommandComplete) case 0xFC52 => Some(EventCommandComplete)
    case 0xFC86 => Some(EventCommandComplete) case 0xFC8B => Some(EventCommandComplete)
    case 0xFCA1 => Some(EventCommandComplete) case 0xFCA6 => Some(EventCommandComplete)
    case _ => None
  }

  /** Both functions single out the same eight vendor opcodes, which are
      the Reset, Read Version, Secure Send, Set Event Mask, Read Offload Use
      Cases, Write Config DDC, Set Link Stats Tracing and Read Debug Features
      commands of the vendor group. */
  lemma CommandCompleteTablesAgree(op: uint16)
    ensures RequireEvents(op, true) == ExpectCommandComplete <==> op in CommandCompleteOpCodes
    ensures CompleteCodeFor(op) == Some(EventCommandComplete) <==> op in CommandCompleteOpCodes
    ensures CompleteCodeFor(op).Some? <==> RequireEvents(op, true) == ExpectCommandComplete
  {
  }
}

=== FILE: download.dfy ===
/** What the `DownloadFirmwareWL` functions of the secure-boot generations
    share: the environment the driver cannot see into (the firmware lookup,
    the transport, `ResetToBootloader`, the wait for the bootloader's
    verdict), the controller flags they change, and the sending of a CSS
    header followed by the command payload. */
module Download {
  import opened Bytes
  import opened IntelTypes
  import opened Hci
  import opened SecureSend

  /** How `WaitForFirmwareDownload` ends: the bootloader's Secure Send Result
      arrived with success, it arrived with a failure
      (`mFirmwareLoadingFailed`), or five seconds passed first. */
  datatype Wait = Completed | LoadFailed | TimedOut

  function WaitStatus(w: Wait): (s: Status)
    ensures s == Success <==> w == Completed
    ensures s == Timeout <==> w == TimedOut
  {
    match w
    case Completed => Success
    case LoadFailed => Error
    case TimedOut => Timeout
  }

  /** The firmware lookup: the image, or the error it failed with. */
  datatype Fetch = Fetched(image: seq<byte>) | FetchFailed(error: Status)

  /** Everything the download depends on besides the version record and the
      controller flags. `resetStatus` is what `ResetToBootloader` returns. */
  datatype Env = Env(fetch: Fetch, link: Link, resetStatus: Status, wait: Wait)
  {
    predicate Valid()
    {
      link.Valid() && (fetch.FetchFailed? ==> fetch.error != Success)
    }
  }

  /** The controller state a download reads and writes. */
  datatype Ctl = Ctl(bootloaderMode: bool, downloading: bool, loaded: bool, invalidAddress: bool, bootAddress: uint32)

  /** The result of one `DownloadFirmwareWL` call: its status, the controller
      state afterwards, the commands that went out, how many times the
      device was reset to the bootloader, whether the operational-firmware
      address check ran, and whether the driver waited for the verdict. */
  datatype Run = Run(status: Status, ctl: Ctl, sent: seq<Command>, resets: nat, addressChecked: bool, waited: bool)

  /** The two CSS header layouts an `.sfi` image can be sent with. */
  datatype Header = RsaOnly | EcdsaAfterRsa

  function HeaderEnd(h: Header): (n: nat)
    ensures n == RsaHeaderLength || n == EcdsaPayloadOffset
  {
    match h
    case RsaOnly => RsaHeaderLength
    case EcdsaAfterRsa => EcdsaPayloadOffset
  }

  function HeaderCommands(h: Header, image: seq<byte>): (cmds: seq<Command>)
    requires |image| >= HeaderEnd(h)
    ensures OfType(cmds, FragmentData) == []
  {
    match h
    case RsaOnly => RsaHeaderSlices(image); RsaHeader(image)
    case EcdsaAfterRsa => EcdsaHeaderSlices(image); EcdsaHeader(image)
  }

  /** Selecting Data fragments from a list of Data fragments keeps it whole. */
  lemma {:induction false} OfTypeAll(cmds: seq<Command>, t: byte)
    requires forall i :: 0 <= i < |cmds| ==> IsSecureSend(cmds[i], t)
    ensures OfType(cmds, t) == cmds
    decreases |cmds|
  {
    if cmds != [] {
      OfTypeAll(cmds[1..], t);
      assert cmds == [cmds[0]] + cmds[1..];
    }
  }

  lemma SentAfterHeader(header: seq<Command>, sent: seq<Command>)
    requires OfType(header, FragmentData) == []
    requires forall i :: 0 <= i < |sent| ==> IsSecureSend(sent[i], FragmentData)
    ensures header <= header + sent
    ensures OfType(header + sent, FragmentData) == sent
  {
    OfTypeAppend(header, sent, FragmentData);
    OfTypeAll(sent, FragmentData);
    assert [] + sent == sent;
  }

  /** A header, then the payload from `offset`: the second step runs only
      when the first went through, on the same transport. */
  function SendImage(image: seq<byte>, h: Header, offset: nat, link: Link): (d: Delivery)
    requires link.Valid() && |image| >= HeaderEnd(h) && PayloadWalks(image, offset, 0)
    ensures d.status == Success ==>
      offset < |image| && HeaderCommands(h, image) <= d.sent && Payload(OfType(d.sent, FragmentData)) == image[offset..]
    ensures d.status != Success ==> d.status == Invalid || link.FailsAt?
    ensures link == Reliable && offset < |image| ==> d.status == Success
  {
    var header := HeaderCommands(h, image);
    var first := Deliver(header, link);
    if first.status != Success then first
    else
      var second := DownloadPayload(image, offset, link.After(|header|));
      SentAfterHeader(header, second.sent);
      Delivery(header + second.sent, second.status)
  }

  /** Which header the image is sent with and where its payload starts, as
      decided from the CSS header versions, the hardware variant and the
      secure-boot engine type. */
  datatype Plan = Refuse | NothingToSend | Send(header: Header, offset: nat)

  /** The walks the chosen plan makes through the image stay inside it. */
  predicate PlanWalks(p: Plan, image: seq<byte>)
  {
    p.Send? ==> |image| >= HeaderEnd(p.header) && PayloadWalks(image, p.offset, 0)
  }

  /** What the sending part of a tree ends with: the status it reached
      (a refusal, a send failure, or the wait's verdict), what went out, and
      whether the wait was reached. */
  datatype Transfer = Transfer(status: Status, sent: seq<Command>, waited: bool)

  function Transmit(p: Plan, image: seq<byte>, link: Link, wait: Wait): (t: Transfer)
    requires link.Valid() && PlanWalks(p, image)
    ensures t.waited ==> t.status == WaitStatus(wait)
    ensures !t.waited ==> t.status != Success
    ensures p == Refuse ==> t == Transfer(Invalid, [], false)
    ensures t.waited && p.Send? ==> p.offset < |image| && Payload(OfType(t.sent, FragmentData)) == image[p.offset..]
    ensures p.Send? && link == Reliable && p.offset < |image| ==> t.waited
  {
    match p
    case Refuse => Transfer(Invalid, [], false)
    case NothingToSend => Transfer(WaitStatus(wait), [], true)
    case Send(h, offset) =>
      var d := SendImage(image, h, offset, link);
      if d.status != Success then Transfer(d.status, d.sent, false)
      else Transfer(WaitStatus(wait), d.sent, true)
  }

  /** `WaitForFirmwareDownload` marks the firmware loaded before it starts
      waiting, whatever the verdict. */
  function Waited(c: Ctl, waited: bool): (c': Ctl)
    ensures c'.loaded == (c.loaded || waited)
    ensures c'.(loaded := c.loaded) == c
  {
    if waited then c.(loaded := true) else c
  }

  /** The two `ResetToBootloader` routines. The Family class's
      `ResetToBootloader(inID)` only sends the reset. The HostController
      class's `ResetToBootloader(bool)` first enters bootloader mode and
      marks a download under way, so those flags change whether or not the
      reset then goes out. */
  datatype Resetter = FamilyReset | HostReset

  /** The controller flags after a reset by `who`. */
  function AfterReset(who: Resetter, c: Ctl): (c': Ctl)
    ensures who == FamilyReset ==> c' == c
    ensures who == HostReset ==> c'.bootloaderMode && c'.downloading
    ensures c'.(bootloaderMode := c.bootloaderMode, downloading := c.downloading) == c
  {
    match who
    case FamilyReset => c
    case HostReset => c.(bootloaderMode := true, downloading := true)
  }

  /** The end the trees share: a refusal, a send failure or a timeout
      resets to the bootloader with `who`'s routine; the status reached is
      returned. */
  function Finish(t: Transfer, c: Ctl, resets: nat, checked: bool, who: Resetter): (r: Run)
    requires !t.waited ==> t.status != Success
    ensures r.sent == t.sent && r.waited == t.waited && r.status == t.status
    ensures r.ctl.loaded == (c.loaded || t.waited)
    ensures r.status == Success ==> r.resets == resets && r.ctl == c.(loaded := true)
    ensures !r.waited ==> r.status != Success && r.resets == resets + 1 && r.ctl == AfterReset(who, c)
    ensures r.status == Timeout ==> r.resets == resets + 1 && (who == HostReset ==> r.ctl.bootloaderMode)
    ensures r.waited && r.status != Timeout ==> r.resets == resets && r.ctl == c.(loaded := true)
  {
    if !t.waited || t.status == Timeout then
      Run(t.status, AfterReset(who, Waited(c, t.waited)), t.sent, resets + 1, checked, t.waited)
    else Run(t.status, Waited(c, true), t.sent, resets, checked, true)
  }

  /** The device reports no address of its own when every OTP byte is 0. */
  predicate NoOtpAddress(addr: seq<byte>)
  {
    |addr| >= 6 && AllZero(addr[..6])
  }
}

=== FILE: events.dfy ===
/** The bootloader's vendor events and the four flags they drive:
    `mBooting`, `mDownloading`, `mFirmwareLoaded`, `mFirmwareLoadingFailed`.
    An HCI event packet (section 5.4.4 of the Bluetooth Core Specification,
    Vol 4 Part E) is an event code, a parameter length and the parameters;
    the vendor event 0xFF carries a sub-code as its first parameter. */
module BootloaderEvents {
  import opened Bytes
  import opened IntelTypes

  datatype Flags = Flags(booting: bool, downloading: bool, loaded: bool, failed: bool)

  const VendorEventCode: byte := 0xFF

  /** A vendor event packet with the given sub-code and parameters. */
  function VendorEvent(sub: byte, params: seq<byte>): (p: seq<byte>)
    requires |params| < 255
    ensures |p| == EventHeaderSize + 1 + |params|
    ensures p[0] == VendorEventCode && p[1] as int == |p| - EventHeaderSize && p[2] == sub
    ensures p[3..] == params
  {
    [VendorEventCode, (|params| + 1) as byte, sub] + params
  }

  /** The packet is longer than its header and its length byte counts the
      bytes after the header. */
  predicate Framed(p: seq<byte>)
  {
    |p| > EventHeaderSize && p[1] as int == |p| - EventHeaderSize
  }

  /** `ProcessEventDataWL` of the HostController class, as far as the flags
      go. Outside bootloader mode, or for a packet that is not a framed
      vendor event, nothing changes. Sub-code 0x02 with six parameters
      after the sub-code ends booting; sub-code 0x06 with four records a
      failed load when its result byte is nonzero and, when a download is
      in progress and the firmware is marked loaded, ends the download. */
  function ProcessEvent(bootloaderMode: bool, f: Flags, p: seq<byte>): (r: Flags)
    ensures r.loaded == f.loaded
    ensures r.booting ==> f.booting
    ensures r.downloading ==> f.downloading
    ensures f.failed ==> r.failed
    ensures r != f ==> bootloaderMode && Framed(p) && p[0] == VendorEventCode
  {
    if |p| <= EventHeaderSize then f
    else if p[1] as int != |p| - EventHeaderSize then f
    else if bootloaderMode && p[1] > 0 && p[0] == VendorEventCode then
      var paramSize := |p| - EventHeaderSize - 1;
      if p[2] == EventBootup then
        if paramSize != BootupEventParamsSize then f
        else f.(booting := false)
      else if p[2] == EventSecureSendResult then
        match DecodeSecureSendResult(p[3..])
        case None => f
        case Some(res) =>
          var failed := if res.result != 0 then true else f.failed;
          if f.downloading && f.loaded then f.(failed := failed, downloading := false)
          else f.(failed := failed)
      else f
    else f
  }

  /** A Bootup event ends booting and touches nothing else. */
  lemma BootupEndsBooting(f: Flags, b: BootupEventParams)
    ensures ProcessEvent(true, f, VendorEvent(EventBootup, EncodeBootupEventParams(b))) == f.(booting := false)
  {
  }

  /** A Secure Send Result event records failure exactly when its result is
      nonzero, and ends a download only when the firmware is marked loaded. */
  lemma ResultEventOutcome(f: Flags, res: SecureSendResult)
    ensures var r := ProcessEvent(true, f, VendorEvent(EventSecureSendResult, EncodeSecureSendResult(res)));
      r.failed == (f.failed || res.result != 0) &&
      r.downloading == (f.downloading && !f.loaded) &&
      r.booting == f.booting
  {
    SecureSendResultRoundTrip(res, []);
  }

  /** Conversely, booting ends only on a Bootup event of the right size, and
      a failure is recorded only from a Secure Send Result event whose
      result byte is nonzero. */
  lemma {:induction false} FlagChangesExplained(bootloaderMode: bool, f: Flags, p: seq<byte>)
    ensures ProcessEvent(bootloaderMode, f, p).booting != f.booting ==>
      bootloaderMode && Framed(p) && p[0] == VendorEventCode && p[2] == EventBootup &&
      |p| == EventHeaderSize + 1 + BootupEventParamsSize
    ensures ProcessEvent(bootloaderMode, f, p).failed != f.failed ==>
      bootloaderMode && Framed(p) && p[0] == VendorEventCode && p[2] == EventSecureSendResult &&
      |p| == EventHeaderSize + 1 + SecureSendResultSize && p[3] != 0
    ensures ProcessEvent(bootloaderMode, f, p).downloading != f.downloading ==>
      f.loaded && p[2] == EventSecureSendResult
  {
  }

  /** `ProcessEventDataWL` of the Family class as written. The header is
      skipped, but the `++inDataPtr; --inDataSize;` that would skip the
      sub-code sits before the first `case` label and never runs, so the
      sizes compared against 6 and 4 include the sub-code and the result
      byte read is the sub-code itself. */
  function ProcessEventFamily(bootloaderMode: bool, f: Flags, p: seq<byte>): (r: Flags)
    ensures r.loaded == f.loaded
    ensures r != f ==> bootloaderMode && Framed(p) && p[0] == VendorEventCode
  {
    if |p| <= EventHeaderSize then f
    else
      var dataSize := |p| - EventHeaderSize;
      if p[1] as int != dataSize || p[1] == 0 then f
      else if bootloaderMode && p[0] == VendorEventCode then
        if p[2] == EventBootup then
          if dataSize != BootupEventParamsSize then f
          else f.(booting := false)
        else if p[2] == EventSecureSendResult then
          if dataSize != SecureSendResultSize then f
          else
            // the result is read from p[2], the sub-code 0x06
            var failed := if p[2] != 0 then true else f.failed;
            if f.downloading && f.loaded then f.(failed := failed, downloading := false)
            else f.(failed := failed)
        else f
      else f
  }

  /** The Family handler ignores every well-formed Bootup and Secure Send
      Result event, so neither booting nor a download is ever ended by them. */
  lemma FamilyIgnoresWellFormedEvents(f: Flags, b: BootupEventParams, res: SecureSendResult)
    ensures ProcessEventFamily(true, f, VendorEvent(EventBootup, EncodeBootupEventParams(b))) == f
    ensures ProcessEventFamily(true, f, VendorEvent(EventSecureSendResult, EncodeSecureSendResult(res))) == f
  {
  }

  /** The Family handler acts on a Secure Send Result event only when it is
      one byte short, and then always records a failure, even for a zero
      result; the HostController handler ignores that packet. */
  lemma FamilyShortResultAlwaysFails(f: Flags, x: seq<byte>)
    requires |x| == SecureSendResultSize - 1
    ensures ProcessEventFamily(true, f, VendorEvent(EventSecureSendResult, x)).failed
    ensures ProcessEvent(true, f, VendorEvent(EventSecureSendResult, x)) == f
  {
  }

  /** A Bootup event with five parameters, one short, ends booting in the
      Family handler and is ignored by the other. */
  lemma FamilyAcceptsShortBootup(f: Flags, x: seq<byte>)
    requires |x| == BootupEventParamsSize - 1
    ensures ProcessEventFamily(true, f, VendorEvent(EventBootup, x)) == f.(booting := false)
    ensures ProcessEvent(true, f, VendorEvent(EventBootup, x)) == f
  {
  }
}

=== FILE: fwgen.dfy ===
/** The build-time firmware packager: it walks the firmware directory,
    keeps the files with a listed extension, and writes a C source file
    holding one zlib-compressed byte array per distinct file content (told
    apart by SHA-1 digest), a descriptor table with one row per file, and
    the number of rows. SHA-1 and zlib are parameters here: `digestOf`
    stands for the hex digest and `compress` for the compressor; the
    directory walk is the list of files in the order it found them. */
module FirmwarePackager {
  import opened Bytes
  import opened Text

  datatype SourceFile = SourceFile(relPath: string, data: seq<byte>)

  /** One descriptor row: the stored path, the digest naming the array,
      and the compressed length recorded for it. */
  datatype Entry = Entry(path: string, digest: string, length: nat)

  /** One emitted array: its digest and its rows of bytes. */
  datatype Blob = Blob(digest: string, rows: seq<seq<byte>>)

  /** What the packager has built so far. */
  datatype Packed = Packed(entries: seq<Entry>, blobs: seq<Blob>)

  // ---------------------------------------------------------------------
  // Strings: str.lstrip, str.split, os.path.splitext

  /** `s.lstrip(c)`: `s` without the run of `c` it starts with. */
  function LStrip(s: string, c: char): (r: string)
    ensures |r| <= |s| && s[|s| - |r|..] == r
    ensures r == [] || r[0] != c
    ensures forall i :: 0 <= i < |s| - |r| ==> s[i] == c
    decreases |s|
  {
    if s != [] && s[0] == c then LStrip(s[1..], c) else s
  }

  /** Stripping twice strips nothing more, and a string not starting with
      `c` is left alone. */
  lemma LStripIdempotent(s: string, c: char)
    ensures LStrip(LStrip(s, c), c) == LStrip(s, c)
    ensures s == [] || s[0] != c ==> LStrip(s, c) == s
  {
  }

  /** `s.split(sep)`: the pieces between the separators, at least one. */
  function Split(s: string, sep: char): (parts: seq<string>)
    ensures |parts| >= 1
    ensures forall i :: 0 <= i < |parts| ==> sep !in parts[i]
    decreases |s|
  {
    if s == [] then [[]]
    else
      var rest := Split(s[1..], sep);
      if s[0] == sep then [[]] + rest
      else [[s[0]] + rest[0]] + rest[1..]
  }

  /** The pieces joined back with the separator. */
  function JoinWith(parts: seq<string>, sep: char): (s: string)
    requires |parts| >= 1
    decreases |parts|
  {
    if |parts| == 1 then parts[0] else parts[0] + [sep] + JoinWith(parts[1..], sep)
  }

  /** Splitting loses nothing: joining the pieces gives the argument back. */
  lemma {:induction false} SplitJoin(s: string, sep: char)
    ensures JoinWith(Split(s, sep), sep) == s
    decreases |s|
  {
    if s != [] {
      var rest := Split(s[1..], sep);
      SplitJoin(s[1..], sep);
      if s[0] == sep {
        assert ([[]] + rest)[1..] == rest;
      } else {
        var parts := [[s[0]] + rest[0]] + rest[1..];
        if |rest| > 1 {
          assert parts[1..] == rest[1..];
          assert JoinWith(rest, sep) == rest[0] + [sep] + JoinWith(rest[1..], sep);
        }
      }
    }
  }

  /** The index of the last `c` in `s`. */
  function LastIndex(s: string, c: char): (i: Option<nat>)
    ensures i.Some? ==> i.value < |s| && s[i.value] == c && c !in s[i.value + 1..]
    ensures i.None? ==> c !in s
    decreases |s|
  {
    if s == [] then None
    else if s[|s| - 1] == c then Some(|s| - 1)
    else
      var i := LastIndex(s[..|s| - 1], c);
      assert s == s[..|s| - 1] + [s[|s| - 1]];
      if i.None? then None
      else
        assert s[i.value + 1..] == s[..|s| - 1][i.value + 1..] + [s[|s| - 1]];
        i
  }

  /** Every character of `s` is a dot. */
  predicate AllDots(s: string)
  {
    forall k :: 0 <= k < |s| ==> s[k] == '.'
  }

  /** The extension of a file name without directories: from its last dot,
      provided something other than dots comes before that dot. */
  function NameExtension(name: string): (ext: string)
    ensures ext == [] || (ext[0] == '.' && '.' !in ext[1..])
    ensures |ext| <= |name| && name[|name| - |ext|..] == ext
  {
    match LastIndex(name, '.')
    case None => []
    case Some(d) =>
      if AllDots(name[..d]) then []
      else
        assert name[d..][1..] == name[d + 1..];
        name[d..]
  }

  /** `os.path.splitext(p)[1]`: the extension of the last path component,
      so it holds no slash. */
  function Extension(p: string): (ext: string)
    ensures ext == [] || (ext[0] == '.' && '.' !in ext[1..] && '/' !in ext)
    ensures |ext| <= |p| && p[|p| - |ext|..] == ext
  {
    var start := match LastIndex(p, '/') case Some(k) => k + 1 case None => 0;
    var name := p[start..];
    assert '/' !in name;
    var ext := NameExtension(name);
    assert p[|p| - |ext|..] == name[|name| - |ext|..];
    ext
  }

  /** The extension without its dot: the part after the last dot of the
      file name, or empty when there is none. */
  function ExtensionName(p: string): (e: string)
    ensures '.' !in e
  {
    LStrip(Extension(p), '.')
  }

  /** A file is packed when its extension name is one of the listed ones,
      compared exactly. */
  predicate Selected(f: SourceFile, extensions: seq<string>)
  {
    ExtensionName(f.relPath) in extensions
  }

  /** The files the walk found that are packed, in the order found. */
  function Filter(files: seq<SourceFile>, extensions: seq<string>): (kept: seq<SourceFile>)
    ensures |kept| <= |files|
    decreases |files|
  {
    if files == [] then []
    else
      var rest := Filter(files[1..], extensions);
      if Selected(files[0], extensions) then [files[0]] + rest else rest
  }

  /** Every file the walk found with a listed extension is packed, and
      nothing else is. */
  lemma {:induction false} FilterKeepsSelected(files: seq<SourceFile>, extensions: seq<string>, f: SourceFile)
    ensures f in Filter(files, extensions) <==> f in files && Selected(f, extensions)
    decreases |files|
  {
    if files != [] {
      assert files == [files[0]] + files[1..];
      var rest := Filter(files[1..], extensions);
      FilterKeepsSelected(files[1..], extensions, f);
      assert f in files <==> f == files[0] || f in files[1..];
      if Selected(files[0], extensions) {
        assert f in [files[0]] + rest <==> f == files[0] || f in rest;
      }
    }
  }

  /** An empty extension argument splits into one empty name, which keeps
      exactly the files whose name has no extension (or ends with a dot). */
  lemma EmptyArgumentKeepsPlainFiles(f: SourceFile)
    ensures Split("", ',') == [""]
    ensures Selected(f, Split("", ',')) <==> Extension(f.relPath) == [] || Extension(f.relPath) == "."
  {
    StripDot(Extension(f.relPath));
  }

  /** An extension loses exactly its one dot to the strip. */
  lemma StripDot(ext: string)
    requires ext == [] || (ext[0] == '.' && '.' !in ext[1..])
    ensures LStrip(ext, '.') == if ext == [] then [] else ext[1..]
  {
    if ext != [] && ext[1..] != [] {
      assert ext[1..][0] == ext[1];
    }
  }

  // ---------------------------------------------------------------------
  // write_single_file

  /** The index of the first row recorded for a digest. */
  function FindDigest(entries: seq<Entry>, digest: string): (i: Option<nat>)
    ensures i.Some? ==> (i.value < |entries| && entries[i.value].digest == digest
                         && forall k :: 0 <= k < i.value ==> entries[k].digest != digest)
    ensures i.None? ==> forall k :: 0 <= k < |entries| ==> entries[k].digest != digest
    decreases |entries|
  {
    if entries == [] then None
    else if entries[0].digest == digest then Some(0)
    else match FindDigest(entries[1..], digest)
      case None => None
      case Some(k) => Some(k + 1)
  }

  /** The index of the array declared for a digest. */
  function FindBlob(blobs: seq<Blob>, digest: string): (i: Option<nat>)
    ensures i.Some? ==> (i.value < |blobs| && blobs[i.value].digest == digest
                         && forall k :: 0 <= k < i.value ==> blobs[k].digest != digest)
    ensures i.None? ==> forall k :: 0 <= k < |blobs| ==> blobs[k].digest != digest
    decreases |blobs|
  {
    if blobs == [] then None
    else if blobs[0].digest == digest then Some(0)
    else match FindBlob(blobs[1..], digest)
      case None => None
      case Some(k) => Some(k + 1)
  }

  const RowSize := 16

  /** The rows an array is written in: 16 bytes at a time, and what is
      left when 16 or fewer remain. */
  function Rows(data: seq<byte>): (rows: seq<seq<byte>>)
    decreases |data|
  {
    if data == [] then []
    else if |data| <= RowSize then [data]
    else [data[..RowSize]] + Rows(data[RowSize..])
  }

  /** The rows are 16 bytes each, the last one shorter when the data does
      not divide evenly, none is empty, and together they are the data. */
  lemma {:induction false} RowsShape(data: seq<byte>)
    ensures Flatten(Rows(data)) == data
    ensures forall i :: 0 <= i < |Rows(data)| ==> 0 < |Rows(data)[i]| <= RowSize
    ensures forall i :: 0 <= i < |Rows(data)| - 1 ==> |Rows(data)[i]| == RowSize
    decreases |data|
  {
    if data == [] {
    } else if |data| <= RowSize {
      FlattenOne(data);
    } else {
      var rest := Rows(data[RowSize..]);
      RowsShape(data[RowSize..]);
      var rows := [data[..RowSize]] + rest;
      assert rows[1..] == rest;
      assert data == data[..RowSize] + data[RowSize..];
    }
  }

  /** The row loop of `write_single_file`: a block is the next 16 bytes, or
      all that remains when at most 16 do; a block shorter than 16 bytes is
      written only when it is not empty, and ends the loop. */
  method WriteRows(data: seq<byte>) returns (rows: seq<seq<byte>>)
    ensures rows == Rows(data)
  {
    var index := 0;
    rows := [];
    while true
      invariant index <= |data|
      invariant rows + Rows(data[index..]) == Rows(data)
      decreases |data| - index
    {
      var block := if index + RowSize >= |data| then data[index..] else data[index..index + RowSize];
      if |block| < RowSize {
        assert Rows(data[index..]) == if block == [] then [] else [block] by {
          ShortRow(data, index);
        }
        if |block| > 0 {
          rows := rows + [block];
        } else {
          assert rows + [] == rows;
        }
        return;
      }
      ghost var rest := Rows(data[index + RowSize..]);
      assert Rows(data[index..]) == [block] + rest by {
        FullRow(data, index);
      }
      assert (rows + [block]) + rest == rows + ([block] + rest);
      rows := rows + [block];
      index := index + RowSize;
    }
  }

  /** Fewer than 16 bytes from `index` on make one row, or none. */
  lemma ShortRow(data: seq<byte>, index: nat)
    requires index <= |data| < index + RowSize
    ensures Rows(data[index..]) == if index == |data| then [] else [data[index..]]
  {
  }

  /** At least 16 bytes from `index` on make a full row followed by the
      rows of the rest. */
  lemma FullRow(data: seq<byte>, index: nat)
    requires index + RowSize <= |data|
    ensures Rows(data[index..]) == [data[index..index + RowSize]] + Rows(data[index + RowSize..])
  {
    var tail := data[index..];
    if |tail| == RowSize {
      assert tail == data[index..index + RowSize];
      assert data[index + RowSize..] == [];
      assert Rows([]) == [];
      assert [tail] + [] == [tail];
    } else {
      assert tail[..RowSize] == data[index..index + RowSize];
      assert tail[RowSize..] == data[index + RowSize..];
    }
  }

  /** `write_single_file`: the path without its leading dots; a digest
      already recorded reuses the first recorded length and writes
      nothing; a new digest is compressed, recorded with the compressed
      length, and written out as an array. */
  function WriteSingleFile(p: Packed, f: SourceFile, digestOf: seq<byte> -> string,
                           compress: seq<byte> -> seq<byte>): (q: Packed)
    ensures |q.entries| == |p.entries| + 1 && q.entries == p.entries + [q.entries[|p.entries|]]
    ensures q.entries[|p.entries|].path == LStrip(f.relPath, '.')
    ensures q.entries[|p.entries|].digest == digestOf(f.data)
  {
    var digest := digestOf(f.data);
    var path := LStrip(f.relPath, '.');
    match FindDigest(p.entries, digest)
    case Some(i) => Packed(p.entries + [Entry(path, digest, p.entries[i].length)], p.blobs)
    case None =>
      var compressed := compress(f.data);
      Packed(p.entries + [Entry(path, digest, |compressed|)], p.blobs + [Blob(digest, Rows(compressed))])
  }

  /** The files packed one after another, in the order the walk found them. */
  function PackAll(files: seq<SourceFile>, digestOf: seq<byte> -> string,
                   compress: seq<byte> -> seq<byte>): (p: Packed)
    ensures |p.entries| == |files| && |p.blobs| <= |files|
    decreases |files|
  {
    if files == [] then Packed([], [])
    else WriteSingleFile(PackAll(files[..|files| - 1], digestOf, compress), files[|files| - 1], digestOf, compress)
  }

  // ---------------------------------------------------------------------
  // The packing invariant

  /** The rows record the files in order: stripped path and digest. */
  ghost predicate EntriesMatch(entries: seq<Entry>, files: seq<SourceFile>, digestOf: seq<byte> -> string)
  {
    |entries| == |files|
    && forall i :: 0 <= i < |files| ==>
         entries[i].path == LStrip(files[i].relPath, '.') && entries[i].digest == digestOf(files[i].data)
  }

  /** Each array is declared once. */
  ghost predicate BlobsDistinct(blobs: seq<Blob>)
  {
    forall i, j :: 0 <= i < j < |blobs| ==> blobs[i].digest != blobs[j].digest
  }

  /** Every array belongs to some row. */
  ghost predicate BlobsOwned(p: Packed)
  {
    forall j :: 0 <= j < |p.blobs| ==> FindDigest(p.entries, p.blobs[j].digest).Some?
  }

  /** Every row resolves. */
  ghost predicate AllResolve(p: Packed, files: seq<SourceFile>, compress: seq<byte> -> seq<byte>)
  {
    |p.entries| == |files| && forall i :: 0 <= i < |files| ==> Resolves(p, files, compress, i)
  }

  /** The rows record the files in order; each array is declared once;
      every array belongs to some row; and every row resolves. */
  ghost predicate Packs(p: Packed, files: seq<SourceFile>, digestOf: seq<byte> -> string,
                        compress: seq<byte> -> seq<byte>)
  {
    EntriesMatch(p.entries, files, digestOf) && BlobsDistinct(p.blobs) && BlobsOwned(p)
    && AllResolve(p, files, compress)
  }

  /** Row `i` names an array that holds the compressed bytes of the first
      file with its digest, and records the length of those bytes. */
  ghost predicate Resolves(p: Packed, files: seq<SourceFile>, compress: seq<byte> -> seq<byte>, i: nat)
    requires i < |files| && |p.entries| == |files|
  {
    var first := FindDigest(p.entries, p.entries[i].digest);
    var b := FindBlob(p.blobs, p.entries[i].digest);
    first.Some? && b.Some?
    && p.blobs[b.value].rows == Rows(compress(files[first.value].data))
    && p.entries[i].length == |compress(files[first.value].data)|
  }

  lemma {:induction false} PackAllPacks(files: seq<SourceFile>, digestOf: seq<byte> -> string,
                                        compress: seq<byte> -> seq<byte>)
    ensures Packs(PackAll(files, digestOf, compress), files, digestOf, compress)
    decreases |files|
  {
    if files != [] {
      var init, last := files[..|files| - 1], files[|files| - 1];
      assert init + [last] == files;
      var p := PackAll(init, digestOf, compress);
      assert PackAll(files, digestOf, compress) == WriteSingleFile(p, last, digestOf, compress);
      PackAllPacks(init, digestOf, compress);
      PackStep(p, init, last, digestOf, compress);
    }
  }

  /** Packing one more file keeps the invariant. */
  lemma PackStep(p: Packed, files: seq<SourceFile>, f: SourceFile, digestOf: seq<byte> -> string,
                 compress: seq<byte> -> seq<byte>)
    requires Packs(p, files, digestOf, compress)
    ensures Packs(WriteSingleFile(p, f, digestOf, compress), files + [f], digestOf, compress)
  {
    var q := WriteSingleFile(p, f, digestOf, compress);
    EntriesStep(p, files, f, digestOf, compress);
    NewBlobIsFresh(p, f, digestOf, compress);
    OwnedStep(p, f, digestOf, compress);
    RowsResolve(p, files, f, digestOf, compress);
  }

  lemma EntriesStep(p: Packed, files: seq<SourceFile>, f: SourceFile, digestOf: seq<byte> -> string,
                    compress: seq<byte> -> seq<byte>)
    requires EntriesMatch(p.entries, files, digestOf)
    ensures EntriesMatch(WriteSingleFile(p, f, digestOf, compress).entries, files + [f], digestOf)
  {
    var q := WriteSingleFile(p, f, digestOf, compress);
    var all := files + [f];
    forall i | 0 <= i < |all|
      ensures q.entries[i].path == LStrip(all[i].relPath, '.') && q.entries[i].digest == digestOf(all[i].data)
    {
      if i < |files| {
        assert all[i] == files[i] && q.entries[i] == p.entries[i];
      }
    }
  }

  lemma OwnedStep(p: Packed, f: SourceFile, digestOf: seq<byte> -> string, compress: seq<byte> -> seq<byte>)
    requires BlobsOwned(p)
    ensures BlobsOwned(WriteSingleFile(p, f, digestOf, compress))
  {
    var q := WriteSingleFile(p, f, digestOf, compress);
    var e := q.entries[|p.entries|];
    forall j | 0 <= j < |q.blobs|
      ensures FindDigest(q.entries, q.blobs[j].digest).Some?
    {
      var d := q.blobs[j].digest;
      FindDigestAppend(p.entries, e, d);
      if j < |p.blobs| {
        assert q.blobs[j] == p.blobs[j];
      }
    }
  }

  lemma RowsResolve(p: Packed, files: seq<SourceFile>, f: SourceFile, digestOf: seq<byte> -> string,
                    compress: seq<byte> -> seq<byte>)
    requires AllResolve(p, files, compress) && BlobsOwned(p)
    ensures AllResolve(WriteSingleFile(p, f, digestOf, compress), files + [f], compress)
  {
    forall i | 0 <= i < |files|
      ensures Resolves(WriteSingleFile(p, f, digestOf, compress), files + [f], compress, i)
    {
      OldRowResolves(p, files, f, digestOf, compress, i);
    }
    NewRowResolves(p, files, f, digestOf, compress);
  }

  /** An array is only added for a digest no earlier array has. */
  lemma NewBlobIsFresh(p: Packed, f: SourceFile, digestOf: seq<byte> -> string, compress: seq<byte> -> seq<byte>)
    requires BlobsDistinct(p.blobs) && BlobsOwned(p)
    ensures BlobsDistinct(WriteSingleFile(p, f, digestOf, compress).blobs)
  {
    var d := digestOf(f.data);
    if FindDigest(p.entries, d).None? {
      var q := WriteSingleFile(p, f, digestOf, compress);
      NoBlobFor(p, d);
      forall i, j | 0 <= i < j < |q.blobs| ensures q.blobs[i].digest != q.blobs[j].digest {
        assert q.blobs[i] == p.blobs[i];
        if j < |p.blobs| {
          assert q.blobs[j] == p.blobs[j];
        }
      }
    }
  }

  /** A digest no row records has no array. */
  lemma NoBlobFor(p: Packed, d: string)
    requires BlobsOwned(p) && FindDigest(p.entries, d).None?
    ensures forall j :: 0 <= j < |p.blobs| ==> p.blobs[j].digest != d
  {
    forall j | 0 <= j < |p.blobs|
      ensures p.blobs[j].digest != d
    {
      assert FindDigest(p.entries, p.blobs[j].digest).Some?;
    }
  }

  lemma OldRowResolves(p: Packed, files: seq<SourceFile>, f: SourceFile, digestOf: seq<byte> -> string,
                       compress: seq<byte> -> seq<byte>, i: nat)
    requires AllResolve(p, files, compress) && i < |files|
    ensures var q := WriteSingleFile(p, f, digestOf, compress);
      Resolves(q, files + [f], compress, i)
  {
    var q := WriteSingleFile(p, f, digestOf, compress);
    var di := p.entries[i].digest;
    assert Resolves(p, files, compress, i);
    assert q.entries[i] == p.entries[i];
    FindDigestAppend(p.entries, q.entries[|files|], di);
    if q.blobs != p.blobs {
      FindBlobAppend(p.blobs, q.blobs[|p.blobs|], di);
      assert q.blobs == p.blobs + [q.blobs[|p.blobs|]];
    }
    var k := FindDigest(p.entries, di).value;
    assert (files + [f])[k] == files[k];
  }

  lemma NewRowResolves(p: Packed, files: seq<SourceFile>, f: SourceFile, digestOf: seq<byte> -> string,
                       compress: seq<byte> -> seq<byte>)
    requires AllResolve(p, files, compress) && BlobsOwned(p)
    ensures var q := WriteSingleFile(p, f, digestOf, compress);
      Resolves(q, files + [f], compress, |files|)
  {
    var q := WriteSingleFile(p, f, digestOf, compress);
    var n := |files|;
    var d := digestOf(f.data);
    FindDigestAppend(p.entries, q.entries[n], d);
    match FindDigest(p.entries, d)
    case Some(k) =>
      assert Resolves(p, files, compress, k);
      assert FindDigest(p.entries, p.entries[k].digest) == Some(k);
      assert (files + [f])[k] == files[k];
    case None =>
      var c := compress(f.data);
      NoBlobFor(p, d);
      FindBlobAppend(p.blobs, Blob(d, Rows(c)), d);
      assert FindBlob(p.blobs, d).None?;
      assert (files + [f])[n] == f;
  }

  lemma FindDigestAppend(entries: seq<Entry>, e: Entry, digest: string)
    ensures FindDigest(entries + [e], digest) ==
      if FindDigest(entries, digest).Some? then FindDigest(entries, digest)
      else if e.digest == digest then Some(|entries|) else None
  {
    var all := entries + [e];
    assert all[|entries|] == e;
    assert forall k :: 0 <= k < |entries| ==> all[k] == entries[k];
  }

  lemma FindBlobAppend(blobs: seq<Blob>, b: Blob, digest: string)
    ensures FindBlob(blobs + [b], digest) ==
      if FindBlob(blobs, digest).Some? then FindBlob(blobs, digest)
      else if b.digest == digest then Some(|blobs|) else None
  {
    var all := blobs + [b];
    assert all[|blobs|] == b;
    assert forall k :: 0 <= k < |blobs| ==> all[k] == blobs[k];
  }

  /** With a digest that tells contents apart and a compressor that can be
      undone, every row leads to the bytes of its own file: the array it
      names decompresses to the file, and the recorded length is the
      length of that array. */
  lemma {:induction false} EntryRecoversFile(files: seq<SourceFile>, digestOf: seq<byte> -> string,
                                             compress: seq<byte> -> seq<byte>,
                                             decompress: seq<byte> -> seq<byte>, i: nat)
    requires forall a, b :: digestOf(a) == digestOf(b) ==> a == b
    requires forall a :: decompress(compress(a)) == a
    requires i < |files|
    ensures var p := PackAll(files, digestOf, compress);
      var b := FindBlob(p.blobs, p.entries[i].digest);
      b.Some?
      && decompress(Flatten(p.blobs[b.value].rows)) == files[i].data
      && p.entries[i].length == |Flatten(p.blobs[b.value].rows)|
  {
    var p := PackAll(files, digestOf, compress);
    assert Resolves(p, files, compress, i) && EntriesMatch(p.entries, files, digestOf) by {
      PackAllPacks(files, digestOf, compress);
    }
    var k := FindDigest(p.entries, p.entries[i].digest).value;
    assert files[k].data == files[i].data by {
      assert digestOf(files[k].data) == digestOf(files[i].data);
    }
    RowsShape(compress(files[i].data));
  }

  // ---------------------------------------------------------------------
  // The generated C source

  /** `format_var_name`: the array that holds the file with a digest. */
  function VarName(digest: string): (name: string)
    ensures |name| == |"firmware_"| + |digest| && name[|"firmware_"|..] == digest
  {
    "firmware_" + digest
  }

  /** Distinct digests name distinct arrays. */
  lemma VarNameInjective(a: string, b: string)
    ensures VarName(a) == VarName(b) <==> a == b
  {
  }

  /** A byte literal holds no line break. */
  lemma LiteralHasNoNewline(b: byte)
    ensures '\n' !in ByteLiteral(b)
  {
    var s := ByteLiteral(b);
    assert s[0] == '0' && s[1] == 'x' by {
      assert s[..2] == "0x";
    }
  }

  /** The bytes of a partial row, each written `0xHH, `. */
  function Cells(block: seq<byte>): (s: string)
    ensures |s| == 6 * |block|
    ensures '\n' !in s
    decreases |block|
  {
    if block == [] then []
    else
      LiteralHasNoNewline(block[0]);
      ByteLiteral(block[0]) + ", " + Cells(block[1..])
  }

  /** One line of an array: a full row of 16 bytes ends `0xHH,` and a
      shorter one `0xHH, `; both start with a tab and end the line. */
  function RowText(block: seq<byte>): (t: string)
    ensures |t| >= 2 && t[0] == '\t' && t[|t| - 1] == '\n' && '\n' !in t[..|t| - 1]
  {
    if |block| == RowSize then
      var last := block[RowSize - 1];
      LiteralHasNoNewline(last);
      var t := "\t" + Cells(block[..RowSize - 1]) + (ByteLiteral(last) + ",\n");
      assert t[..|t| - 1] == "\t" + Cells(block[..RowSize - 1]) + ByteLiteral(last) + ",";
      t
    else
      var t := "\t" + Cells(block) + "\n";
      assert t[..|t| - 1] == "\t" + Cells(block);
      t
  }

  /** The lines of an array, in order. */
  function RowsText(rows: seq<seq<byte>>): (t: string)
    decreases |rows|
  {
    if rows == [] then [] else RowText(rows[0]) + RowsText(rows[1..])
  }

  /** An array declaration: its name, then its lines, then the closing
      brace. */
  function BlobText(b: Blob): (t: string)
  {
    "\nUInt8 " + VarName(b.digest) + "[] = \n{\n" + RowsText(b.rows) + "};\n"
  }

  function BlobsText(blobs: seq<Blob>): (t: string)
    decreases |blobs|
  {
    if blobs == [] then [] else BlobText(blobs[0]) + BlobsText(blobs[1..])
  }

  /** One descriptor row: the stored path in quotes, the array name and
      the compressed length in decimal. */
  function DescriptorText(e: Entry): (t: string)
  {
    "\t{ \"" + e.path + "\", " + VarName(e.digest) + ", " + Decimal(e.length) + " },\n"
  }

  function DescriptorsText(entries: seq<Entry>): (t: string)
    decreases |entries|
  {
    if entries == [] then [] else DescriptorText(entries[0]) + DescriptorsText(entries[1..])
  }

  /** The line that ends the file. */
  function CountLine(n: nat): (t: string)
  {
    "int fwCount = " + Decimal(n) + ";"
  }

  /** The whole generated file: the licence banner, the arrays in the order
      they were first met, the descriptor table and the row count. */
  function Render(banner: string, p: Packed): (t: string)
  {
    banner + BlobsText(p.blobs) + "\n" + "FirmwareDescriptor fwCandidates[] = \n{\n"
    + DescriptorsText(p.entries) + "};\n\n" + CountLine(|p.entries|)
  }

  /** `process_files`: the files the walk found are filtered, packed in
      order, and rendered. */
  function ProcessFiles(banner: string, files: seq<SourceFile>, extensions: seq<string>,
                        digestOf: seq<byte> -> string, compress: seq<byte> -> seq<byte>): (t: string)
  {
    Render(banner, PackAll(Filter(files, extensions), digestOf, compress))
  }

  // ---------------------------------------------------------------------
  // Reading the arrays back

  /** The index of the first `c` in `s`. */
  function FirstIndex(s: string, c: char): (i: Option<nat>)
    ensures i.Some? ==> (i.value < |s| && s[i.value] == c && c !in s[..i.value])
    ensures i.None? ==> c !in s
    decreases |s|
  {
    if s == [] then None
    else if s[0] == c then Some(0)
    else match FirstIndex(s[1..], c)
      case None => None
      case Some(k) =>
        assert s[..k + 1] == [s[0]] + s[1..][..k];
        Some(k + 1)
  }

  /** The values of the 6-character cells of a line body, up to the first
      piece shorter than a cell. */
  function ReadCells(s: string): (bytes: seq<nat>)
    decreases |s|
  {
    if |s| < 6 then [] else [ValueOf(s[2..4], 16)] + ReadCells(s[6..])
  }

  /** The bytes of one line: the cells after the tab. */
  function ReadRow(line: string): (bytes: seq<nat>)
  {
    if line == [] then [] else ReadCells(line[1..])
  }

  /** The bytes of a run of lines, line by line. */
  function ReadRows(t: string): (bytes: seq<nat>)
    decreases |t|
  {
    match FirstIndex(t, '\n')
    case None => []
    case Some(k) => ReadRow(t[..k + 1]) + ReadRows(t[k + 1..])
  }

  /** The bytes as numbers. */
  function Values(block: seq<byte>): (v: seq<nat>)
    ensures |v| == |block| && forall i :: 0 <= i < |block| ==> v[i] == block[i] as nat
  {
    seq(|block|, i requires 0 <= i < |block| => block[i] as nat)
  }

  /** One cell and what follows it: the cell gives the value of its two
      digits, and reading goes on after the cell. */
  lemma ReadCellsStep(lit: string, rest: string)
    requires |lit| == 4
    ensures ReadCells(lit + ", " + rest) == [ValueOf(lit[2..], 16)] + ReadCells(rest)
  {
    var s := lit + ", " + rest;
    assert s[2..4] == lit[2..];
    assert s[6..] == rest;
  }

  /** The first cell of a row reads as the first byte. */
  lemma ReadFirstCell(block: seq<byte>, tail: string)
    requires block != []
    ensures ReadCells(Cells(block) + tail) == [block[0] as nat] + ReadCells(Cells(block[1..]) + tail)
  {
    var lit := ByteLiteral(block[0]);
    var rest := Cells(block[1..]);
    assert Cells(block) == lit + ", " + rest;
    Regroup(lit, ", ", rest, tail);
    ReadCellsStep(lit, rest + tail);
  }

  lemma Regroup(a: string, b: string, c: string, d: string)
    ensures (a + b + c) + d == a + b + (c + d)
  {
  }

  lemma {:induction false} ReadCellsOf(block: seq<byte>, tail: string)
    ensures ReadCells(Cells(block) + tail) == Values(block) + ReadCells(tail)
    decreases |block|
  {
    if block != [] {
      ReadFirstCell(block, tail);
      ReadCellsOf(block[1..], tail);
      assert Values(block) == [block[0] as nat] + Values(block[1..]);
    } else {
      assert Cells(block) + tail == tail;
    }
  }

  /** A line reads back as the bytes it was written from. */
  lemma RowTextReadsBack(block: seq<byte>)
    ensures ReadRow(RowText(block)) == Values(block)
  {
    if |block| == RowSize {
      FullRowReadsBack(block);
    } else {
      ShortRowReadsBack(block);
    }
  }

  /** The text after a line's tab. */
  lemma DropTab(a: string, b: string)
    ensures ReadRow("\t" + a + b) == ReadCells(a + b)
  {
    assert ("\t" + a + b)[1..] == a + b;
  }

  lemma FullRowReadsBack(block: seq<byte>)
    requires |block| == RowSize
    ensures ReadRow(RowText(block)) == Values(block)
  {
    var init, last := block[..RowSize - 1], block[RowSize - 1];
    var lit := ByteLiteral(last);
    var cell := lit + ",\n";
    assert ReadRow(RowText(block)) == ReadCells(Cells(init) + cell) by {
      DropTab(Cells(init), cell);
    }
    ReadCellsOf(init, cell);
    assert ReadCells(cell) == [last as nat] by {
      assert cell[2..4] == lit[2..];
      assert cell[6..] == [];
    }
    assert Values(block) == Values(init) + [last as nat] by {
      assert block == init + [last];
      ValuesAppend(init, [last]);
    }
  }

  lemma ShortRowReadsBack(block: seq<byte>)
    requires |block| != RowSize
    ensures ReadRow(RowText(block)) == Values(block)
  {
    assert ReadRow(RowText(block)) == ReadCells(Cells(block) + "\n") by {
      DropTab(Cells(block), "\n");
    }
    ReadCellsOf(block, "\n");
    assert ReadCells("\n") == [];
    assert Values(block) + [] == Values(block);
  }

  /** The first line break of a line followed by anything is its own. */
  lemma FirstBreak(line: string, rest: string)
    requires line != [] && line[|line| - 1] == '\n' && '\n' !in line[..|line| - 1]
    ensures FirstIndex(line + rest, '\n') == Some(|line| - 1)
  {
    var s := line + rest;
    var k := FirstIndex(s, '\n');
    assert s[|line| - 1] == '\n';
    if k.None? {
      assert false;
    }
  }

  /** An array's lines read back as the bytes of the array: the C text
      holds exactly the compressed data, in order. */
  lemma {:induction false} RowsTextReadsBack(rows: seq<seq<byte>>)
    ensures ReadRows(RowsText(rows)) == Values(Flatten(rows))
    decreases |rows|
  {
    if rows != [] {
      var line := RowText(rows[0]);
      var rest := RowsText(rows[1..]);
      FirstBreak(line, rest);
      assert (line + rest)[..|line|] == line;
      assert (line + rest)[|line|..] == rest;
      RowTextReadsBack(rows[0]);
      RowsTextReadsBack(rows[1..]);
      ValuesAppend(rows[0], Flatten(rows[1..]));
    } else {
      assert FirstIndex([], '\n') == None;
    }
  }

  lemma ValuesAppend(a: seq<byte>, b: seq<byte>)
    ensures Values(a + b) == Values(a) + Values(b)
  {
  }

  /** The array written for some data reads back as that data. */
  lemma ArrayHoldsData(data: seq<byte>)
    ensures ReadRows(RowsText(Rows(data))) == Values(data)
  {
    RowsShape(data);
    RowsTextReadsBack(Rows(data));
  }

  /** The generated file ends with the number of packed files, and that is
      the number of files the filter kept. */
  lemma CountIsKeptFiles(banner: string, files: seq<SourceFile>, extensions: seq<string>,
                         digestOf: seq<byte> -> string, compress: seq<byte> -> seq<byte>)
    ensures var t := ProcessFiles(banner, files, extensions, digestOf, compress);
      var c := CountLine(|Filter(files, extensions)|);
      |c| <= |t| && t[|t| - |c|..] == c
    ensures ValueOf(Decimal(|Filter(files, extensions)|), 10) == |Filter(files, extensions)|
  {
    DigitsRoundTrip(|Filter(files, extensions)|, 10, false);
  }
}

=== FILE: gen1.dfy ===
/** The first generation: legacy-ROM controllers (WP and StP) that are not
    given a whole firmware image but patched in manufacturer mode from a
    `.bseq` file. This module holds what the three copies of that setup
    share: which devices are accepted, how the patch file is named, how a
    missing file falls back to the default one, and the setup sequence
    around the patch loop. */
module Gen1 {
  import opened Bytes
  import opened IntelTypes
  import opened Hci
  import opened Text
  import opened LegacyPatch
  import opened Controller
  import opened UsbTransport
  import Gen2

  // ---------------------------------------------------------------------
  // start: admission and quirks

  /** The flags `start` sets on an accepted device. */
  datatype LegacyQuirks = LegacyQuirks(legacyROM: bool, widebandSpeech: bool, brokenLED: bool)

  /** Wideband speech is only for SdP, which shares the StP hardware
      variant but runs Legacy ROM 2.x firmware. */
  predicate SupportsWideband(v: VersionInfo)
  {
    v.hardwareVariant == VariantStP && v.firmwareVariant == FirmwareLegacyROM2_X
  }

  /** `start` of both legacy controller classes: only platform 0x37 with
      hardware variant WP or StP is a legacy-ROM device; it is always marked
      as such and as having the broken LED. */
  function AdmitLegacy(v: VersionInfo): (q: Option<LegacyQuirks>)
    ensures q.Some? <==> v.hardwarePlatform == IntelPlatform && v.hardwareVariant in {VariantWP, VariantStP}
    ensures q.Some? ==> q.value.legacyROM && q.value.brokenLED
  {
    if v.hardwarePlatform != 0x37 || (v.hardwareVariant != VariantWP && v.hardwareVariant != VariantStP) then None
    else Some(LegacyQuirks(true, v.hardwareVariant == 0x08 && v.firmwareVariant == 0x22, true))
  }

  /** `SetupGen1Controller` applies the same quirks without checking the
      device, since it is only reached for a legacy-ROM transport. */
  function SetupQuirks(v: VersionInfo): (q: LegacyQuirks)
    ensures q.legacyROM && q.brokenLED
  {
    LegacyQuirks(true, v.hardwareVariant == VariantStP && v.firmwareVariant == FirmwareLegacyROM2_X, true)
  }

  /** Every accepted device gets the quirks the HostController setup gives
      it; wideband speech goes exactly to SdP; the legacy check of the
      version report accepts it; and no second-generation start accepts
      the same device. */
  lemma AdmissionsAgree(v: VersionInfo, msftOpCode: uint16)
    ensures AdmitLegacy(v).Some? ==> AdmitLegacy(v).value == SetupQuirks(v)
    ensures AdmitLegacy(v).Some? ==> (AdmitLegacy(v).value.widebandSpeech <==> SupportsWideband(v))
    ensures AdmitLegacy(v).Some? ==> CheckLegacyVersion(v) == Success
    ensures AdmitLegacy(v).Some? ==> Gen2.Admit(v, msftOpCode).None?
  {
  }

  /** A device that already carries a patch (`firmwarePatchVersion` is not
      zero) is not patched again. */
  predicate AlreadyPatched(v: VersionInfo)
  {
    v.firmwarePatchVersion != 0
  }

  // ---------------------------------------------------------------------
  // GetFirmwareNameWL

  /** The numbers of the device-specific name, `%x` each: hardware
      platform, variant and revision, then firmware variant, revision,
      build number, week and year. */
  function HardwareFields(v: VersionInfo): (fs: seq<nat>)
    ensures |fs| == 3
  {
    [v.hardwarePlatform as nat, v.hardwareVariant as nat, v.hardwareRevision as nat]
  }

  function FirmwareFields(v: VersionInfo): (fs: seq<nat>)
    ensures |fs| == 5
  {
    [v.firmwareVariant as nat, v.firmwareRevision as nat, v.firmwareBuildNum as nat,
     v.firmwareBuildWeek as nat, v.firmwareBuildYear as nat]
  }

  function PlatformFields(v: VersionInfo): (fs: seq<nat>)
    ensures |fs| == 2
  {
    [v.hardwarePlatform as nat, v.hardwareVariant as nat]
  }

  /** `ibt-hw-%x.%x.%x-fw-%x.%x.%x.%x.%x.%s` before it is cut to the buffer. */
  function SpecificFull(v: VersionInfo, suffix: string): (s: string)
  {
    "ibt-hw-" + Join(HardwareFields(v), '.', 16) + "-fw-" + Join(FirmwareFields(v), '.', 16) + "." + suffix
  }

  /** `ibt-hw-%x.%x.%s` before it is cut to the buffer. */
  function DefaultFull(v: VersionInfo, suffix: string): (s: string)
  {
    "ibt-hw-" + Join(PlatformFields(v), '.', 16) + "." + suffix
  }

  /** `GetFirmwareNameWL` of the legacy classes: the device-specific name
      until the driver has switched to the default one; it never fails. */
  function PatchFileName(v: VersionInfo, suffix: string, isDefault: bool): (name: string)
    ensures |name| < NameBufferSize
    ensures name <= if isDefault then DefaultFull(v, suffix) else SpecificFull(v, suffix)
  {
    Bounded(if isDefault then DefaultFull(v, suffix) else SpecificFull(v, suffix), NameBufferSize)
  }

  /** Three numbers joined by dots are two joined numbers, a dot and the
      third. */
  lemma JoinThree(a: nat, b: nat, c: nat, sep: char)
    ensures Join([a, b, c], sep, 16) == Join([a, b], sep, 16) + [sep] + Digits(c, 16, false)
  {
    var da, db, dc := Digits(a, 16, false), Digits(b, 16, false), Digits(c, 16, false);
    assert [a, b, c][1..] == [b, c] && [b, c][1..] == [c] && [a, b][1..] == [b];
    assert Join([b, c], sep, 16) == db + [sep] + dc;
    assert Join([a, b], sep, 16) == da + [sep] + db;
    assert Join([a, b, c], sep, 16) == da + [sep] + (db + [sep] + dc);
  }

  /** The specific name split at the dash that ends the hardware fields. */
  lemma SpecificShape(v: VersionInfo, suffix: string)
    ensures SpecificFull(v, suffix) ==
      "ibt-hw-" + (Join(HardwareFields(v), '.', 16) + ['-'] + ("fw-" + Join(FirmwareFields(v), '.', 16) + "." + suffix))
  {
  }

  /** The default name split at the dot before the suffix. */
  lemma DefaultShape(v: VersionInfo, suffix: string)
    ensures DefaultFull(v, suffix) == "ibt-hw-" + (Join(PlatformFields(v), '.', 16) + ['.'] + suffix)
  {
  }

  lemma StripPrefix(pre: string, x1: string, x2: string)
    requires pre + x1 == pre + x2
    ensures x1 == x2
  {
    assert x1 == (pre + x1)[|pre|..];
    assert x2 == (pre + x2)[|pre|..];
  }

  /** Two devices whose specific names fit the buffer get the same name
      only when they agree on all eight fields it is made of. */
  lemma SpecificNameIdentifies(v1: VersionInfo, v2: VersionInfo, suffix: string)
    requires |SpecificFull(v1, suffix)| < NameBufferSize && |SpecificFull(v2, suffix)| < NameBufferSize
    requires PatchFileName(v1, suffix, false) == PatchFileName(v2, suffix, false)
    ensures HardwareFields(v1) == HardwareFields(v2) && FirmwareFields(v1) == FirmwareFields(v2)
  {
    var h1, h2 := Join(HardwareFields(v1), '.', 16), Join(HardwareFields(v2), '.', 16);
    var w1, w2 := Join(FirmwareFields(v1), '.', 16), Join(FirmwareFields(v2), '.', 16);
    var r1, r2 := "fw-" + w1 + "." + suffix, "fw-" + w2 + "." + suffix;
    SpecificShape(v1, suffix);
    SpecificShape(v2, suffix);
    StripPrefix("ibt-hw-", h1 + ['-'] + r1, h2 + ['-'] + r2);
    JoinInjective(HardwareFields(v1), HardwareFields(v2), '.', '-', '-', r1, r2, 16);
    assert r1 == "fw-" + (w1 + ['.'] + suffix) && r2 == "fw-" + (w2 + ['.'] + suffix);
    StripPrefix("fw-", w1 + ['.'] + suffix, w2 + ['.'] + suffix);
    JoinInjective(FirmwareFields(v1), FirmwareFields(v2), '.', '.', '.', suffix, suffix, 16);
  }

  /** Two devices whose default names fit the buffer get the same name only
      when they agree on platform and variant. */
  lemma DefaultNameIdentifies(v1: VersionInfo, v2: VersionInfo, suffix: string)
    requires |DefaultFull(v1, suffix)| < NameBufferSize && |DefaultFull(v2, suffix)| < NameBufferSize
    requires PatchFileName(v1, suffix, true) == PatchFileName(v2, suffix, true)
    ensures PlatformFields(v1) == PlatformFields(v2)
  {
    var p1, p2 := Join(PlatformFields(v1), '.', 16), Join(PlatformFields(v2), '.', 16);
    DefaultShape(v1, suffix);
    DefaultShape(v2, suffix);
    StripPrefix("ibt-hw-", p1 + ['.'] + suffix, p2 + ['.'] + suffix);
    JoinInjective(PlatformFields(v1), PlatformFields(v2), '.', '.', '.', suffix, suffix, 16);
  }

  /** The switch to the default name always asks for another file: no
      specific name that fits the buffer is a default name. */
  lemma SpecificIsNotDefault(v1: VersionInfo, v2: VersionInfo, suffix: string)
    requires |SpecificFull(v1, suffix)| < NameBufferSize && |DefaultFull(v2, suffix)| < NameBufferSize
    ensures PatchFileName(v1, suffix, false) != PatchFileName(v2, suffix, true)
  {
    if PatchFileName(v1, suffix, false) == PatchFileName(v2, suffix, true) {
      var f1 := HardwareFields(v1);
      var tail := Digits(f1[2], 16, false) + "-fw-" + Join(FirmwareFields(v1), '.', 16) + "." + suffix;
      var p1, p2 := Join(PlatformFields(v1), '.', 16), Join(PlatformFields(v2), '.', 16);
      JoinThree(f1[0], f1[1], f1[2], '.');
      assert SpecificFull(v1, suffix) == "ibt-hw-" + (p1 + ['.'] + tail);
      DefaultShape(v2, suffix);
      StripPrefix("ibt-hw-", p1 + ['.'] + tail, p2 + ['.'] + suffix);
      JoinInjective(PlatformFields(v1), PlatformFields(v2), '.', '.', '.', tail, suffix, 16);
    }
  }

  // ---------------------------------------------------------------------
  // GetFirmwareWL / GetFirmwareErrorHandler

  /** The firmware store: a failed open never reports success. */
  ghost predicate StoreValid(open: string -> Opened)
  {
    forall name :: open(name).OpenFailed? ==> open(name).error != Success
  }

  /** The outcome of a fetch: the status, the file handed to the caller,
      the names opened in order, and the final `mIsDefaultFirmware`. */
  datatype Fetch = Fetch(status: Status, data: Option<seq<byte>>, tried: seq<string>, isDefault: bool)

  /** The legacy transports (`GetFirmware` with the Gen1
      `GetFirmwareErrorHandler`, and the later transport's `GetFirmwareWL`):
      a name that does not open makes the driver switch to the default
      name, for good, and retry once; a default name that does not open
      ends with `kIOReturnError`. */
  function LoadLegacy(v: VersionInfo, suffix: string, isDefault: bool, open: string -> Opened): (r: Fetch)
    ensures r.status == Success || r.status == Error
    ensures r.status == Success <==> r.data.Some?
    ensures 1 <= |r.tried| <= 2 && r.tried[0] == PatchFileName(v, suffix, isDefault)
    ensures r.status == Success ==> open(r.tried[|r.tried| - 1]) == Opened(r.data.value)
    ensures r.isDefault == (isDefault || open(PatchFileName(v, suffix, false)).OpenFailed?)
    ensures |r.tried| == 2 <==> !isDefault && open(PatchFileName(v, suffix, false)).OpenFailed?
    ensures |r.tried| == 2 ==> r.tried[1] == PatchFileName(v, suffix, true)
    decreases !isDefault
  {
    var name := PatchFileName(v, suffix, isDefault);
    match open(name)
    case Opened(data) => Fetch(Success, Some(data), [name], isDefault)
    case OpenFailed(_) =>
      if !isDefault then
        var retry := LoadLegacy(v, suffix, true, open);
        Fetch(retry.status, retry.data, [name] + retry.tried, true)
      else Fetch(Error, None, [name], true)
  }

  /** A fetch succeeds exactly when the specific or, failing it, the
      default file opens, and the file handed out is the first of the two
      that opened. */
  lemma LoadLegacyFindsFirstFile(v: VersionInfo, suffix: string, open: string -> Opened)
    ensures var r := LoadLegacy(v, suffix, false, open);
      var specific, default := open(PatchFileName(v, suffix, false)), open(PatchFileName(v, suffix, true));
      (r.status == Success <==> specific.Opened? || default.Opened?)
      && (specific.Opened? ==> r.data == Some(specific.data) && !r.isDefault)
      && (specific.OpenFailed? && default.Opened? ==> r.data == Some(default.data) && r.isDefault)
  {
  }

  /** The transports' fetch is the generic `GetFirmware` on the current
      name, whose error handler switches to the default name and fetches
      again, or gives up with `kIOReturnError` when already there. */
  lemma LoadLegacyIsGetFirmware(v: VersionInfo, suffix: string, isDefault: bool, open: string -> Opened)
    ensures var r := LoadLegacy(v, suffix, isDefault, open);
      var onMissing := if isDefault then Fetched(Error, None)
                       else var d := LoadLegacy(v, suffix, true, open); Fetched(d.status, d.data);
      Fetched(r.status, r.data) == GetFirmware(Some(PatchFileName(v, suffix, isDefault)), open, onMissing)
  {
  }

  /** `GetFirmwareWL` of the Family class, as written: a name the transport
      reports as unsupported gives `kIOReturnNotFound` without a retry;
      another failure switches to the default name once; but when the
      default name fails in the same way the function carries on, hands
      out whatever firmware the transport last held (`current`) and
      reports success. */
  function LoadFamily(v: VersionInfo, suffix: string, isDefault: bool, open: string -> Opened,
                      current: Option<seq<byte>>): (r: Fetch)
    ensures 1 <= |r.tried| <= 2 && r.tried[0] == PatchFileName(v, suffix, isDefault)
    ensures r.status == Success || r.status == NotFound
    decreases !isDefault
  {
    var name := PatchFileName(v, suffix, isDefault);
    match open(name)
    case Opened(data) => Fetch(Success, Some(data), [name], isDefault)
    case OpenFailed(e) =>
      if e == Unsupported then Fetch(NotFound, None, [name], isDefault)
      else if !isDefault then
        var retry := LoadFamily(v, suffix, true, open, current);
        Fetch(retry.status, retry.data, [name] + retry.tried, true)
      else Fetch(Success, current, [name], true)
  }

  /** The Family fetch with the default-name failure returned as such. */
  function LoadFamilyCorrected(v: VersionInfo, suffix: string, isDefault: bool, open: string -> Opened): (r: Fetch)
    requires StoreValid(open)
    ensures r.status == Success <==> r.data.Some?
    ensures 1 <= |r.tried| <= 2 && r.tried[0] == PatchFileName(v, suffix, isDefault)
    ensures r.status == Success ==> open(r.tried[|r.tried| - 1]) == Opened(r.data.value)
    decreases !isDefault
  {
    var name := PatchFileName(v, suffix, isDefault);
    match open(name)
    case Opened(data) => Fetch(Success, Some(data), [name], isDefault)
    case OpenFailed(e) =>
      if e == Unsupported then Fetch(NotFound, None, [name], isDefault)
      else if !isDefault then
        var retry := LoadFamilyCorrected(v, suffix, true, open);
        Fetch(retry.status, retry.data, [name] + retry.tried, true)
      else Fetch(e, None, [name], true)
  }

  /** Where the loader never answers "unsupported", the corrected Family
      fetch succeeds on exactly the same files as the transports' fetch,
      and hands out the same file after the same names. */
  lemma FamilyMatchesTransport(v: VersionInfo, suffix: string, isDefault: bool, open: string -> Opened)
    requires StoreValid(open)
    requires forall name :: open(name) != OpenFailed(Unsupported)
    ensures var f, t := LoadFamilyCorrected(v, suffix, isDefault, open), LoadLegacy(v, suffix, isDefault, open);
      (f.status == Success <==> t.status == Success) && f.data == t.data && f.tried == t.tried
      && f.isDefault == t.isDefault
    decreases !isDefault
  {
    var name := PatchFileName(v, suffix, isDefault);
    if open(name).OpenFailed? && !isDefault {
      FamilyMatchesTransport(v, suffix, true, open);
    }
  }

  /** Whenever the file opens, or the first failure is "unsupported", the
      Family fetch as written and the corrected one agree. */
  lemma FamilyAgreesUnlessDefaultFails(v: VersionInfo, suffix: string, isDefault: bool, open: string -> Opened,
                                       current: Option<seq<byte>>)
    requires StoreValid(open)
    requires open(PatchFileName(v, suffix, true)).OpenFailed? ==>
      open(PatchFileName(v, suffix, true)).error == Unsupported
    ensures LoadFamily(v, suffix, isDefault, open, current) == LoadFamilyCorrected(v, suffix, isDefault, open)
    decreases !isDefault
  {
    var name := PatchFileName(v, suffix, isDefault);
    if open(name).OpenFailed? && open(name).error != Unsupported && !isDefault {
      FamilyAgreesUnlessDefaultFails(v, suffix, true, open, current);
    }
  }

  /** The input that shows the fall-through: no file opens and each open
      fails with a plain error. The Family fetch as written reports success
      and hands out the transport's stale firmware, where the corrected one
      and the transports' fetch report the error. */
  lemma FamilyDefaultFailureWitness(v: VersionInfo, suffix: string, stale: seq<byte>)
    ensures var open := (name: string) => OpenFailed(Error);
      LoadFamily(v, suffix, false, open, Some(stale)) == Fetch(Success, Some(stale),
        [PatchFileName(v, suffix, false), PatchFileName(v, suffix, true)], true)
      && LoadFamilyCorrected(v, suffix, false, open).status == Error
      && LoadLegacy(v, suffix, false, open).status == Error
  {
  }

  /** `LoadDDCConfig` of the Family legacy class: there is no DDC file for
      these devices and the call reports it. */
  function LoadDdcConfigLegacy(ddc: seq<byte>): (s: Status)
    ensures s != Success
  {
    Unsupported
  }

  // ---------------------------------------------------------------------
  // SetupGen1Controller

  /** The statuses of the controller steps around the patch loop: entering
      manufacturer mode, leaving it, and reading the version again after
      the patches have been activated. */
  datatype Steps = Steps(enter: Status, exit: Status, readVersion: Status)

  /** The outcome of the setup: its status, the patch commands sent, how
      manufacturer mode was left (`None` when it was not entered), and
      whether the device address was checked at `complete:`. */
  datatype Setup = Setup(status: Status, sent: seq<Command>, exit: Option<ExitMode>, addressChecked: bool)

  /** The patch file handed to the setup walks inside itself. */
  predicate FileWalks(file: Option<seq<byte>>)
  {
    file.Some? ==> PatchWalks(file.value, 0)
  }

  /** `SetupGen1Controller`: an already patched device and a missing patch
      file are left alone; otherwise manufacturer mode is entered, the file
      is sent record by record, and the mode is left with the reset that
      the patch run calls for; after activation the version is read again.
      Every failing step ends the setup with its status; every path that
      succeeds ends at `complete:`, which checks the device address. */
  function SetupLegacy(v: VersionInfo, file: Option<seq<byte>>, steps: Steps, link: Link): (r: Setup)
    requires link.Valid() && FileWalks(file)
    ensures AlreadyPatched(v) || file.None? ==> r.status == Success && r.sent == [] && r.exit.None?
    ensures r.addressChecked <==> r.status == Success
    ensures r.exit.None? && r.status != Success ==> r.status == steps.enter
    ensures r.exit.Some? ==> steps.enter == Success && !AlreadyPatched(v) && file.Some?
    ensures r.exit.Some? && r.status != Success ==>
      r.status == steps.exit || (r.exit == Some(ResetActivate) && r.status == steps.readVersion)
    ensures r.sent != [] ==> r.exit.Some?
  {
    if AlreadyPatched(v) || file.None? then Setup(Success, [], None, true)
    else if steps.enter != Success then Setup(steps.enter, [], None, false)
    else
      var run := Patch(file.value, 0, true, link);
      var mode := Exit(run);
      if steps.exit != Success then Setup(steps.exit, run.sent, Some(mode), false)
      else if mode == ResetActivate && steps.readVersion != Success then Setup(steps.readVersion, run.sent, Some(mode), false)
      else Setup(Success, run.sent, Some(mode), true)
  }

  /** The patches are activated exactly when the whole file went through
      and it loaded patch data; a file that went through without loading
      any leaves manufacturer mode without a reset; a failed record
      deactivates whatever was loaded. */
  lemma {:induction false} SetupExitMatchesPatchRun(v: VersionInfo, data: seq<byte>, steps: Steps, link: Link)
    requires link.Valid() && PatchWalks(data, 0)
    requires !AlreadyPatched(v) && steps.enter == Success
    ensures var r, run := SetupLegacy(v, Some(data), steps, link), Patch(data, 0, true, link);
      r.sent == run.sent
      && (r.exit == Some(ResetActivate) <==> run.status == Success && LoadsPatch(run.sent))
      && (r.exit == Some(NoReset) <==> run.status == Success && !LoadsPatch(run.sent))
      && (r.exit == Some(ResetDeactivate) <==> run.status != Success)
  {
    ActivatesIffPatchLoaded(data, link);
  }

  /** A well-formed patch file goes out completely over a reliable link,
      in file order; the setup then activates the patches exactly when one
      of its commands loads patch data. */
  lemma {:induction false} SetupSendsWholeFile(v: VersionInfo, rs: seq<Record>, steps: Steps)
    requires forall i :: 0 <= i < |rs| ==> RecordFits(rs[i])
    requires !AlreadyPatched(v) && steps.enter == Success
    ensures PatchWalks(EncodeFile(rs), 0)
    ensures var r := SetupLegacy(v, Some(EncodeFile(rs)), steps, Reliable);
      r.sent == Commands(rs)
      && (r.exit == Some(ResetActivate) <==> LoadsPatch(Commands(rs)))
      && (r.exit == Some(NoReset) <==> !LoadsPatch(Commands(rs)))
  {
    var data := EncodeFile(rs);
    assert data[0..] == data;
    PatchFileRoundTrip(rs, data, 0, true);
    SetupExitMatchesPatchRun(v, data, steps, Reliable);
  }

  // ---------------------------------------------------------------------
  // start of the two controller classes

  /** `start` of the later transport and of the Family class, as written,
      with the patch loop of the Gen1 transport: it answers whether the
      driver may go on. Every failing step answers `false`, except a failed
      exit with activation, whose `return err` turns the non-zero status
      into `true`. */
  function StartLegacy(v: VersionInfo, file: Option<seq<byte>>, steps: Steps, link: Link): (ok: bool)
    requires link.Valid() && FileWalks(file)
    ensures ok ==> AdmitLegacy(v).Some?
  {
    if AdmitLegacy(v).None? then false
    else
      var r := SetupLegacy(v, file, steps, link);
      if r.status == Success then true
      else r.exit == Some(ResetActivate) && steps.exit != Success
  }

  /** `start` with the failed activation answered `false` as well. */
  function StartLegacyCorrected(v: VersionInfo, file: Option<seq<byte>>, steps: Steps, link: Link): (ok: bool)
    requires link.Valid() && FileWalks(file)
    ensures ok <==> AdmitLegacy(v).Some? && SetupLegacy(v, file, steps, link).status == Success
  {
    AdmitLegacy(v).Some? && SetupLegacy(v, file, steps, link).status == Success
  }

  /** The two differ only in the failed activation. */
  lemma StartsDiffer(v: VersionInfo, file: Option<seq<byte>>, steps: Steps, link: Link)
    requires link.Valid() && FileWalks(file)
    ensures StartLegacy(v, file, steps, link) != StartLegacyCorrected(v, file, steps, link) <==>
      AdmitLegacy(v).Some? && SetupLegacy(v, file, steps, link).exit == Some(ResetActivate) && steps.exit != Success
  {
  }

  /** `start` goes on after checking the device address exactly when the
      corrected start goes on; the as-written start goes on without the
      check only on the failed activation. */
  lemma StartChecksAddress(v: VersionInfo, file: Option<seq<byte>>, steps: Steps, link: Link)
    requires link.Valid() && FileWalks(file)
    ensures StartLegacyCorrected(v, file, steps, link) <==>
      AdmitLegacy(v).Some? && SetupLegacy(v, file, steps, link).addressChecked
    ensures StartLegacy(v, file, steps, link) && !SetupLegacy(v, file, steps, link).addressChecked ==>
      SetupLegacy(v, file, steps, link).exit == Some(ResetActivate) && steps.exit != Success
  {
  }

  /** An input that shows it: an admitted device with no patch yet, a file
      holding one 0xFC8E record and the Command Complete it expects, a
      reliable link, and an exit from
      manufacturer mode that fails. `start` answers `true`. */
  lemma {:induction false} StartActivationFailureWitness(v: VersionInfo, steps: Steps)
    requires AdmitLegacy(v).Some? && !AlreadyPatched(v)
    requires steps.enter == Success && steps.exit == Error
    ensures var file := EncodeFile([Record(Command(OpLoadPatch, []), [Expected(0x0E, [0x01, 0x8E, 0xFC, 0x00])])]);
      PatchWalks(file, 0)
      && StartLegacy(v, Some(file), steps, Reliable)
      && !StartLegacyCorrected(v, Some(file), steps, Reliable)
  {
    var rs := [Record(Command(OpLoadPatch, []), [Expected(0x0E, [0x01, 0x8E, 0xFC, 0x00])])];
    assert Commands(rs) == [Command(OpLoadPatch, [])] by {
      assert rs[1..] == [];
    }
    assert LoadsPatch(Commands(rs));
    SetupSendsWholeFile(v, rs, steps);
  }
}

=== FILE: gen2.dfy ===
/** The second-generation controllers (legacy bootloader, version reply in
    the fixed 9-byte layout): admission in `start`, the firmware file name,
    and the `DownloadFirmwareWL` decision tree. The older transport build
    compares versions for every variant except SfP and WsP, with the
    HostController scanner that stores the boot address; the newer
    transport and the Family class, which are identical, also skip the
    comparison while the device runs its bootloader (firmware variant 06). */
module Gen2 {
  import opened Bytes
  import opened IntelTypes
  import opened Hci
  import opened SecureSend
  import opened FirmwareImage
  import opened Download
  import opened Text
  import opened Controller

  // ---------------------------------------------------------------------
  // start

  const Gen2Variants: set<byte> := {VariantSfP, VariantWsP, VariantJfP, VariantThP, VariantHrP, VariantCcP}

  datatype Quirks = Quirks(validLEStates: bool, widebandSpeech: bool, msftOpCode: uint16)

  /** `start` of the newer transport: platform 0x37 and one of the six
      legacy-bootloader variants; JfP and ThP get the valid-LE-states quirk
      and every admitted device wideband speech and the MSFT opcode map. */
  function Admit(v: VersionInfo, msftOpCode: uint16): (q: Option<Quirks>)
    ensures q.Some? <==> v.hardwarePlatform == IntelPlatform && v.hardwareVariant in Gen2Variants
    ensures q.Some? ==> q.value.widebandSpeech
    ensures q.Some? ==> (q.value.validLEStates <==> v.hardwareVariant in {VariantJfP, VariantThP})
  {
    if v.hardwarePlatform != 0x37
       || (v.hardwareVariant != VariantJfP && v.hardwareVariant != VariantThP && v.hardwareVariant != VariantSfP
           && v.hardwareVariant != VariantWsP && v.hardwareVariant != VariantHrP && v.hardwareVariant != VariantCcP)
    then None
    else
      var le := v.hardwareVariant == VariantJfP || v.hardwareVariant == VariantThP;
      Some(Quirks(le, true, MicrosoftExtensionOpCode(msftOpCode, v.hardwareVariant)))
  }

  /** `start` of the Family class: the same admission, but the MSFT opcode
      map is commented out there, so the opcode stays as it was. */
  function AdmitFamily(v: VersionInfo, msftOpCode: uint16): (q: Option<Quirks>)
    ensures q.Some? ==> q.value.msftOpCode == msftOpCode
  {
    match Admit(v, msftOpCode)
    case None => None
    case Some(q) => Some(q.(msftOpCode := msftOpCode))
  }

  /** Admitted devices pass the legacy version-report check; the two
      admissions differ only in the MSFT opcode, which the newer transport
      sets to 0xFC1E for JfP..CcP and leaves alone for SfP and WsP. */
  lemma AdmissionsCompared(v: VersionInfo, msftOpCode: uint16)
    ensures Admit(v, msftOpCode).Some? ==> CheckLegacyVersion(v) == Success
    ensures AdmitFamily(v, msftOpCode).Some? <==> Admit(v, msftOpCode).Some?
    ensures Admit(v, msftOpCode).Some? ==>
      Admit(v, msftOpCode).value.msftOpCode ==
        if v.hardwareVariant in {VariantSfP, VariantWsP} then msftOpCode else OpMicrosoftExtension
  {
  }

  // ---------------------------------------------------------------------
  // GetFirmwareNameWL

  /** The numbers the name is made of: variant and device revision for SfP
      and WsP (the signed revision printed through a `UInt16` cast), variant,
      hardware and firmware revision for JfP..CcP. */
  function NameFields(v: VersionInfo, p: BootParams): (fs: Option<seq<nat>>)
    ensures fs.Some? <==> v.hardwareVariant in Gen2Variants
    ensures fs.Some? ==> 2 <= |fs.value| <= 3 && fs.value[0] == v.hardwareVariant as nat
  {
    if v.hardwareVariant == VariantSfP || v.hardwareVariant == VariantWsP then
      Some([v.hardwareVariant as nat, p.deviceRevisionID % 0x1_0000])
    else if v.hardwareVariant in {VariantJfP, VariantThP, VariantHrP, VariantCcP} then
      Some([v.hardwareVariant as nat, v.hardwareRevision as nat, v.firmwareRevision as nat])
    else None
  }

  /** The name before it is cut to the buffer. */
  function FullName(fields: seq<nat>, suffix: string): (s: string)
    requires |fields| >= 1
  {
    "ibt-" + Join(fields, '-', 10) + "." + suffix
  }

  /** `ibt-%u-%u.%s` or `ibt-%u-%u-%u.%s` in a 64-byte buffer; other
      variants have no name (`kIOReturnInvalid`). */
  function FirmwareName(v: VersionInfo, p: BootParams, suffix: string): (name: Option<string>)
    ensures name.Some? <==> v.hardwareVariant in Gen2Variants
    ensures name.Some? ==> |name.value| < NameBufferSize
    ensures name.Some? && |FullName(NameFields(v, p).value, suffix)| < NameBufferSize ==>
      name.value == FullName(NameFields(v, p).value, suffix)
  {
    match NameFields(v, p)
    case None => None
    case Some(fs) => Some(Bounded(FullName(fs, suffix), NameBufferSize))
  }

  /** Two devices whose names fit the buffer get the same file only when
      they agree on every field the name is built from, so SfP/WsP and
      JfP..CcP never share a file. */
  lemma NameDeterminesFields(v1: VersionInfo, p1: BootParams, v2: VersionInfo, p2: BootParams, suffix: string)
    requires FirmwareName(v1, p1, suffix).Some? && FirmwareName(v2, p2, suffix).Some?
    requires |FullName(NameFields(v1, p1).value, suffix)| < NameBufferSize
    requires |FullName(NameFields(v2, p2).value, suffix)| < NameBufferSize
    requires FirmwareName(v1, p1, suffix) == FirmwareName(v2, p2, suffix)
    ensures NameFields(v1, p1) == NameFields(v2, p2)
    ensures v1.hardwareVariant == v2.hardwareVariant
  {
    var f1, f2 := NameFields(v1, p1).value, NameFields(v2, p2).value;
    var n1, n2 := FullName(f1, suffix), FullName(f2, suffix);
    assert n1 == n2;
    assert n1 == "ibt-" + (Join(f1, '-', 10) + ['.'] + suffix);
    assert n2 == "ibt-" + (Join(f2, '-', 10) + ['.'] + suffix);
    assert Join(f1, '-', 10) + ['.'] + suffix == n1[4..];
    assert Join(f2, '-', 10) + ['.'] + suffix == n2[4..];
    JoinInjective(f1, f2, '-', '.', '.', suffix, suffix, 10);
  }

  // ---------------------------------------------------------------------
  // DownloadFirmwareWL

  /** The reply to Read Boot Params: the parameters, or the error. */
  datatype BootRead = BootRead(params: BootParams) | BootReadFailed(error: Status)
  {
    predicate Valid()
    {
      (BootReadFailed? ==> error != Success) && (BootRead? ==> |params.otpDeviceAddress| == 6)
    }
  }

  /** Which copy of the tree. */
  datatype Copy = OlderTransport | NewerCopies

  /** The older transport drives the HostController class, whose reset
      enters bootloader mode; the newer copies use the Family class's reset,
      which changes no flag. */
  function ResetOf(copy: Copy): (who: Resetter)
    ensures who == HostReset <==> copy == OlderTransport
  {
    match copy
    case OlderTransport => HostReset
    case NewerCopies => FamilyReset
  }

  /** Everything the driver reads from a fetched image of at least 644
      bytes lies inside it: the version scan and the RSA payload walk. */
  predicate Readable(env: Env)
  {
    env.fetch.Fetched? && |env.fetch.image| >= RsaHeaderLength ==>
      ScanWalks(env.fetch.image, 0) && PayloadWalks(env.fetch.image, RsaHeaderLength, 0)
  }

  /** The version is compared only outside SfP/WsP, and in the newer copies
      only when the device is not running its bootloader. */
  predicate ComparesVersion(copy: Copy, v: VersionInfo)
  {
    v.hardwareVariant != VariantSfP && v.hardwareVariant != VariantWsP
    && (copy == NewerCopies ==> v.firmwareVariant != FirmwareBootloader)
  }

  /** The controller after the version scan. The older copy's scanner is
      the HostController class's, which stores the boot address of the
      image's first Write_Boot_Params record as it compares; the newer
      copies' scanner writes nothing. */
  function Scanned(copy: Copy, v: VersionInfo, c: Ctl, image: seq<byte>): (c': Ctl)
    requires ScanWalks(image, 0)
    ensures copy == NewerCopies ==> c' == c
    ensures c'.(bootAddress := c.bootAddress) == c
    ensures c'.bootAddress != c.bootAddress ==>
      copy == OlderTransport && ComparesVersion(copy, v) && FindBootParams(image, 0).Some?
      && c'.bootAddress == FindBootParams(image, 0).value.bootAddress
  {
    var found := FindBootParams(image, 0);
    if copy == OlderTransport && ComparesVersion(copy, v) && found.Some? then c.(bootAddress := found.value.bootAddress)
    else c
  }

  function DownloadFirmware(copy: Copy, v: VersionInfo, boot: BootRead, ctl: Ctl, env: Env): (r: Run)
    requires env.Valid() && boot.Valid() && Readable(env)
    ensures r.waited ==> r.status == WaitStatus(env.wait)
    ensures copy == NewerCopies ==> r.ctl.bootAddress == ctl.bootAddress
    ensures r.ctl.bootAddress != ctl.bootAddress ==>
      copy == OlderTransport && env.fetch.Fetched? && |env.fetch.image| >= RsaHeaderLength
      && ComparesVersion(copy, v) && FindBootParams(env.fetch.image, 0).Some?
      && r.ctl.bootAddress == FindBootParams(env.fetch.image, 0).value.bootAddress
    ensures r.sent != [] ==> env.fetch.Fetched? && |env.fetch.image| >= RsaHeaderLength
    ensures r.resets > 0 && copy == OlderTransport ==> r.ctl.bootloaderMode && r.ctl.downloading
    ensures r.resets > 0 && copy == NewerCopies ==>
      r.ctl.bootloaderMode == (ctl.bootloaderMode && v.firmwareVariant != FirmwareOperational)
  {
    var operational := v.firmwareVariant == FirmwareOperational;
    var sfp := v.hardwareVariant == VariantSfP || v.hardwareVariant == VariantWsP;
    if operational && sfp then
      // no version on file to compare with: nothing to do
      Run(Success, ctl.(bootloaderMode := false), [], 0, true, false)
    else if !operational && boot.BootReadFailed? then Run(boot.error, ctl, [], 0, false, false)
    else if !operational && boot.params.limitedCCE != 0 then Run(Invalid, ctl, [], 0, false, false)
    else
      var c1 := if operational then ctl.(bootloaderMode := false)
                else if NoOtpAddress(boot.params.otpDeviceAddress) then ctl.(invalidAddress := true)
                else ctl;
      match env.fetch
      case FetchFailed(e) =>
        if !c1.bootloaderMode then Run(Success, c1.(loaded := true), [], 0, operational, false)
        else Run(e, c1, [], 0, operational, false)
      case Fetched(image) =>
        if |image| < RsaHeaderLength then Run(Unsupported, c1, [], 0, operational, false)
        else DownloadImage(copy, v, c1, image, env)
  }

  /** The tree once an image of at least 644 bytes is at hand: mark the
      download, scan for the version, then skip, refuse operational
      firmware with a reset, or send the RSA header and the payload. */
  function DownloadImage(copy: Copy, v: VersionInfo, c: Ctl, image: seq<byte>, env: Env): (r: Run)
    requires env.Valid() && |image| >= RsaHeaderLength && ScanWalks(image, 0) && PayloadWalks(image, RsaHeaderLength, 0)
    ensures r.waited ==> r.status == WaitStatus(env.wait)
    ensures r.addressChecked == (v.firmwareVariant == FirmwareOperational)
    ensures copy == NewerCopies ==> r.ctl.bootAddress == c.bootAddress
    ensures r.ctl.bootAddress != c.bootAddress ==>
      copy == OlderTransport && ComparesVersion(copy, v) && FindBootParams(image, 0).Some?
      && r.ctl.bootAddress == FindBootParams(image, 0).value.bootAddress
    ensures r.resets > 0 && copy == OlderTransport ==> r.ctl.bootloaderMode && r.ctl.downloading
    ensures r.resets > 0 && copy == NewerCopies ==> r.ctl.bootloaderMode == c.bootloaderMode
  {
    var operational := v.firmwareVariant == FirmwareOperational;
    var c' := Scanned(copy, v, c.(downloading := true), image);
    if ComparesVersion(copy, v)
       && ParseFirmwareVersion(v.firmwareBuildNum, v.firmwareBuildWeek, v.firmwareBuildYear, image) then
      Run(Success, c'.(loaded := true), [], 0, operational, false)
    else if operational then Run(Invalid, AfterReset(ResetOf(copy), c'), [], 1, operational, false)
    else Finish(Transmit(Send(RsaOnly, RsaHeaderLength), image, env.link, env.wait), c', 0, operational, ResetOf(copy))
  }

  /** Operational firmware on SfP or WsP ends the call at once, whatever
      the rest of the environment. */
  lemma OperationalSfpDoesNothing(copy: Copy, v: VersionInfo, boot: BootRead, ctl: Ctl, env: Env)
    requires env.Valid() && boot.Valid() && Readable(env)
    requires v.firmwareVariant == FirmwareOperational && v.hardwareVariant in {VariantSfP, VariantWsP}
    ensures var r := DownloadFirmware(copy, v, boot, ctl, env);
      r.status == Success && r.sent == [] && r.addressChecked && !r.ctl.bootloaderMode && r.ctl.loaded == ctl.loaded
  {
  }

  /** In bootloader mode the boot parameters decide first: a failed read
      returns its error, a bootloader that does not acknowledge every
      fragment is refused, and an OTP without an address flags it. */
  lemma BootParamsGate(copy: Copy, v: VersionInfo, boot: BootRead, ctl: Ctl, env: Env)
    requires env.Valid() && boot.Valid() && Readable(env) && v.firmwareVariant != FirmwareOperational
    ensures var r := DownloadFirmware(copy, v, boot, ctl, env);
      (boot.BootReadFailed? ==> r.status == boot.error && r.sent == [])
      && (boot.BootRead? && boot.params.limitedCCE != 0 ==> r.status == Invalid && r.sent == [])
      && (boot.BootRead? && boot.params.limitedCCE == 0 ==>
            r.ctl.invalidAddress == (ctl.invalidAddress || NoOtpAddress(boot.params.otpDeviceAddress)))
  {
  }

  /** A firmware file shorter than the RSA header is unsupported. */
  lemma ShortImageUnsupported(copy: Copy, v: VersionInfo, boot: BootRead, ctl: Ctl, env: Env)
    requires env.Valid() && boot.Valid() && Readable(env)
    requires env.fetch.Fetched? && |env.fetch.image| < RsaHeaderLength
    requires !(v.firmwareVariant == FirmwareOperational && v.hardwareVariant in {VariantSfP, VariantWsP})
    requires v.firmwareVariant != FirmwareOperational ==> boot.BootRead? && boot.params.limitedCCE == 0
    ensures DownloadFirmware(copy, v, boot, ctl, env).status == Unsupported
  {
  }

  /** A matching version ends the call with the firmware marked loaded,
      except where the copy does not compare versions. */
  lemma VersionMatchSkips(copy: Copy, v: VersionInfo, boot: BootRead, ctl: Ctl, env: Env)
    requires env.Valid() && boot.Valid() && Readable(env)
    requires env.fetch.Fetched? && |env.fetch.image| >= RsaHeaderLength
    requires v.firmwareVariant != FirmwareOperational ==> boot.BootRead? && boot.params.limitedCCE == 0
    requires ComparesVersion(copy, v)
    requires ParseFirmwareVersion(v.firmwareBuildNum, v.firmwareBuildWeek, v.firmwareBuildYear, env.fetch.image)
    ensures var r := DownloadFirmware(copy, v, boot, ctl, env);
      r.status == Success && r.sent == [] && r.ctl.loaded && r.ctl.downloading && r.resets == 0
  {
  }

  /** The older copy's version scan stores the boot address of the image's
      first Write_Boot_Params record whatever the comparison's verdict, so
      that address is the one the device later boots at; without such a
      record, and in the newer copies, the address is left as it was. */
  lemma OlderCopyTakesBootAddress(copy: Copy, v: VersionInfo, boot: BootRead, ctl: Ctl, env: Env)
    requires env.Valid() && boot.Valid() && Readable(env)
    requires env.fetch.Fetched? && |env.fetch.image| >= RsaHeaderLength
    requires v.hardwareVariant !in {VariantSfP, VariantWsP}
    requires v.firmwareVariant != FirmwareOperational ==> boot.BootRead? && boot.params.limitedCCE == 0
    ensures var r, found := DownloadFirmware(copy, v, boot, ctl, env), FindBootParams(env.fetch.image, 0);
      r.ctl.bootAddress ==
        if copy == OlderTransport && ComparesVersion(copy, v) && found.Some? then found.value.bootAddress
        else ctl.bootAddress
  {
  }

  /** The copies part ways for a device in its bootloader (firmware variant
      06) whose reported version matches the file: the older transport
      skips the download, the newer copies send the image. */
  lemma CopiesDifferInBootloader(v: VersionInfo, boot: BootRead, ctl: Ctl, env: Env)
    requires env.Valid() && boot.Valid() && Readable(env)
    requires env.fetch.Fetched? && |env.fetch.image| > RsaHeaderLength && env.link == Reliable
    requires boot.BootRead? && boot.params.limitedCCE == 0
    requires v.firmwareVariant == FirmwareBootloader && v.hardwareVariant !in {VariantSfP, VariantWsP}
    requires ParseFirmwareVersion(v.firmwareBuildNum, v.firmwareBuildWeek, v.firmwareBuildYear, env.fetch.image)
    ensures DownloadFirmware(OlderTransport, v, boot, ctl, env).sent == []
    ensures DownloadFirmware(NewerCopies, v, boot, ctl, env).waited
  {
  }

  /** Operational firmware of another version is refused with one reset to
      the bootloader. */
  lemma OperationalMismatch(copy: Copy, v: VersionInfo, boot: BootRead, ctl: Ctl, env: Env)
    requires env.Valid() && boot.Valid() && Readable(env)
    requires env.fetch.Fetched? && |env.fetch.image| >= RsaHeaderLength
    requires v.firmwareVariant == FirmwareOperational && v.hardwareVariant !in {VariantSfP, VariantWsP}
    requires !ParseFirmwareVersion(v.firmwareBuildNum, v.firmwareBuildWeek, v.firmwareBuildYear, env.fetch.image)
    ensures var r := DownloadFirmware(copy, v, boot, ctl, env);
      r.status == Invalid && r.sent == [] && r.resets == 1 && (r.ctl.bootloaderMode <==> copy == OlderTransport)
  {
  }

  /** What a download that went out carried: the RSA header, then Data
      fragments holding the image from offset 644; it succeeds only when
      the bootloader confirmed the load. */
  lemma DownloadSendsTail(copy: Copy, v: VersionInfo, boot: BootRead, ctl: Ctl, env: Env)
    requires env.Valid() && boot.Valid() && Readable(env)
    ensures var r := DownloadFirmware(copy, v, boot, ctl, env);
      r.waited ==> env.fetch.Fetched? && |env.fetch.image| > RsaHeaderLength
                   && Payload(OfType(r.sent, FragmentData)) == env.fetch.image[RsaHeaderLength..]
                   && (r.status == Success <==> env.wait == Completed)
  {
  }
}

=== FILE: gen3.dfy ===
/** The third-generation (TLV-reporting) controllers: which devices the
    driver takes on, the firmware file name, and the two `DownloadFirmwareWL`
    decision trees. One tree belongs to the older transport build; the other
    is shared, line for line, by the newer transport and the Family class. */
module Gen3 {
  import opened Bytes
  import opened IntelTypes
  import opened Hci
  import opened SecureSend
  import opened FirmwareImage
  import opened TlvParser
  import opened Download
  import opened Text
  import opened Controller

  // ---------------------------------------------------------------------
  // start

  /** The device quirks `start` records for an admitted controller. */
  datatype Quirks = Quirks(validLEStates: bool, widebandSpeech: bool, msftOpCode: uint16)

  /** `start`: the version reply must parse, the platform must be 0x37,
      JfP..CcP are refused as not being new-bootloader devices, and only
      TyP, Slr and SlrF are taken on. Slr also gets the valid-LE-states
      quirk (it falls through into the shared TyP/SlrF branch). */
  function Admit(parsed: Status, v: VersionInfoTlv, msftOpCode: uint16): (q: Option<Quirks>)
    ensures q.Some? <==> parsed == Success && HardwarePlatform(v.cnviBT) == IntelPlatform
                         && HardwareVariant(v.cnviBT) in TlvReportVariants
    ensures q.Some? ==> q.value.widebandSpeech && q.value.msftOpCode == OpMicrosoftExtension
    ensures q.Some? ==> (q.value.validLEStates <==> HardwareVariant(v.cnviBT) == VariantSlr)
  {
    if parsed != Success then None
    else if HardwarePlatform(v.cnviBT) != 0x37 then None
    else
      var variant := HardwareVariant(v.cnviBT);
      match variant
      case 0x11 => None case 0x12 => None case 0x13 => None case 0x14 => None
      case 0x18 => Some(Quirks(true, true, MicrosoftExtensionOpCode(msftOpCode, variant)))
      case 0x17 => Some(Quirks(false, true, MicrosoftExtensionOpCode(msftOpCode, variant)))
      case 0x19 => Some(Quirks(false, true, MicrosoftExtensionOpCode(msftOpCode, variant)))
      case _ => None
  }

  /** An admitted controller passes the TLV version-report check, apart from
      the two fields that check looks at only for a bootloader image. */
  lemma AdmittedReportsValid(parsed: Status, v: VersionInfoTlv, msftOpCode: uint16)
    requires Admit(parsed, v, msftOpCode).Some?
    ensures CheckTlvVersion(v) == Success <==>
      (v.imageType == ImageBootloader ==> v.limitedCCE == 0 && v.sbeType <= 1)
  {
  }

  // ---------------------------------------------------------------------
  // GetFirmwareNameWL

  /** One `%04x` field of the name: the swapped packed (type, step) of a TOP
      register. */
  function TopField(top: uint32): (s: string)
    ensures |s| == 4 && AllDigits(s, 16)
    ensures ValueOf(s, 16) == CnvxTopSwapped(TopType(top), TopStep(top))
  {
    Hex4(CnvxTopSwapped(TopType(top), TopStep(top)))
  }

  /** `ibt-<cnviTop>-<cnvrTop>.<suffix>`, written into a 64-byte buffer. */
  function FirmwareName(v: VersionInfoTlv, suffix: string): (name: string)
    ensures |name| < NameBufferSize
    ensures |suffix| < NameBufferSize - 14 ==>
      |name| == 14 + |suffix| && name[..4] == "ibt-" && name[8] == '-' && name[13] == '.' && name[14..] == suffix
      && ValueOf(name[4..8], 16) == CnvxTopSwapped(TopType(v.cnviTop), TopStep(v.cnviTop))
      && ValueOf(name[9..13], 16) == CnvxTopSwapped(TopType(v.cnvrTop), TopStep(v.cnvrTop))
  {
    var full := "ibt-" + TopField(v.cnviTop) + "-" + TopField(v.cnvrTop) + "." + suffix;
    assert full[4..8] == TopField(v.cnviTop);
    assert full[9..13] == TopField(v.cnvrTop);
    assert full[14..] == suffix;
    Bounded(full, NameBufferSize)
  }

  /** The name determines the type and step of both TOP registers: two
      version records that name the same file agree on them. */
  lemma NameDeterminesTops(v1: VersionInfoTlv, v2: VersionInfoTlv, suffix: string)
    requires |suffix| < NameBufferSize - 14
    ensures FirmwareName(v1, suffix) == FirmwareName(v2, suffix) ==>
      TopType(v1.cnviTop) == TopType(v2.cnviTop) && TopStep(v1.cnviTop) == TopStep(v2.cnviTop)
      && TopType(v1.cnvrTop) == TopType(v2.cnvrTop) && TopStep(v1.cnvrTop) == TopStep(v2.cnvrTop)
  {
    var n := FirmwareName(v1, suffix);
    if n == FirmwareName(v2, suffix) {
      assert n[4..8] == FirmwareName(v2, suffix)[4..8];
      var a1 := CnvxTopSwapped(TopType(v1.cnviTop), TopStep(v1.cnviTop));
      var a2 := CnvxTopSwapped(TopType(v2.cnviTop), TopStep(v2.cnviTop));
      assert a1 == a2;
      var b1 := CnvxTopSwapped(TopType(v1.cnvrTop), TopStep(v1.cnvrTop));
      var b2 := CnvxTopSwapped(TopType(v2.cnvrTop), TopStep(v2.cnvrTop));
      assert b1 == b2;
    }
  }

  // ---------------------------------------------------------------------
  // DownloadFirmwareWL

  const CssVersionRsa := 0x0001_0000
  const CssVersionEcdsa := 0x0002_0000
  const EcdsaCssMarker: byte := 0x06

  /** The bytes the plan reads exist: the CSS version at offset 8, and for
      variants from TyP on the ECDSA marker at 644 and its CSS version. */
  predicate HeaderReadable(variant: byte, image: seq<byte>)
  {
    |image| >= RsaHeaderLength
    && (variant >= 0x17 && LE32(image, CssHeaderOffset) == CssVersionRsa ==>
          |image| > EcdsaOffset
          && (image[EcdsaOffset] == EcdsaCssMarker ==> |image| >= EcdsaOffset + CssHeaderOffset + 4))
  }

  function ImagePlan(variant: byte, sbeType: byte, image: seq<byte>): (p: Plan)
    requires HeaderReadable(variant, image)
    ensures p.Send? ==> LE32(image, CssHeaderOffset) == CssVersionRsa
    ensures p.Send? && variant <= 0x14 ==> p == Send(RsaOnly, RsaHeaderLength) && sbeType == 0
    ensures p.Send? && variant >= 0x17 ==>
      p.offset == EcdsaPayloadOffset && image[EcdsaOffset] == EcdsaCssMarker
      && LE32(image, EcdsaOffset + CssHeaderOffset) == CssVersionEcdsa
      && (p.header == EcdsaAfterRsa <==> sbeType != 0)
    ensures p == NothingToSend <==> LE32(image, CssHeaderOffset) == CssVersionRsa && 0x14 < variant < 0x17
  {
    if LE32(image, CssHeaderOffset) != CssVersionRsa then Refuse
    else if variant <= 0x14 then
      if sbeType != 0 then Refuse else Send(RsaOnly, RsaHeaderLength)
    else if variant >= 0x17 then
      if image[EcdsaOffset] != EcdsaCssMarker then Refuse
      else if LE32(image, EcdsaOffset + CssHeaderOffset) != CssVersionEcdsa then Refuse
      else Send(if sbeType == 0 then RsaOnly else EcdsaAfterRsa, EcdsaPayloadOffset)
    else NothingToSend
  }

  /** Everything the driver reads from a fetched image of at least 644
      bytes lies inside it: the version scan and the header and payload
      walks of the plan chosen. */
  predicate Readable(v: VersionInfoTlv, env: Env)
  {
    env.fetch.Fetched? && |env.fetch.image| >= RsaHeaderLength ==>
      var image := env.fetch.image;
      ScanWalks(image, 0) && HeaderReadable(HardwareVariant(v.cnviBT), image)
      && PlanWalks(ImagePlan(HardwareVariant(v.cnviBT), v.sbeType, image), image)
  }

  /** The steps both trees share before the version check. */
  datatype Step = Stop(run: Run) | Proceed(ctl: Ctl, image: seq<byte>, checked: bool)

  function Prologue(v: VersionInfoTlv, ctl: Ctl, env: Env): (s: Step)
    requires env.Valid()
    ensures s.Proceed? ==> env.fetch == Fetched(s.image) && |s.image| >= RsaHeaderLength && s.ctl.downloading
    ensures s.Proceed? ==> s.ctl == ctl.(bootloaderMode := s.ctl.bootloaderMode, downloading := true,
                                         invalidAddress := s.ctl.invalidAddress)
    ensures s.Stop? ==> s.run.sent == [] && s.run.resets == 0 && !s.run.waited
    ensures s.Stop? && s.run.status == Success ==> env.fetch.FetchFailed? && !s.run.ctl.bootloaderMode && s.run.ctl.loaded
  {
    // operational firmware: leave bootloader mode and check the address
    var checked := v.imageType == ImageFirmware;
    var c1 := if checked then ctl.(bootloaderMode := false) else ctl;
    var c2 := if NoOtpAddress(v.otpDeviceAddress) then c1.(invalidAddress := true) else c1;
    match env.fetch
    case FetchFailed(e) =>
      if !c2.bootloaderMode then Stop(Run(Success, c2.(loaded := true), [], 0, checked, false))
      else Stop(Run(e, c2, [], 0, checked, false))
    case Fetched(image) =>
      if |image| < RsaHeaderLength then Stop(Run(Unsupported, c2, [], 0, checked, false))
      else Proceed(c2.(downloading := true), image, checked)
  }

  /** `DownloadFirmwareWL` of the older transport. A matching firmware
      version (read together with the boot address) ends the download;
      operational firmware with another version is reset to the bootloader
      first; a refusal, a send failure or a timeout resets to the
      bootloader and returns the error. Any other outcome of the wait,
      including a failed load, returns success. The resets are the
      HostController class's, which enter bootloader mode and mark a
      download under way even when the reset itself fails. */
  function DownloadLenient(v: VersionInfoTlv, ctl: Ctl, env: Env): (r: Run)
    requires env.Valid() && Readable(v, env)
    ensures r.status == Success && r.sent != [] ==> r.waited
    ensures r.resets > 0 ==> r.ctl.bootloaderMode
  {
    match Prologue(v, ctl, env)
    case Stop(run) => run
    case Proceed(c, image, checked) =>
      var found := FindBootParams(image, 0);
      var c' := if found.Some? then c.(bootAddress := found.value.bootAddress) else c;
      if ParseFirmwareVersion(v.firmwareBuildNumber, v.firmwareBuildWeek, v.firmwareBuildYear, image) then
        Run(Success, c'.(downloading := false, loaded := true), [], 0, checked, false)
      else if v.imageType == ImageFirmware && env.resetStatus != Success then
        Run(env.resetStatus, AfterReset(HostReset, c'), [], 1, checked, false)
      else
        var before := if v.imageType == ImageFirmware then 1 else 0;
        var c'' := if v.imageType == ImageFirmware then AfterReset(HostReset, c') else c';
        var plan := ImagePlan(HardwareVariant(v.cnviBT), v.sbeType, image);
        LenientFinish(Transmit(plan, image, env.link, env.wait), c'', before, checked)
  }

  /** The end of the older tree: a refusal, a send failure or a timeout
      resets to the bootloader and is returned; anything else is success. */
  function LenientFinish(t: Transfer, c: Ctl, resets: nat, checked: bool): (r: Run)
    requires !t.waited ==> t.status != Success
    ensures r.sent == t.sent && r.waited == t.waited && r.ctl.loaded == (c.loaded || t.waited)
    ensures r.status == Success <==> t.waited && t.status != Timeout
    ensures r.resets == if r.status == Success then resets else resets + 1
    ensures r.status == Success ==> r.ctl == Waited(c, true)
    ensures r.status != Success ==> r.ctl == AfterReset(HostReset, Waited(c, t.waited))
  {
    if !t.waited || t.status == Timeout then
      Run(t.status, AfterReset(HostReset, Waited(c, t.waited)), t.sent, resets + 1, checked, t.waited)
    else Run(Success, Waited(c, true), t.sent, resets, checked, true)
  }

  /** The older tree's end and the shared one, both with the HostController
      reset, leave the same run apart from the status, and the statuses
      differ exactly when the wait reported a failed load. */
  lemma FinishesCompared(t: Transfer, c: Ctl, resets: nat, checked: bool)
    requires !t.waited ==> t.status != Success
    ensures var a, b := Finish(t, c, resets, checked, HostReset), LenientFinish(t, c, resets, checked);
      a.(status := b.status) == b
      && (a.status != b.status <==> t.waited && t.status != Success && t.status != Timeout)
  {
  }

  /** The same tree returning the wait's verdict, as the other two copies
      do: a failed load is reported. */
  function DownloadLenientCorrected(v: VersionInfoTlv, ctl: Ctl, env: Env): (r: Run)
    requires env.Valid() && Readable(v, env)
    ensures r.waited ==> r.status == WaitStatus(env.wait)
  {
    var r := DownloadLenient(v, ctl, env);
    if r.waited then r.(status := WaitStatus(env.wait)) else r
  }

  /** `DownloadFirmwareWL` of the newer transport and of the Family class.
      The version is not compared for a bootloader image; a match otherwise
      marks the firmware loaded (and leaves `mDownloading` set);
      operational firmware with another version is refused and reset. */
  function DownloadStrict(v: VersionInfoTlv, ctl: Ctl, env: Env): (r: Run)
    requires env.Valid() && Readable(v, env)
    ensures r.waited ==> r.status == WaitStatus(env.wait)
    ensures r.ctl.bootAddress == ctl.bootAddress
  {
    match Prologue(v, ctl, env)
    case Stop(run) => run
    case Proceed(c, image, checked) =>
      if v.imageType != ImageBootloader
         && ParseFirmwareVersion(v.firmwareBuildNumber, v.firmwareBuildWeek, v.firmwareBuildYear, image) then
        Run(Success, c.(loaded := true), [], 0, checked, false)
      else if v.imageType == ImageFirmware then Run(Invalid, c, [], 1, checked, false)
      else
        var plan := ImagePlan(HardwareVariant(v.cnviBT), v.sbeType, image);
        Finish(Transmit(plan, image, env.link, env.wait), c, 0, checked, FamilyReset)
  }

  /** The image the driver fetched, when it fetched one it goes on with. */
  predicate Usable(env: Env)
  {
    env.fetch.Fetched? && |env.fetch.image| >= RsaHeaderLength
  }

  function Matches(v: VersionInfoTlv, image: seq<byte>): bool
    requires ScanWalks(image, 0)
  {
    ParseFirmwareVersion(v.firmwareBuildNumber, v.firmwareBuildWeek, v.firmwareBuildYear, image)
  }

  /** Older transport: a matching version sends nothing, ends the download
      and takes the boot address from the image. */
  lemma LenientMatchSkips(v: VersionInfoTlv, ctl: Ctl, env: Env)
    requires env.Valid() && Readable(v, env) && Usable(env) && Matches(v, env.fetch.image)
    ensures var r := DownloadLenient(v, ctl, env);
      r.status == Success && r.sent == [] && r.resets == 0 && r.ctl.loaded && !r.ctl.downloading
      && r.ctl.bootAddress == FindBootParams(env.fetch.image, 0).value.bootAddress
  {
  }

  /** Newer copies: outside a bootloader image a matching version sends
      nothing and marks the firmware loaded, but `mDownloading` stays set;
      in a bootloader image the version is never compared. */
  lemma StrictMatchSkips(v: VersionInfoTlv, ctl: Ctl, env: Env)
    requires env.Valid() && Readable(v, env) && Usable(env) && Matches(v, env.fetch.image)
    ensures var r := DownloadStrict(v, ctl, env);
      v.imageType != ImageBootloader ==>
        r.status == Success && r.sent == [] && r.resets == 0 && r.ctl.loaded && r.ctl.downloading
  {
  }

  /** For a bootloader image the newer copies never look at the firmware
      version the device reports. */
  lemma StrictIgnoresVersionInBootloader(v: VersionInfoTlv, ctl: Ctl, env: Env, number: byte, week: byte, year: byte)
    requires env.Valid() && Readable(v, env) && v.imageType == ImageBootloader
    ensures DownloadStrict(v, ctl, env) ==
      DownloadStrict(v.(firmwareBuildNumber := number, firmwareBuildWeek := week, firmwareBuildYear := year), ctl, env)
  {
  }

  /** Operational firmware of another version: the newer copies refuse it
      and reset to the bootloader once; the older transport resets first
      and goes on to download unless the reset fails. */
  lemma OperationalMismatch(v: VersionInfoTlv, ctl: Ctl, env: Env)
    requires env.Valid() && Readable(v, env) && Usable(env) && !Matches(v, env.fetch.image)
    requires v.imageType == ImageFirmware
    ensures var r := DownloadStrict(v, ctl, env);
      r.status == Invalid && r.sent == [] && r.resets == 1 && r.addressChecked && !r.ctl.bootloaderMode
    ensures var r := DownloadLenient(v, ctl, env);
      r.resets >= 1 && r.addressChecked && r.ctl.bootloaderMode
      && (env.resetStatus != Success ==> r.status == env.resetStatus && r.sent == [] && r.ctl.downloading)
  {
  }

  /** A failed fetch is fatal only in bootloader mode; otherwise the
      firmware counts as loaded. Operational firmware always leaves
      bootloader mode first. */
  lemma FetchFailure(v: VersionInfoTlv, ctl: Ctl, env: Env)
    requires env.Valid() && Readable(v, env) && env.fetch.FetchFailed?
    ensures var r := DownloadStrict(v, ctl, env);
      r == DownloadLenient(v, ctl, env) && r.sent == []
      && (r.status == Success <==> !ctl.bootloaderMode || v.imageType == ImageFirmware)
      && (r.status != Success ==> r.status == env.fetch.error)
      && (r.status == Success ==> r.ctl.loaded)
  {
  }

  /** The tail a transfer that sent something and reached the wait carried. */
  lemma TransferTail(variant: byte, sbeType: byte, image: seq<byte>, link: Link, wait: Wait)
    requires link.Valid() && HeaderReadable(variant, image) && PlanWalks(ImagePlan(variant, sbeType, image), image)
    ensures var t := Transmit(ImagePlan(variant, sbeType, image), image, link, wait);
      t.waited && t.sent != [] ==>
        (variant <= 0x14 ==> Payload(OfType(t.sent, FragmentData)) == image[RsaHeaderLength..])
        && (variant >= 0x17 ==> |image| > EcdsaPayloadOffset && Payload(OfType(t.sent, FragmentData)) == image[EcdsaPayloadOffset..])
  {
  }

  /** What a successful download sent in the newer copies: the Data
      fragments carry the image from offset 644 for variants up to CcP and
      from offset 964 for TyP onwards. */
  lemma StrictSendsTail(v: VersionInfoTlv, ctl: Ctl, env: Env)
    requires env.Valid() && Readable(v, env)
    ensures var r := DownloadStrict(v, ctl, env);
      r.status == Success && r.sent != [] ==>
        Usable(env) && var image := env.fetch.image;
        (HardwareVariant(v.cnviBT) <= 0x14 ==> Payload(OfType(r.sent, FragmentData)) == image[RsaHeaderLength..])
        && (HardwareVariant(v.cnviBT) >= 0x17 ==>
              |image| > EcdsaPayloadOffset && Payload(OfType(r.sent, FragmentData)) == image[EcdsaPayloadOffset..])
  {
    if Usable(env) {
      TransferTail(HardwareVariant(v.cnviBT), v.sbeType, env.fetch.image, env.link, env.wait);
    }
  }

  /** The same for the older transport. */
  lemma LenientSendsTail(v: VersionInfoTlv, ctl: Ctl, env: Env)
    requires env.Valid() && Readable(v, env)
    ensures var r := DownloadLenient(v, ctl, env);
      r.status == Success && r.sent != [] ==>
        Usable(env) && var image := env.fetch.image;
        (HardwareVariant(v.cnviBT) <= 0x14 ==> Payload(OfType(r.sent, FragmentData)) == image[RsaHeaderLength..])
        && (HardwareVariant(v.cnviBT) >= 0x17 ==>
              |image| > EcdsaPayloadOffset && Payload(OfType(r.sent, FragmentData)) == image[EcdsaPayloadOffset..])
  {
    var r := DownloadLenient(v, ctl, env);
    if r.status == Success && r.sent != [] {
      var step := Prologue(v, ctl, env);
      assert step.Proceed?;
      var image := step.image;
      var plan := ImagePlan(HardwareVariant(v.cnviBT), v.sbeType, image);
      var t := Transmit(plan, image, env.link, env.wait);
      assert r.sent == t.sent && t.waited;
      TransferTail(HardwareVariant(v.cnviBT), v.sbeType, image, env.link, env.wait);
    }
  }

  /** On a reliable transport a bootloader image whose plan sends something
      reaches the wait, in either tree. */
  lemma ReliableSendWaits(v: VersionInfoTlv, ctl: Ctl, env: Env)
    requires env.Valid() && Readable(v, env) && Usable(env) && env.link == Reliable
    requires v.imageType == ImageBootloader && !Matches(v, env.fetch.image)
    requires var p := ImagePlan(HardwareVariant(v.cnviBT), v.sbeType, env.fetch.image);
      p.Send? && p.offset < |env.fetch.image|
    ensures DownloadStrict(v, ctl, env).waited && DownloadLenient(v, ctl, env).waited
    ensures DownloadStrict(v, ctl, env).status == WaitStatus(env.wait)
  {
  }

  /** Once the wait is reached, the older transport reports success even
      when the bootloader said the load failed; the corrected tree reports
      the error, and succeeds only when the load completed. */
  lemma LenientIgnoresLoadFailure(v: VersionInfoTlv, ctl: Ctl, env: Env)
    requires env.Valid() && Readable(v, env)
    requires DownloadLenient(v, ctl, env).waited && env.wait == LoadFailed
    ensures DownloadLenient(v, ctl, env).status == Success
    ensures DownloadLenientCorrected(v, ctl, env).status == Error
  {
  }
}

=== FILE: hci.dfy ===
/** HCI commands as the driver emits them, and the abstract sink that carries
    them to the controller. The sink is the only place where sending can fail;
    every sending loop of the driver stops at the first failure and returns
    that failure's status, which `Deliver` captures once for all of them. */
module Hci {
  import opened Bytes

  /** An HCI command packet: a 16-bit opcode and its parameters. */
  datatype Command = Command(opCode: uint16, params: seq<byte>)

  /** The parameter length travels in one byte. */
  predicate WellFormed(c: Command)
  {
    |c.params| <= 0xFF
  }

  /** The command packet on the wire (section 5.4.1 of the Bluetooth Core
      Specification, Vol 4 Part E): opcode low byte first, then the length. */
  function Wire(c: Command): (b: seq<byte>)
    requires WellFormed(c)
    ensures |b| == 3 + |c.params|
  {
    EncodeLE16(c.opCode) + [|c.params|] + c.params
  }

  /** Reads a command packet back; it must be exactly as long as its
      length byte says. */
  function ParseWire(b: seq<byte>): (c: Option<Command>)
    ensures c.Some? ==> WellFormed(c.value) && |b| == 3 + |c.value.params|
  {
    if |b| < 3 || |b| != 3 + b[2] as int then None
    else Some(Command(LE16(b, 0), b[3..]))
  }

  /** A packet and its parse are inverse to each other. */
  lemma WireRoundTrip(c: Command, b: seq<byte>)
    requires WellFormed(c)
    ensures ParseWire(Wire(c)) == Some(c)
    ensures ParseWire(b).Some? ==> Wire(ParseWire(b).value) == b
  {
    var w := Wire(c);
    assert LE16(w, 0) == LE16(EncodeLE16(c.opCode), 0);
    assert w[3..] == c.params;
    if ParseWire(b).Some? {
      DecodeEncodeLE16(b, 0);
      assert b == b[..2] + [b[2]] + b[3..];
    }
  }

  /** The transport seen from the driver: either every command goes through,
      or the command at position `index` (counting from the first command of
      the transaction) is refused with a non-success status. */
  datatype Link = Reliable | FailsAt(index: nat, failure: Status)
  {
    predicate Valid()
    {
      FailsAt? ==> failure != Success
    }

    /** The same transport after `n` commands have gone through. */
    function After(n: nat): (l: Link)
      requires Valid()
      ensures l.Valid()
    {
      match this
      case Reliable => Reliable
      case FailsAt(i, e) => if i < n then Reliable else FailsAt(i - n, e)
    }

    /** The transport fails somewhere among the first `n` commands. */
    predicate FailsWithin(n: nat)
    {
      FailsAt? && index < n
    }
  }

  /** What a sending loop achieved: the commands handed to the transport, in
      order, and the status it returns. */
  datatype Delivery = Delivery(sent: seq<Command>, status: Status)

  /** Sends the commands one by one and stops at the first refusal. */
  function Deliver(cmds: seq<Command>, link: Link): (d: Delivery)
    requires link.Valid()
    ensures d.sent <= cmds
    ensures d.status == Success <==> !link.FailsWithin(|cmds|)
    ensures d.status == Success ==> d.sent == cmds
    ensures d.status != Success ==> d.status == link.failure && |d.sent| == link.index + 1
    decreases |cmds|
  {
    if cmds == [] then Delivery([], Success)
    else if link.FailsAt? && link.index == 0 then Delivery([cmds[0]], link.failure)
    else
      var rest := Deliver(cmds[1..], link.After(1));
      Delivery([cmds[0]] + rest.sent, rest.status)
  }

  /** Two sending steps in a row, the second skipped when the first fails,
      behave as one delivery of both command lists. This is why every
      operation below can be described by the list of commands it plans. */
  lemma {:induction false} DeliverAppend(a: seq<Command>, b: seq<Command>, link: Link)
    requires link.Valid()
    ensures var first := Deliver(a, link);
            Deliver(a + b, link) ==
              if first.status != Success then first
              else var second := Deliver(b, link.After(|a|));
                   Delivery(a + second.sent, second.status)
    decreases |a|
  {
    if a == [] {
      assert a + b == b;
      assert link.After(0) == link;
    } else if link.FailsAt? && link.index == 0 {
    } else {
      assert (a + b)[1..] == a[1..] + b;
      DeliverAppend(a[1..], b, link.After(1));
      assert link.After(1).After(|a| - 1) == link.After(|a|);
      assert [a[0]] + a[1..] == a;
    }
  }
}

=== FILE: image.dfy ===
/** Readers of firmware files that are streams of HCI command records
    (opcode, one length byte, parameters): the Write_Boot_Params scanner of
    an `.sfi` image and the record walker of a `.ddc` configuration file. */
module FirmwareImage {
  import opened Bytes
  import opened IntelTypes
  import opened Hci

  // ---------------------------------------------------------------------
  // CheckFirmwareVersion / ParseFirmwareVersion

  /** The scan from offset `p` reads inside the image: each record header it
      inspects is there, and so are the Write_Boot_Params fields it stops at. */
  predicate ScanWalks(image: seq<byte>, p: nat)
    decreases |image| - p
  {
    p >= |image|
    || (p + 2 <= |image|
        && if LE16(image, p) == OpWriteBootParams then p + CommandHeaderSize + WriteBootParamsSize <= |image|
           else p + 3 <= |image| && ScanWalks(image, p + 3 + image[p + 2]))
  }

  /** The parameters of the first Write_Boot_Params record met by the scan. */
  function FindBootParams(image: seq<byte>, p: nat): (r: Option<WriteBootParams>)
    requires ScanWalks(image, p)
    decreases |image| - p
  {
    if p >= |image| then None
    else if LE16(image, p) == OpWriteBootParams then Some(DecodeWriteBootParams(image, p + CommandHeaderSize))
    else FindBootParams(image, p + 3 + image[p + 2])
  }

  /** The scan gets from record `p` to record `q` by skipping only records
      that are not Write_Boot_Params. */
  predicate Reaches(image: seq<byte>, p: nat, q: nat)
    decreases |image| - p
  {
    p == q
    || (p + 3 <= |image| && LE16(image, p) != OpWriteBootParams && Reaches(image, p + 3 + image[p + 2], q))
  }

  /** What the scan finds is the first Write_Boot_Params record of the
      stream, read at its parameter offset; it finds nothing exactly when
      the stream has no such record before its end. */
  lemma {:induction false} FindIsFirstRecord(image: seq<byte>, p: nat)
    requires ScanWalks(image, p)
    ensures FindBootParams(image, p).Some? <==>
      exists q: nat :: Reaches(image, p, q) && q + 2 <= |image| && LE16(image, q) == OpWriteBootParams
    ensures forall q: nat :: Reaches(image, p, q) && q + 2 <= |image| && LE16(image, q) == OpWriteBootParams ==>
      q + CommandHeaderSize + WriteBootParamsSize <= |image|
      && FindBootParams(image, p) == Some(DecodeWriteBootParams(image, q + CommandHeaderSize))
    decreases |image| - p
  {
    if p >= |image| {
      forall q: nat | Reaches(image, p, q) ensures q == p {
      }
    } else if LE16(image, p) == OpWriteBootParams {
      forall q: nat | Reaches(image, p, q) ensures q == p {
      }
    } else {
      var next := p + 3 + image[p + 2];
      FindIsFirstRecord(image, next);
      forall q: nat | Reaches(image, p, q) && q + 2 <= |image| && LE16(image, q) == OpWriteBootParams
        ensures Reaches(image, next, q)
      {
      }
      if FindBootParams(image, next).Some? {
        var q: nat :| Reaches(image, next, q) && q + 2 <= |image| && LE16(image, q) == OpWriteBootParams;
        assert Reaches(image, p, q);
      }
    }
  }

  /** `CheckFirmwareVersion` (the HostController class, which the older Gen2
      and Gen3 transports drive): walks the records; at the first
      Write_Boot_Params it stores the boot address
      and reports whether number, week and year all match; without one it
      reports a mismatch and leaves the boot address as it was. */
  method CheckFirmwareVersion(number: byte, week: byte, year: byte, image: seq<byte>, bootAddress: uint32)
    returns (matched: bool, newBootAddress: uint32)
    requires ScanWalks(image, 0)
    ensures FindBootParams(image, 0).None? ==> !matched && newBootAddress == bootAddress
    ensures FindBootParams(image, 0).Some? ==>
      var w := FindBootParams(image, 0).value;
      newBootAddress == w.bootAddress
      && (matched <==> number == w.number && week == w.week && year == w.year)
  {
    var p: nat := 0;
    while p < |image|
      invariant ScanWalks(image, p)
      invariant FindBootParams(image, p) == FindBootParams(image, 0)
      decreases |image| - p
    {
      if LE16(image, p) == OpWriteBootParams {
        var w := DecodeWriteBootParams(image, p + CommandHeaderSize);
        return number == w.number && week == w.week && year == w.year, w.bootAddress;
      }
      p := p + 3 + image[p + 2];
    }
    return false, bootAddress;
  }

  /** `ParseFirmwareVersion` (Family controller, newer Gen2 and strict Gen3): the
      same walk and the same answer, but the boot address is not touched. */
  function ParseFirmwareVersion(number: byte, week: byte, year: byte, image: seq<byte>): (matched: bool)
    requires ScanWalks(image, 0)
    ensures matched ==> FindBootParams(image, 0).Some?
  {
    match FindBootParams(image, 0)
    case None => false
    case Some(w) => number == w.number && week == w.week && year == w.year
  }

  /** Both scanners give the same verdict; only one of them writes. */
  method ScannersAgree(number: byte, week: byte, year: byte, image: seq<byte>, bootAddress: uint32)
    returns (checked: bool, parsed: bool)
    requires ScanWalks(image, 0)
    ensures checked == parsed
  {
    var a;
    checked, a := CheckFirmwareVersion(number, week, year, image, bootAddress);
    parsed := ParseFirmwareVersion(number, week, year, image);
  }

  // ---------------------------------------------------------------------
  // LoadDDCConfig

  /** A `.ddc` file is a run of records, each a length byte followed by that
      many bytes (a 2-byte DDC id and the value). The driver computes the
      record size `length + 1` in an 8-bit variable, so a length byte 0xFF
      wraps to 0 and the walk never advances; the walk is only defined when
      no record starts with 0xFF and the last record ends with the file.
      The walk is stated over the part of the file not yet consumed. */
  predicate DdcWalks(ddc: seq<byte>)
    decreases |ddc|
  {
    ddc == [] || (ddc[0] != 0xFF && ddc[0] + 1 <= |ddc| && DdcWalks(ddc[ddc[0] + 1..]))
  }

  /** A single DDC record as the file stores it. */
  predicate DdcRecord(r: seq<byte>)
  {
    |r| > 0 && r[0] != 0xFF && |r| == r[0] + 1
  }

  /** The records the walk visits, in file order. */
  function DdcRecords(ddc: seq<byte>): (rs: seq<seq<byte>>)
    requires DdcWalks(ddc)
    ensures Flatten(rs) == ddc
    ensures forall i :: 0 <= i < |rs| ==> DdcRecord(rs[i])
    decreases |ddc|
  {
    if ddc == [] then []
    else
      // `cmdDataSize` is a UInt8: the addition wraps modulo 256.
      var size := (ddc[0] + 1) % 0x100;
      var rest := DdcRecords(ddc[size..]);
      assert ddc == ddc[..size] + ddc[size..];
      assert ([ddc[..size]] + rest)[1..] == rest;
      [ddc[..size]] + rest
  }

  /** Writing records one after another and walking the file gives the same
      records back. */
  lemma {:induction false} DdcRoundTrip(rs: seq<seq<byte>>)
    requires forall i :: 0 <= i < |rs| ==> DdcRecord(rs[i])
    ensures DdcWalks(Flatten(rs))
    ensures DdcRecords(Flatten(rs)) == rs
    decreases |rs|
  {
    if rs != [] {
      var file := Flatten(rs);
      var n := |rs[0]|;
      DdcRoundTrip(rs[1..]);
      assert file[..n] == rs[0];
      assert file[n..] == Flatten(rs[1..]);
      assert file[0] == rs[0][0];
      assert DdcRecords(file) == [rs[0]] + DdcRecords(Flatten(rs[1..]));
    }
  }

  /** `LoadDDCConfig` (HostController and Family controller): one Write DDC
      command (0xFC8B) per record, carrying the record, in file order; the
      first failed write ends the load with its status. */
  function LoadDdcConfig(ddc: seq<byte>, link: Link): (d: Delivery)
    requires link.Valid() && DdcWalks(ddc)
    ensures forall i :: 0 <= i < |d.sent| ==> d.sent[i].opCode == OpWriteConfigDDC && DdcRecord(d.sent[i].params)
    ensures d.status == Success ==> Flatten(ParamsOf(d.sent)) == ddc
  {
    Deliver(DdcCommands(DdcRecords(ddc)), link)
  }

  function DdcCommands(rs: seq<seq<byte>>): (cmds: seq<Command>)
    ensures |cmds| == |rs|
    ensures forall i :: 0 <= i < |rs| ==> cmds[i] == Command(OpWriteConfigDDC, rs[i])
    ensures ParamsOf(cmds) == rs
    decreases |rs|
  {
    if rs == [] then []
    else
      var cmds := [Command(OpWriteConfigDDC, rs[0])] + DdcCommands(rs[1..]);
      assert cmds[1..] == DdcCommands(rs[1..]);
      cmds
  }

  /** The parameter blocks of a command list. */
  function ParamsOf(cmds: seq<Command>): (ps: seq<seq<byte>>)
    ensures |ps| == |cmds| && forall i :: 0 <= i < |cmds| ==> ps[i] == cmds[i].params
    decreases |cmds|
  {
    if cmds == [] then [] else [cmds[0].params] + ParamsOf(cmds[1..])
  }
}

=== FILE: legacypatch.dfy ===
/** Patching of the legacy-ROM controllers (WP, StP): the `.bseq` patch file
    is a run of HCI command records, each followed by the events the
    controller is expected to answer with. The parser reads one command
    record and its expected events, queues the events in a FIFO, and the
    interrupt handler checks every event that comes back against the head
    of that queue. The setup loop feeds the file record by record to the
    parser and decides from the outcome how to leave manufacturer mode. */
module LegacyPatch {
  import opened Bytes
  import opened Hci

  // ---------------------------------------------------------------------
  // EventsQueueEnqueue / EventsQueueDequeue

  /** An expected event: its code and its parameter bytes. */
  datatype Expected = Expected(code: byte, params: seq<byte>)

  /** The linked list of expected events with its separately kept counter. */
  datatype EventQueue = EventQueue(items: seq<Expected>, size: nat)
  {
    /** The counter agrees with the list. */
    predicate Valid()
    {
      size == |items|
    }
  }

  const EmptyQueue := EventQueue([], 0)

  /** A null node is refused and leaves the queue as it was; any other node
      goes to the tail and the counter grows by one. */
  function Enqueue(q: EventQueue, node: Option<Expected>): (r: (bool, EventQueue))
    ensures q.Valid() ==> r.1.Valid()
    ensures r.0 <==> node.Some?
    ensures !r.0 ==> r.1 == q
    ensures r.0 ==> r.1.items == q.items + [node.value]
  {
    match node
    case None => (false, q)
    case Some(e) => (true, EventQueue(q.items + [e], q.size + 1))
  }

  /** An empty queue yields nothing and stays as it is; otherwise the head
      comes out and the counter drops by one. */
  function Dequeue(q: EventQueue): (r: (Option<Expected>, EventQueue))
    requires q.Valid()
    ensures r.1.Valid()
    ensures r.0.None? <==> q.items == []
    ensures r.0.None? ==> r.1 == q
    ensures r.0.Some? ==> [r.0.value] + r.1.items == q.items
  {
    if q.items == [] then (None, q)
    else (Some(q.items[0]), EventQueue(q.items[1..], q.size - 1))
  }

  /** Enqueues every event of `es`, in order. */
  function EnqueueAll(q: EventQueue, es: seq<Expected>): (r: EventQueue)
    decreases |es|
  {
    if es == [] then q else EnqueueAll(Enqueue(q, Some(es[0])).1, es[1..])
  }

  /** Dequeues until the queue is empty and lists what came out. */
  function Drain(q: EventQueue): (out: seq<Expected>)
    requires q.Valid()
    decreases |q.items|
  {
    var (head, rest) := Dequeue(q);
    if head.None? then [] else [head.value] + Drain(rest)
  }

  /** The queue is first-in first-out: draining it after a series of
      enqueues gives back what it held, then the new events in the order
      they were enqueued, and the counter stays equal to the length. */
  lemma {:induction false} FifoOrder(q: EventQueue, es: seq<Expected>)
    requires q.Valid()
    ensures EnqueueAll(q, es).Valid()
    ensures Drain(EnqueueAll(q, es)) == q.items + es
    decreases |es|
  {
    if es == [] {
      DrainAll(q);
    } else {
      var q' := Enqueue(q, Some(es[0])).1;
      FifoOrder(q', es[1..]);
      assert q'.items + es[1..] == q.items + es;
    }
  }

  lemma {:induction false} DrainAll(q: EventQueue)
    requires q.Valid()
    ensures Drain(q) == q.items
    decreases |q.items|
  {
    if q.items != [] {
      DrainAll(Dequeue(q).1);
    }
  }

  // ---------------------------------------------------------------------
  // ReceiveInterruptData

  /** An HCI event packet (section 5.4.4 of the Bluetooth Core Specification,
      Vol 4 Part E): event code, parameter length, then at least that many
      parameter bytes. */
  predicate EventPacket(p: seq<byte>)
  {
    |p| >= 2 && |p| >= 2 + p[1] as int
  }

  /** A received event answers the expected one when the parameter length
      and the parameter bytes agree; the event code is not compared. */
  predicate Answers(e: Expected, p: seq<byte>)
    requires EventPacket(p)
  {
    |e.params| == p[1] as int && p[2..2 + p[1] as int] == e.params
  }

  /** What the interrupt handler keeps: whether a patch command is in
      flight, the expected events, and the flag the patch loop sleeps on. */
  datatype Receiver = Receiver(patching: bool, queue: EventQueue, eventValid: bool)

  /** One received event. While patching, the head of the queue is taken
      off; an event that does not answer it leaves the flag alone, and the
      flag is raised only once no expected event is left. */
  function ReceiveEvent(s: Receiver, p: seq<byte>): (r: Receiver)
    requires s.queue.Valid() && EventPacket(p)
    ensures r.queue.Valid() && r.patching == s.patching
    ensures !s.patching ==> r == s
    ensures s.patching && s.queue.items != [] ==> r.queue.items == s.queue.items[1..]
    ensures r.eventValid != s.eventValid ==>
      s.patching && r.eventValid && r.queue.items == []
      && (s.queue.items != [] ==> Answers(s.queue.items[0], p))
    ensures s.patching && (s.queue.items == [] || (|s.queue.items| == 1 && Answers(s.queue.items[0], p))) ==>
      r.eventValid
  {
    if !s.patching then s
    else
      var (head, rest) := Dequeue(s.queue);
      if head.Some? && !Answers(head.value, p) then s.(queue := rest)
      else if rest.size == 0 then Receiver(true, rest, true)
      else s.(queue := rest)
  }

  /** Only length and parameters are matched: the same answer is given to
      an event that carries a different event code. */
  lemma EventCodeNotCompared(e: Expected, p: seq<byte>, code: byte)
    requires EventPacket(p)
    ensures EventPacket(p[0 := code])
    ensures Answers(e, p) <==> Answers(e.(code := code), p[0 := code])
  {
    assert p[0 := code][2..2 + p[1] as int] == p[2..2 + p[1] as int];
  }

  // ---------------------------------------------------------------------
  // PatchFirmware: the .bseq record parser

  const CommandRecord: byte := 0x01
  const EventRecord: byte := 0x02
  /** The vendor command that loads patch data. */
  const OpLoadPatch: uint16 := 0xFC8E

  /** The bytes one expected event takes in the file. */
  function EncodeEvent(e: Expected): (b: seq<byte>)
  {
    [EventRecord, e.code, |e.params| % 0x100] + e.params
  }

  predicate SmallEvents(es: seq<Expected>)
  {
    forall i :: 0 <= i < |es| ==> |es[i].params| < 0x100
  }

  function EncodeEvents(es: seq<Expected>): (b: seq<byte>)
    decreases |es|
  {
    if es == [] then [] else EncodeEvent(es[0]) + EncodeEvents(es[1..])
  }

  /** What the event loop of the parser read. */
  datatype EventScan = EventScan(ok: bool, pos: nat, events: seq<Expected>)

  /** The loop over event records from `p`: it goes on while more than two
      bytes remain and the next one is 0x02, reads code and length, and
      fails with an event longer than what remains. Events read before a
      failure have already been queued. */
  function ScanEvents(data: seq<byte>, p: nat): (r: EventScan)
    requires p <= |data|
    ensures p <= r.pos <= |data| && SmallEvents(r.events)
    ensures r.ok ==> !(|data| - r.pos > 2 && data[r.pos] == EventRecord)
    decreases |data| - p
  {
    if |data| - p > 2 && data[p] == EventRecord then
      var size := data[p + 2] as int;
      var q := p + 3;
      if |data| - q < size then EventScan(false, q, [])
      else
        var rest := ScanEvents(data, q + size);
        EventScan(rest.ok, rest.pos, [Expected(data[p + 1], data[q..q + size])] + rest.events)
    else EventScan(true, p, [])
  }

  /** What a successful scan read is exactly the encoding of the events it
      returns. */
  lemma {:induction false} ScanEventsBytes(data: seq<byte>, p: nat)
    requires p <= |data| && ScanEvents(data, p).ok
    ensures data[p..ScanEvents(data, p).pos] == EncodeEvents(ScanEvents(data, p).events)
    decreases |data| - p
  {
    if |data| - p > 2 && data[p] == EventRecord {
      var e, next := EventAt(data, p);
      var rest := ScanEvents(data, next);
      ScanEventsBytes(data, next);
      var es := [e] + rest.events;
      assert es[1..] == rest.events;
      assert data[p..rest.pos] == data[p..next] + data[next..rest.pos];
    }
  }

  /** The event record at `p`, as the scan reads it, and where it ends. */
  lemma EventAt(data: seq<byte>, p: nat) returns (e: Expected, next: nat)
    requires p <= |data| && |data| - p > 2 && data[p] == EventRecord
    requires p + 3 + data[p + 2] as int <= |data|
    ensures next == p + 3 + data[p + 2] as int && e == Expected(data[p + 1], data[p + 3..next])
    ensures data[p..next] == EncodeEvent(e)
    ensures ScanEvents(data, p) ==
      var rest := ScanEvents(data, next); EventScan(rest.ok, rest.pos, [e] + rest.events)
  {
    next := p + 3 + data[p + 2] as int;
    e := Expected(data[p + 1], data[p + 3..next]);
    assert data[p..next] == [data[p], data[p + 1], data[p + 2]] + data[p + 3..next];
  }

  /** A run of encoded events followed by something that is not an event
      record reads back as exactly those events. */
  lemma {:induction false} ScanEventsRoundTrip(data: seq<byte>, p: nat, es: seq<Expected>, rest: seq<byte>)
    requires SmallEvents(es) && p <= |data|
    requires data[p..] == EncodeEvents(es) + rest
    requires |rest| <= 2 || rest[0] != EventRecord
    ensures ScanEvents(data, p) == EventScan(true, p + |EncodeEvents(es)|, es)
    decreases |es|
  {
    if es == [] {
      assert data[p..] == rest;
      if |data| - p > 2 {
        assert data[p] == rest[0];
      }
    } else {
      var tail := EncodeEvents(es[1..]);
      assert EncodeEvents(es) == EncodeEvent(es[0]) + tail;
      assert data[p..] == EncodeEvent(es[0]) + (tail + rest);
      EncodedEventAt(data, p, es[0], tail + rest);
      var e, next := EventAt(data, p);
      assert e == es[0] && next == p + |EncodeEvent(es[0])|;
      ScanEventsRoundTrip(data, next, es[1..], rest);
      assert [e] + es[1..] == es;
    }
  }

  /** An encoded event at `p` is one the scan can read, and it ends where
      its encoding does. */
  lemma EncodedEventAt(data: seq<byte>, p: nat, e: Expected, tail: seq<byte>)
    requires |e.params| < 0x100 && p <= |data|
    requires data[p..] == EncodeEvent(e) + tail
    ensures |data| - p > 2 && data[p] == EventRecord && data[p + 1] == e.code
    ensures data[p + 2] as int == |e.params| && p + 3 + |e.params| <= |data|
    ensures data[p + 3..p + 3 + |e.params|] == e.params
    ensures data[p + 3 + |e.params|..] == tail
  {
    var n := 3 + |e.params|;
    assert data[p..][..n] == EncodeEvent(e);
    assert data[p..][n..] == tail;
    assert data[p + 3..p + n] == data[p..][..n][3..];
  }

  /** What one call of the parser produced; `loadsPatch` says the command
      header was read and named 0xFC8E, which is when the parser clears
      `disablePatch`. */
  datatype Parsed = Parsed(status: Status, pos: nat, cmd: Command, events: seq<Expected>, loadsPatch: bool)

  /** At least a record type byte and a command header remain; with fewer
      bytes the parser reads past the end of the file. */
  predicate HeaderFits(data: seq<byte>, p: nat)
  {
    p + 4 <= |data|
  }

  /** A command record as it lies in the file: type byte, the command
      packet, and whatever follows it. */
  lemma CommandBytes(data: seq<byte>, p: nat, e: nat)
    requires HeaderFits(data, p) && data[p] == CommandRecord
    requires p + 4 + data[p + 3] as int <= e <= |data|
    ensures var c := Command(LE16(data, p + 1), data[p + 4..p + 4 + data[p + 3] as int]);
      WellFormed(c) && data[p..e] == [CommandRecord] + Wire(c) + data[p + 4 + data[p + 3] as int..e]
  {
    var q := p + 4 + data[p + 3] as int;
    DecodeEncodeLE16(data, p + 1);
    assert data[p..e] == [data[p]] + data[p + 1..p + 3] + [data[p + 3]] + data[p + 4..q] + data[q..e];
  }

  /** `PatchFirmware` up to the send: the record must start with 0x01, its
      parameters must fit, and the expected events follow. */
  function ParseRecord(data: seq<byte>, p: nat): (r: Parsed)
    requires HeaderFits(data, p)
    ensures r.status in {Success, Invalid, Error}
    ensures r.status == Invalid <==> data[p] != CommandRecord
    ensures r.status != Invalid ==> p + 4 <= r.pos <= |data|
    ensures r.loadsPatch ==> r.status != Invalid && r.cmd.opCode == OpLoadPatch
    ensures r.status == Success ==>
      WellFormed(r.cmd) && SmallEvents(r.events) && (r.loadsPatch <==> r.cmd.opCode == OpLoadPatch)
  {
    if data[p] != CommandRecord then Parsed(Invalid, p, Command(0, []), [], false)
    else
      var op := LE16(data, p + 1);
      var size := data[p + 3] as int;
      var q := p + 4;
      if |data| - q < size then Parsed(Error, q, Command(op, []), [], false)
      else
        var cmd := Command(op, data[q..q + size]);
        var scan := ScanEvents(data, q + size);
        if !scan.ok then Parsed(Error, scan.pos, cmd, scan.events, op == OpLoadPatch)
        else Parsed(Success, scan.pos, cmd, scan.events, op == OpLoadPatch)
  }

  /** What a successful parse read is exactly the bytes of one record: the
      type byte, the command packet and the encoded events. */
  lemma ParsedBytes(data: seq<byte>, p: nat)
    requires HeaderFits(data, p) && ParseRecord(data, p).status == Success
    ensures var r := ParseRecord(data, p);
      data[p..r.pos] == [CommandRecord] + Wire(r.cmd) + EncodeEvents(r.events)
  {
    var r := ParseRecord(data, p);
    var q := p + 4 + data[p + 3] as int;
    CommandBytes(data, p, r.pos);
    ScanEventsBytes(data, q);
  }

  /** A patch record: a command and the events it is answered with. */
  datatype Record = Record(cmd: Command, events: seq<Expected>)

  predicate RecordFits(r: Record)
  {
    WellFormed(r.cmd) && SmallEvents(r.events)
  }

  function EncodeRecord(r: Record): (b: seq<byte>)
    requires RecordFits(r)
    ensures |b| >= 4 && b[0] == CommandRecord
  {
    [CommandRecord] + Wire(r.cmd) + EncodeEvents(r.events)
  }

  /** A patch file: its records one after another. */
  function EncodeFile(rs: seq<Record>): (b: seq<byte>)
    requires forall i :: 0 <= i < |rs| ==> RecordFits(rs[i])
    decreases |rs|
  {
    if rs == [] then [] else EncodeRecord(rs[0]) + EncodeFile(rs[1..])
  }

  /** An encoded record followed by the next record or the end of the file
      reads back as itself. */
  lemma ParseRecordRoundTrip(data: seq<byte>, p: nat, r: Record, rest: seq<byte>)
    requires RecordFits(r) && p <= |data|
    requires data[p..] == EncodeRecord(r) + rest
    requires rest == [] || rest[0] == CommandRecord
    ensures HeaderFits(data, p)
    ensures var x := ParseRecord(data, p);
      x.status == Success && x.cmd == r.cmd && x.events == r.events
      && x.pos == p + |EncodeRecord(r)|
  {
    var q := p + 4 + |r.cmd.params|;
    HeaderOfRecord(data, p, r, rest);
    ScanEventsRoundTrip(data, q, r.events, rest);
    ParsesAs(data, p, r);
  }

  /** A command record whose header names the record's command and whose
      events scan to their end parses to that record, ending after it. */
  lemma ParsesAs(data: seq<byte>, p: nat, r: Record)
    requires RecordFits(r) && HeaderFits(data, p) && data[p] == CommandRecord
    requires LE16(data, p + 1) == r.cmd.opCode && data[p + 3] as int == |r.cmd.params|
    requires p + 4 + |r.cmd.params| <= |data| && data[p + 4..p + 4 + |r.cmd.params|] == r.cmd.params
    requires ScanEvents(data, p + 4 + |r.cmd.params|)
      == EventScan(true, p + 4 + |r.cmd.params| + |EncodeEvents(r.events)|, r.events)
    ensures var x := ParseRecord(data, p);
      x.status == Success && x.cmd == r.cmd && x.events == r.events
      && x.pos == p + |EncodeRecord(r)|
  {
  }

  lemma HeaderOfRecord(data: seq<byte>, p: nat, r: Record, rest: seq<byte>)
    requires RecordFits(r) && p <= |data|
    requires data[p..] == EncodeRecord(r) + rest
    ensures HeaderFits(data, p) && data[p] == CommandRecord
    ensures LE16(data, p + 1) == r.cmd.opCode && data[p + 3] as int == |r.cmd.params|
    ensures p + 4 + |r.cmd.params| <= |data| && data[p + 4..p + 4 + |r.cmd.params|] == r.cmd.params
    ensures data[p + 4 + |r.cmd.params|..] == EncodeEvents(r.events) + rest
  {
    assert data[p + 4 + |r.cmd.params|..] == EncodeEvents(r.events) + rest by {
      assert data[p..] == [CommandRecord] + Wire(r.cmd) + (EncodeEvents(r.events) + rest);
    }
    var w := Wire(r.cmd);
    var b := EncodeRecord(r);
    assert b[1..4] == w[..3];
    assert data[p + 1..p + 3] == w[..2] == EncodeLE16(r.cmd.opCode);
    assert b[4..4 + |r.cmd.params|] == r.cmd.params;
  }

  // ---------------------------------------------------------------------
  // The patch loop of SetupGen1Controller

  /** The walk over the file stays inside it: every record the loop parses
      has its header in the file. */
  predicate PatchWalks(data: seq<byte>, p: nat)
    decreases |data| - p
  {
    p >= |data|
    || (HeaderFits(data, p)
        && var x := ParseRecord(data, p);
           x.status != Success || PatchWalks(data, x.pos))
  }

  /** What the loop achieved: the status it stopped with, the commands
      handed to the controller, and the final `disablePatch`. */
  datatype PatchRun = PatchRun(status: Status, sent: seq<Command>, disablePatch: bool)

  /** One of the commands loads patch data. */
  predicate LoadsPatch(cmds: seq<Command>)
    decreases |cmds|
  {
    cmds != [] && (cmds[0].opCode == OpLoadPatch || LoadsPatch(cmds[1..]))
  }

  /** Parses and sends record after record until the file is consumed or
      a record fails to parse or to send. */
  function Patch(data: seq<byte>, p: nat, disablePatch: bool, link: Link): (r: PatchRun)
    requires link.Valid() && PatchWalks(data, p)
    ensures r.disablePatch ==> disablePatch
    ensures r.status == Success ==> (r.disablePatch <==> disablePatch && !LoadsPatch(r.sent))
    ensures link == Reliable ==> r.status in {Success, Invalid, Error}
    decreases |data| - p
  {
    if p >= |data| then PatchRun(Success, [], disablePatch)
    else
      var x := ParseRecord(data, p);
      var disable := disablePatch && !x.loadsPatch;
      if x.status != Success then PatchRun(x.status, [], disable)
      else if link.FailsAt? && link.index == 0 then PatchRun(link.failure, [x.cmd], disable)
      else
        var rest := Patch(data, x.pos, disable, link.After(1));
        var sent := [x.cmd] + rest.sent;
        assert sent[1..] == rest.sent;
        PatchRun(rest.status, sent, rest.disablePatch)
  }

  /** The commands of a list of records. */
  function Commands(rs: seq<Record>): (cmds: seq<Command>)
    decreases |rs|
  {
    if rs == [] then [] else [rs[0].cmd] + Commands(rs[1..])
  }

  /** One step of the loop over a reliable link: when the record at `p`
      parses and the rest of the file goes out completely, so does the
      file from `p`, with the record's command in front. */
  lemma PatchStep(data: seq<byte>, p: nat, disablePatch: bool, x: Parsed, tail: seq<Command>)
    requires HeaderFits(data, p) && x == ParseRecord(data, p) && x.status == Success
    requires PatchWalks(data, x.pos)
    requires Patch(data, x.pos, disablePatch && !x.loadsPatch, Reliable).status == Success
    requires Patch(data, x.pos, disablePatch && !x.loadsPatch, Reliable).sent == tail
    ensures PatchWalks(data, p)
    ensures Patch(data, p, disablePatch, Reliable).status == Success
    ensures Patch(data, p, disablePatch, Reliable).sent == [x.cmd] + tail
  {
  }

  /** A well-formed patch file goes through a reliable link completely:
      every record's command is sent, in file order. */
  lemma {:induction false} PatchFileRoundTrip(rs: seq<Record>, data: seq<byte>, p: nat, disablePatch: bool)
    requires forall i :: 0 <= i < |rs| ==> RecordFits(rs[i])
    requires p <= |data| && data[p..] == EncodeFile(rs)
    ensures PatchWalks(data, p)
    ensures var r := Patch(data, p, disablePatch, Reliable);
      r.status == Success && r.sent == Commands(rs)
    decreases |rs|, 1
  {
    if rs == [] {
      assert data[p..] == [];
    } else {
      FirstRecordGoesOut(rs, data, p, disablePatch);
    }
  }

  lemma {:induction false} FirstRecordGoesOut(rs: seq<Record>, data: seq<byte>, p: nat, disablePatch: bool)
    requires rs != [] && forall i :: 0 <= i < |rs| ==> RecordFits(rs[i])
    requires p <= |data| && data[p..] == EncodeFile(rs)
    ensures PatchWalks(data, p)
    ensures var r := Patch(data, p, disablePatch, Reliable);
      r.status == Success && r.sent == Commands(rs)
    decreases |rs|, 0
  {
    var tail := Commands(rs[1..]);
    assert Commands(rs) == [rs[0].cmd] + tail;
    var x, n := FirstRecordParses(rs, data, p);
    var d := disablePatch && !x.loadsPatch;
    PatchFileRoundTrip(rs[1..], data, x.pos, d);
    PatchStep(data, p, disablePatch, x, tail);
  }

  /** The parser reads the first record of a file back and stops where the
      rest of the file begins. */
  lemma FirstRecordParses(rs: seq<Record>, data: seq<byte>, p: nat) returns (x: Parsed, n: nat)
    requires rs != [] && forall i :: 0 <= i < |rs| ==> RecordFits(rs[i])
    requires p <= |data| && data[p..] == EncodeFile(rs)
    ensures HeaderFits(data, p) && x == ParseRecord(data, p)
    ensures x.status == Success && x.cmd == rs[0].cmd && x.pos == p + n
    ensures forall i :: 0 <= i < |rs[1..]| ==> RecordFits(rs[1..][i])
    ensures p + n <= |data| && data[p + n..] == EncodeFile(rs[1..])
  {
    n := |EncodeRecord(rs[0])|;
    FileSplit(rs, data, p);
    ParseRecordRoundTrip(data, p, rs[0], EncodeFile(rs[1..]));
    x := ParseRecord(data, p);
  }

  /** The first record of a file and the file after it. */
  lemma FileSplit(rs: seq<Record>, data: seq<byte>, p: nat)
    requires rs != [] && forall i :: 0 <= i < |rs| ==> RecordFits(rs[i])
    requires p <= |data| && data[p..] == EncodeFile(rs)
    ensures RecordFits(rs[0]) && forall i :: 0 <= i < |rs[1..]| ==> RecordFits(rs[1..][i])
    ensures var n, rest := |EncodeRecord(rs[0])|, EncodeFile(rs[1..]);
      data[p..] == EncodeRecord(rs[0]) + rest && (rest == [] || rest[0] == CommandRecord)
      && p + n <= |data| && data[p + n..] == rest
  {
    var n := |EncodeRecord(rs[0])|;
    assert data[p + n..] == data[p..][n..];
  }

  /** How manufacturer mode is left: with a reset that deactivates the
      patches after a failure, without a reset when no record loaded patch
      data, and with a reset that activates them otherwise. */
  datatype ExitMode = ResetDeactivate | NoReset | ResetActivate

  function Exit(r: PatchRun): (m: ExitMode)
    ensures m == ResetActivate ==> r.status == Success
  {
    if r.status != Success then ResetDeactivate
    else if r.disablePatch then NoReset
    else ResetActivate
  }

  /** The patches are activated exactly when the whole file went through
      and one of the commands sent was 0xFC8E. */
  lemma ActivatesIffPatchLoaded(data: seq<byte>, link: Link)
    requires link.Valid() && PatchWalks(data, 0)
    ensures var r := Patch(data, 0, true, link);
      Exit(r) == ResetActivate <==>
        r.status == Success && LoadsPatch(r.sent)
  {
  }
}

=== FILE: securesend.dfy ===
/** Secure-send framing: the bootloader accepts firmware only through the
    vendor command 0xFC09, whose first parameter byte names the fragment
    type and whose remaining parameters carry at most 252 bytes of it.
    On top of that sit the two CSS header layouts (RSA and ECDSA) and the
    grouping of the command payload into 4-byte-aligned Data fragments. */
module SecureSend {
  import opened Bytes
  import opened IntelTypes
  import opened Hci

  /** The largest fragment one secure-send command carries. */
  const MaxFragment := 252

  /** A secure-send command of the given fragment type carrying 1..252 bytes. */
  predicate IsSecureSend(c: Command, fragType: byte)
  {
    c.opCode == OpSecureSend && 2 <= |c.params| <= MaxFragment + 1 && c.params[0] == fragType
  }

  /** The fragment bytes a command carries after its type byte. */
  function Carried(c: Command): (b: seq<byte>)
  {
    if c.params == [] then [] else c.params[1..]
  }

  /** The fragment bytes of a command list, in order. */
  function Payload(cmds: seq<Command>): (b: seq<byte>)
    decreases |cmds|
  {
    if cmds == [] then [] else Carried(cmds[0]) + Payload(cmds[1..])
  }

  lemma {:induction false} PayloadAppend(a: seq<Command>, b: seq<Command>)
    ensures Payload(a + b) == Payload(a) + Payload(b)
    decreases |a|
  {
    if a == [] {
      assert a + b == b;
    } else {
      assert (a + b)[1..] == a[1..] + b;
      PayloadAppend(a[1..], b);
    }
  }

  /** `BluetoothHCIIntelSecureSend`: the commands that carry `data` as
      fragments of `min(remaining, 252)` bytes, each with parameter length
      `fragment + 1` and the fragment type in front. Empty data plans none. */
  function Fragments(fragType: byte, data: seq<byte>): (cmds: seq<Command>)
    ensures |cmds| == (|data| + MaxFragment - 1) / MaxFragment
    ensures forall i :: 0 <= i < |cmds| ==> IsSecureSend(cmds[i], fragType) && WellFormed(cmds[i])
    ensures forall i :: 0 <= i < |cmds| - 1 ==> |cmds[i].params| == MaxFragment + 1
    ensures Payload(cmds) == data
    decreases |data|
  {
    if data == [] then []
    else
      var n := if |data| > MaxFragment then MaxFragment else |data|;
      var head := Command(OpSecureSend, [fragType] + data[..n]);
      var rest := Fragments(fragType, data[n..]);
      assert Carried(head) == data[..n];
      assert ([head] + rest)[1..] == rest;
      [head] + rest
  }

  /** The commands of a list whose fragment type is `fragType`. */
  function OfType(cmds: seq<Command>, fragType: byte): (r: seq<Command>)
    decreases |cmds|
  {
    if cmds == [] then []
    else if cmds[0].params != [] && cmds[0].params[0] == fragType then [cmds[0]] + OfType(cmds[1..], fragType)
    else OfType(cmds[1..], fragType)
  }

  lemma {:induction false} OfTypeAppend(a: seq<Command>, b: seq<Command>, fragType: byte)
    ensures OfType(a + b, fragType) == OfType(a, fragType) + OfType(b, fragType)
    decreases |a|
  {
    if a == [] {
      assert a + b == b;
    } else {
      assert (a + b)[1..] == a[1..] + b;
      OfTypeAppend(a[1..], b, fragType);
    }
  }

  /** Selecting a fragment type from one fragmentation keeps all of it or none. */
  lemma {:induction false} OfTypeFragments(t: byte, data: seq<byte>, fragType: byte)
    ensures OfType(Fragments(t, data), fragType) == if t == fragType then Fragments(t, data) else []
    decreases |data|
  {
    if data != [] {
      var n := if |data| > MaxFragment then MaxFragment else |data|;
      OfTypeFragments(t, data[n..], fragType);
      var cmds := Fragments(t, data);
      assert cmds[1..] == Fragments(t, data[n..]);
    }
  }

  /** `SecureSendSFIRSAFirmwareHeader`: Init = bytes [0,128), PKey =
      [128,384), Sign = [388,644) of the image, in that order. */
  function RsaHeader(image: seq<byte>): (cmds: seq<Command>)
    requires |image| >= RsaHeaderLength
    ensures |cmds| == 5
  {
    Fragments(FragmentInit, image[0..128]) + Fragments(FragmentPKey, image[128..384])
    + Fragments(FragmentSign, image[388..644])
  }

  /** `SecureSendSFIECDSAFirmwareHeader`: the same three fragments taken from
      the ECDSA header that follows the RSA one: [644,772), [772,868),
      [868,964). */
  function EcdsaHeader(image: seq<byte>): (cmds: seq<Command>)
    requires |image| >= EcdsaPayloadOffset
    ensures |cmds| == 3
  {
    Fragments(FragmentInit, image[644..772]) + Fragments(FragmentPKey, image[772..868])
    + Fragments(FragmentSign, image[868..964])
  }

  /** The bytes each fragment type receives from the RSA header; the four
      bytes [384,388) are never sent. */
  lemma RsaHeaderSlices(image: seq<byte>)
    requires |image| >= RsaHeaderLength
    ensures Payload(OfType(RsaHeader(image), FragmentInit)) == image[0..128]
    ensures Payload(OfType(RsaHeader(image), FragmentPKey)) == image[128..384]
    ensures Payload(OfType(RsaHeader(image), FragmentSign)) == image[388..644]
    ensures OfType(RsaHeader(image), FragmentData) == []
  {
    var a, b, c := image[0..128], image[128..384], image[388..644];
    HeaderSlices(a, b, c);
  }

  /** The bytes each fragment type receives from the ECDSA header. */
  lemma EcdsaHeaderSlices(image: seq<byte>)
    requires |image| >= EcdsaPayloadOffset
    ensures Payload(OfType(EcdsaHeader(image), FragmentInit)) == image[644..772]
    ensures Payload(OfType(EcdsaHeader(image), FragmentPKey)) == image[772..868]
    ensures Payload(OfType(EcdsaHeader(image), FragmentSign)) == image[868..964]
    ensures OfType(EcdsaHeader(image), FragmentData) == []
  {
    HeaderSlices(image[644..772], image[772..868], image[868..964]);
  }

  lemma HeaderSlices(a: seq<byte>, b: seq<byte>, c: seq<byte>)
    ensures var h := Fragments(FragmentInit, a) + Fragments(FragmentPKey, b) + Fragments(FragmentSign, c);
      Payload(OfType(h, FragmentInit)) == a && Payload(OfType(h, FragmentPKey)) == b
      && Payload(OfType(h, FragmentSign)) == c && OfType(h, FragmentData) == []
  {
    var fa, fb, fc := Fragments(FragmentInit, a), Fragments(FragmentPKey, b), Fragments(FragmentSign, c);
    forall t: byte
      ensures OfType(fa + fb + fc, t) == OfType(fa, t) + OfType(fb, t) + OfType(fc, t)
    {
      OfTypeAppend(fa + fb, fc, t);
      OfTypeAppend(fa, fb, t);
    }
    OfTypeFragments(FragmentInit, a, FragmentInit);
    OfTypeFragments(FragmentPKey, b, FragmentInit);
    OfTypeFragments(FragmentSign, c, FragmentInit);
    OfTypeFragments(FragmentInit, a, FragmentPKey);
    OfTypeFragments(FragmentPKey, b, FragmentPKey);
    OfTypeFragments(FragmentSign, c, FragmentPKey);
    OfTypeFragments(FragmentInit, a, FragmentSign);
    OfTypeFragments(FragmentPKey, b, FragmentSign);
    OfTypeFragments(FragmentSign, c, FragmentSign);
    OfTypeFragments(FragmentInit, a, FragmentData);
    OfTypeFragments(FragmentPKey, b, FragmentData);
    OfTypeFragments(FragmentSign, c, FragmentData);
    assert fa + [] + [] == fa;
    assert [] + fb + [] == fb;
    assert [] + [] + fc == fc;
  }

  // ---------------------------------------------------------------------
  // DownloadFirmwarePayload

  /** The payload after the headers is a stream of HCI command records
      (opcode, length byte, parameters). The driver walks it from `g`,
      accumulating records into a pending group of `f` bytes, and closes the
      group as soon as its size is a multiple of 4. This predicate says the
      walk stays inside the image: every record header and every group lies
      within it, so the loop ends exactly at the end of the image. */
  predicate PayloadWalks(image: seq<byte>, g: nat, f: nat)
    decreases |image| - (g + f)
  {
    g >= |image|
    || (g + f + 3 <= |image|
        && var f' := f + 3 + image[g + f + 2];
           g + f' <= |image|
           && if f' % 4 == 0 then PayloadWalks(image, g + f', 0) else PayloadWalks(image, g, f'))
  }

  /** The groups the walk sends, each as one `Data` secure send. */
  function PayloadGroups(image: seq<byte>, g: nat, f: nat): (gs: seq<seq<byte>>)
    requires PayloadWalks(image, g, f)
    ensures g >= |image| ==> gs == []
    ensures g < |image| ==> Flatten(gs) == image[g..] && |gs| > 0 && |gs[0]| > f
    ensures forall i :: 0 <= i < |gs| ==> |gs[i]| > 0 && |gs[i]| % 4 == 0
    decreases |image| - (g + f)
  {
    if g >= |image| then []
    else
      var f' := f + 3 + image[g + f + 2];
      if f' % 4 == 0 then
        var rest := PayloadGroups(image, g + f', 0);
        var gs := [image[g..g + f']] + rest;
        assert gs[1..] == rest;
        assert image[g..] == image[g..g + f'] + image[g + f'..];
        gs
      else PayloadGroups(image, g, f')
  }

  /** The commands `DownloadFirmwarePayload` plans for the image tail from
      `offset`: one Data secure send per group, in order. */
  function PayloadCommands(gs: seq<seq<byte>>): (cmds: seq<Command>)
    ensures Payload(cmds) == Flatten(gs)
    ensures forall i :: 0 <= i < |cmds| ==> IsSecureSend(cmds[i], FragmentData) && WellFormed(cmds[i])
    decreases |gs|
  {
    if gs == [] then []
    else
      var head := Fragments(FragmentData, gs[0]);
      var rest := PayloadCommands(gs[1..]);
      PayloadAppend(head, rest);
      head + rest
  }

  /** The outcome of `DownloadFirmwarePayload`: what went out, and the
      status, which stays `kIOReturnInvalid` when no group was sent. */
  function DownloadPayload(image: seq<byte>, offset: nat, link: Link): (d: Delivery)
    requires link.Valid() && PayloadWalks(image, offset, 0)
    ensures offset >= |image| ==> d == Delivery([], Invalid)
    ensures offset < |image| && !link.FailsAt? ==> d.status == Success && Payload(d.sent) == image[offset..]
    ensures d.status == Success ==> Payload(d.sent) == image[offset..] && offset < |image|
    ensures forall i :: 0 <= i < |d.sent| ==> IsSecureSend(d.sent[i], FragmentData)
  {
    var gs := PayloadGroups(image, offset, 0);
    var cmds := PayloadCommands(gs);
    var sent := Deliver(cmds, link);
    if sent.status != Success then sent
    else if gs == [] then Delivery([], Invalid)
    else
      assert |cmds| > 0 by {
        assert Payload(cmds) == image[offset..];
        if cmds == [] { assert false; }
      }
      sent
  }
}

=== FILE: text.dfy ===
/** The printf-style number rendering the driver and the packager rely on:
    `%u` (decimal), `%x` (lower-case hexadecimal, no padding), `%04x`, and
    Python's `{:02X}` (upper-case, two digits), together with the reading
    back of such digit strings, which shows that nothing is lost. */
module Text {

  /** The digit character for the value `d` in hexadecimal (which includes
      the decimal digits); `upper` selects `A`-`F` over `a`-`f`. */
  function DigitChar(d: nat, upper: bool): (c: char)
    requires d < 16
  {
    if d < 10 then ('0' as int + d) as char
    else if upper then ('A' as int + d - 10) as char
    else ('a' as int + d - 10) as char
  }

  /** `c` is a digit of the given base (10 or 16, either letter case). */
  predicate IsDigit(c: char, base: nat)
  {
    ('0' <= c <= '9' && c as int - '0' as int < base)
    || (base == 16 && ('a' <= c <= 'f' || 'A' <= c <= 'F'))
  }

  /** The value of a digit character. */
  function DigitValue(c: char): (d: nat)
  {
    if '0' <= c <= '9' then c as int - '0' as int
    else if 'a' <= c <= 'f' then c as int - 'a' as int + 10
    else if 'A' <= c <= 'F' then c as int - 'A' as int + 10
    else 0
  }

  predicate AllDigits(s: string, base: nat)
  {
    forall i :: 0 <= i < |s| ==> IsDigit(s[i], base)
  }

  /** Digit characters read back to the value they were made from. */
  lemma DigitRoundTrip(d: nat, base: nat, upper: bool)
    requires base == 10 || base == 16
    requires d < base
    ensures IsDigit(DigitChar(d, upper), base)
    ensures DigitValue(DigitChar(d, upper)) == d
  {
  }

  /** The shortest digit string of `n` in `base` (as `%u` / `%x` print it). */
  function Digits(n: nat, base: nat, upper: bool): (s: string)
    requires base == 10 || base == 16
    decreases n
  {
    if n < base then [DigitChar(n, upper)]
    else Digits(n / base, base, upper) + [DigitChar(n % base, upper)]
  }

  /** The numeric value of a digit string, most significant digit first. */
  function ValueOf(s: string, base: nat): (v: nat)
    decreases |s|
  {
    if s == [] then 0 else ValueOf(s[..|s| - 1], base) * base + DigitValue(s[|s| - 1])
  }

  /** Rendering a number yields digits only, at least one of them, and the
      digit string reads back to the number. */
  lemma {:induction false} DigitsRoundTrip(n: nat, base: nat, upper: bool)
    requires base == 10 || base == 16
    ensures |Digits(n, base, upper)| >= 1
    ensures AllDigits(Digits(n, base, upper), base)
    ensures ValueOf(Digits(n, base, upper), base) == n
    decreases n
  {
    var s := Digits(n, base, upper);
    if n < base {
      DigitRoundTrip(n, base, upper);
      assert s[..0] == [];
    } else {
      DigitsRoundTrip(n / base, base, upper);
      DigitRoundTrip(n % base, base, upper);
      var p := Digits(n / base, base, upper);
      assert s == p + [DigitChar(n % base, upper)];
      assert s[..|s| - 1] == p;
      assert ValueOf(s, base) == (n / base) * base + n % base;
    }
  }

  /** Numbers below `base^k` need at most `k` digits. */
  function Pow(base: nat, k: nat): (r: nat)
  {
    if k == 0 then 1 else base * Pow(base, k - 1)
  }

  lemma {:induction false} DigitsLength(n: nat, base: nat, upper: bool, k: nat)
    requires base == 10 || base == 16
    requires 1 <= k && n < Pow(base, k)
    ensures |Digits(n, base, upper)| <= k
    decreases k
  {
    if n >= base {
      assert k >= 2;
      assert n / base < Pow(base, k - 1);
      DigitsLength(n / base, base, upper, k - 1);
    }
  }

  /** Left-pads with `'0'` to `width` characters, as the `0` flag of printf does. */
  function PadZeros(s: string, width: nat): (r: string)
  {
    if |s| >= width then s else Zeros(width - |s|) + s
  }

  function Zeros(n: nat): (z: string)
    ensures |z| == n
    ensures forall i :: 0 <= i < n ==> z[i] == '0'
  {
    if n == 0 then [] else "0" + Zeros(n - 1)
  }

  /** Leading zeros do not change the value of a digit string. */
  lemma {:induction false} ValueOfZerosPrefix(n: nat, s: string, base: nat)
    ensures ValueOf(Zeros(n) + s, base) == ValueOf(s, base)
    decreases |s|
  {
    if s == [] {
      assert Zeros(n) + s == Zeros(n);
      ValueOfZeros(n, base);
    } else {
      var t := Zeros(n) + s;
      assert t[..|t| - 1] == Zeros(n) + s[..|s| - 1];
      assert t[|t| - 1] == s[|s| - 1];
      ValueOfZerosPrefix(n, s[..|s| - 1], base);
    }
  }

  lemma {:induction false} ValueOfZeros(n: nat, base: nat)
    ensures ValueOf(Zeros(n), base) == 0
    decreases n
  {
    if n > 0 {
      var z := Zeros(n);
      assert z[..n - 1] == Zeros(n - 1) by {
        assert z == "0" + Zeros(n - 1);
      }
      ValueOfZeros(n - 1, base);
    }
  }

  /** Every firmware name is formatted into a 64-byte `fwName` buffer. */
  const NameBufferSize := 64

  /** What `snprintf(buffer, size, ...)` leaves in the buffer: the
      formatted text, cut to `size - 1` characters to leave room for the
      terminating NUL. */
  function Bounded(s: string, size: nat): (r: string)
    requires size >= 1
    ensures |r| <= size - 1 && r <= s
    ensures |s| < size ==> r == s
    ensures |s| >= size ==> |r| == size - 1
  {
    if |s| < size then s else s[..size - 1]
  }

  /** `%u` */
  function Decimal(n: nat): (s: string)
  {
    Digits(n, 10, false)
  }

  /** `%x` */
  function HexLower(n: nat): (s: string)
  {
    Digits(n, 16, false)
  }

  /** `%04x` of a 16-bit value: always exactly four lower-case digits whose
      value is the number printed. */
  function Hex4(n: nat): (s: string)
    requires n < 0x1_0000
    ensures |s| == 4 && AllDigits(s, 16) && ValueOf(s, 16) == n
  {
    var d := HexLower(n);
    DigitsRoundTrip(n, 16, false);
    DigitsLength(n, 16, false, 4);
    ValueOfZerosPrefix(4 - |d|, d, 16);
    PadZeros(d, 4)
  }

  /** Python's `"0x{:02X}".format(b)` of a byte: `0x` and two upper-case
      digits whose value is the byte. */
  function ByteLiteral(b: nat): (s: string)
    requires b < 0x100
    ensures |s| == 4 && s[..2] == "0x"
    ensures forall i :: 2 <= i < 4 ==> '0' <= s[i] <= '9' || 'A' <= s[i] <= 'F'
    ensures ValueOf(s[2..], 16) == b
  {
    var d := Digits(b, 16, true);
    DigitsRoundTrip(b, 16, true);
    DigitsLength(b, 16, true, 2);
    ValueOfZerosPrefix(2 - |d|, d, 16);
    UpperDigits(b, 16);
    var s := "0x" + PadZeros(d, 2);
    assert s[2..] == PadZeros(d, 2);
    s
  }

  /** Upper-case rendering uses no lower-case letter. */
  lemma {:induction false} UpperDigits(n: nat, base: nat)
    requires base == 10 || base == 16
    ensures forall i :: 0 <= i < |Digits(n, base, true)| ==>
      var c := Digits(n, base, true)[i]; '0' <= c <= '9' || 'A' <= c <= 'F'
    decreases n
  {
    if n >= base {
      UpperDigits(n / base, base);
    }
  }

  /** A character that is not a digit marks where a digit field ends, so a
      digit field followed by such a separator splits off unambiguously,
      and the two separators agree. */
  lemma SplitField(x: string, y: string, s1: char, s2: char, r1: string, r2: string, base: nat)
    requires AllDigits(x, base) && AllDigits(y, base) && !IsDigit(s1, base) && !IsDigit(s2, base)
    requires x + [s1] + r1 == y + [s2] + r2
    ensures x == y && s1 == s2 && r1 == r2
  {
    var a := x + [s1] + r1;
    var b := y + [s2] + r2;
    var k := if |x| < |y| then |x| else |y|;
    assert a[k] == b[k];
    assert |x| == |y|;
    assert x == a[..|x|] && y == b[..|y|];
    assert r1 == a[|x| + 1..] && r2 == b[|y| + 1..];
  }

  /** Numbers printed one after another with `sep` between them, as in
      `"%x.%x.%x"`. */
  function Join(fields: seq<nat>, sep: char, base: nat): (s: string)
    requires |fields| >= 1 && (base == 10 || base == 16)
    decreases |fields|
  {
    var head := Digits(fields[0], base, false);
    if |fields| == 1 then head else head + [sep] + Join(fields[1..], sep, base)
  }

  /** A joined list followed by a terminator, seen as its first field,
      one non-digit character and the rest. */
  lemma JoinHead(f: seq<nat>, sep: char, c: char, r: string, base: nat)
    requires base == 10 || base == 16
    requires |f| >= 1
    ensures Join(f, sep, base) + [c] + r ==
      Digits(f[0], base, false) + [if |f| == 1 then c else sep]
      + (if |f| == 1 then r else Join(f[1..], sep, base) + [c] + r)
  {
    if |f| > 1 {
      var d := Digits(f[0], base, false);
      var j := Join(f[1..], sep, base);
      assert d + [sep] + j + [c] + r == d + [sep] + (j + [c] + r);
    }
  }

  /** A joined field list followed by a non-digit terminator reads back
      uniquely: the fields, the terminator and what follows are all
      determined, provided the lists have the same length or the terminator
      differs from the separator. */
  lemma {:induction false} JoinInjective(f1: seq<nat>, f2: seq<nat>, sep: char, c1: char, c2: char,
                                         r1: string, r2: string, base: nat)
    requires base == 10 || base == 16
    requires |f1| >= 1 && |f2| >= 1
    requires !IsDigit(sep, base) && !IsDigit(c1, base) && !IsDigit(c2, base)
    requires |f1| == |f2| || (c1 != sep && c2 != sep)
    requires Join(f1, sep, base) + [c1] + r1 == Join(f2, sep, base) + [c2] + r2
    ensures f1 == f2 && c1 == c2 && r1 == r2
    decreases |f1|
  {
    DigitsRoundTrip(f1[0], base, false);
    DigitsRoundTrip(f2[0], base, false);
    JoinHead(f1, sep, c1, r1, base);
    JoinHead(f2, sep, c2, r2, base);
    var t1 := if |f1| == 1 then r1 else Join(f1[1..], sep, base) + [c1] + r1;
    var t2 := if |f2| == 1 then r2 else Join(f2[1..], sep, base) + [c2] + r2;
    SplitField(Digits(f1[0], base, false), Digits(f2[0], base, false),
               if |f1| == 1 then c1 else sep, if |f2| == 1 then c2 else sep, t1, t2, base);
    if |f1| > 1 && |f2| > 1 {
      JoinInjective(f1[1..], f2[1..], sep, c1, c2, r1, r2, base);
      assert f1 == [f1[0]] + f1[1..] && f2 == [f2[0]] + f2[1..];
    }
  }
}

=== FILE: types.dfy ===
/** The driver's shared vocabulary: hardware and firmware codes, the bit-field
    macros that pick a CNVi/CNVr register apart, the CSS header geometry, the
    TLV type codes of the version record and the packed wire structures. */
module IntelTypes {
  import opened Bytes

  // Hardware variants (the `Variant` field of a legacy version record, or
  // bits 16-21 of the CNVi BT register).
  const VariantWP: byte := 0x07
  const VariantStP: byte := 0x08
  const VariantSfP: byte := 0x0b
  const VariantWsP: byte := 0x0c
  const VariantJfP: byte := 0x11
  const VariantThP: byte := 0x12
  const VariantHrP: byte := 0x13
  const VariantCcP: byte := 0x14
  const VariantTyP: byte := 0x17
  const VariantSlr: byte := 0x18
  const VariantSlrF: byte := 0x19

  /** Every Intel controller reports this hardware platform. */
  const IntelPlatform: byte := 0x37

  // Firmware variants reported by a legacy version record.
  const FirmwareLegacyROM2_5: byte := 0x01
  const FirmwareBootloader: byte := 0x06
  const FirmwareLegacyROM2_X: byte := 0x22
  const FirmwareOperational: byte := 0x23

  // Image types reported by a TLV version record.
  const ImageBootloader: byte := 0x01
  const ImageFirmware: byte := 0x03

  // Secure-send fragment types.
  const FragmentInit: byte := 0x00
  const FragmentData: byte := 0x01
  const FragmentSign: byte := 0x02
  const FragmentPKey: byte := 0x03

  // Vendor event sub-codes that the bootloader sends.
  const EventBootup: byte := 0x02
  const EventSecureSendResult: byte := 0x06

  // CSS header geometry of an `.sfi` image.
  const RsaHeaderLength := 644
  const EcdsaHeaderLength := 320
  const CssHeaderOffset := 8
  const EcdsaOffset := 644

  /** Where the command payload starts once both headers have been sent. */
  const EcdsaPayloadOffset := EcdsaOffset + EcdsaHeaderLength

  /** The vendor-specific opcode group (section 5.4.1 of the Bluetooth Core
      Specification, Vol 4 Part E). */
  const VendorGroup := 0x3F

  /** An HCI command opcode: a 6-bit group above a 10-bit command field. */
  function MakeOpCode(ogf: nat, ocf: nat): (op: uint16)
    requires ogf < 0x40 && ocf < 0x400
    ensures op / 0x400 == ogf && op % 0x400 == ocf
  {
    ogf * 0x400 + ocf
  }

  const OpReset: uint16 := MakeOpCode(VendorGroup, 0x0001)
  const OpReadVersionInfo: uint16 := MakeOpCode(VendorGroup, 0x0005)
  const OpSecureSend: uint16 := MakeOpCode(VendorGroup, 0x0009)
  const OpWriteBootParams: uint16 := MakeOpCode(VendorGroup, 0x000E)
  const OpMicrosoftExtension: uint16 := MakeOpCode(VendorGroup, 0x001E)
  const OpSetEventMask: uint16 := MakeOpCode(VendorGroup, 0x0052)
  const OpReadOffloadUseCases: uint16 := MakeOpCode(VendorGroup, 0x0086)
  const OpWriteConfigDDC: uint16 := MakeOpCode(VendorGroup, 0x008B)
  const OpWriteMemory: uint16 := MakeOpCode(VendorGroup, 0x008E)
  const OpSetLinkStatsTracing: uint16 := MakeOpCode(VendorGroup, 0x00A1)
  const OpReadDebugFeatures: uint16 := MakeOpCode(VendorGroup, 0x00A6)

  // ---------------------------------------------------------------------
  // Bit-field macros over a 32-bit CNVi / CNVr register value.

  /** `IntelCNVXExtractHardwarePlatform`: bits 8-15. */
  function HardwarePlatform(cnvx: uint32): (p: byte)
    ensures p == EncodeLE32(cnvx)[1]
  {
    EncodeLE32Bytes(cnvx);
    (cnvx / 0x100) % 0x100
  }

  /** `IntelCNVXExtractHardwareVariant`: bits 16-21. */
  function HardwareVariant(cnvx: uint32): (v: byte)
    ensures v <= 0x3F
    ensures v == EncodeLE32(cnvx)[2] % 0x40
  {
    EncodeLE32Bytes(cnvx);
    ModMod(cnvx / 0x1_0000, 0x40, 4);
    (cnvx / 0x1_0000) % 0x40
  }

  /** `IntelCNVXTopExtractType`: bits 0-11. */
  function TopType(cnvxTop: uint32): (t: nat)
    ensures t <= 0xFFF
    ensures t == EncodeLE32(cnvxTop)[0] as int + 0x100 * (EncodeLE32(cnvxTop)[1] as int % 0x10)
  {
    EncodeLE32Bytes(cnvxTop);
    var x := cnvxTop / 0x100;
    ModMod(x, 0x10, 0x10);
    var b0, n := cnvxTop % 0x100, x % 0x10;
    assert cnvxTop == x * 0x100 + b0;
    assert x == (x / 0x10) * 0x10 + n;
    assert cnvxTop == (x / 0x10) * 0x1000 + (n * 0x100 + b0);
    DivModUnique(cnvxTop, 0x1000, x / 0x10, n * 0x100 + b0);
    cnvxTop % 0x1000
  }

  /** `IntelCNVXTopExtractStep`: bits 24-27. */
  function TopStep(cnvxTop: uint32): (s: nat)
    ensures s <= 0xF
    ensures s == EncodeLE32(cnvxTop)[3] % 0x10
  {
    EncodeLE32Bytes(cnvxTop);
    (cnvxTop / 0x100_0000) % 0x10
  }

  /** `OSSwapInt16`. */
  function Swap16(v: uint16): (w: uint16)
    ensures w % 0x100 == v / 0x100 && w / 0x100 == v % 0x100
  {
    (v % 0x100) * 0x100 + v / 0x100
  }

  /** `IntelMakeCNVXTopEndianSwap(type, step)`: the byte-swapped 16-bit word
      `(type << 4) | step`. The extractors bound `type` by 12 bits and `step`
      by 4, so the shift and the or lose nothing and the or is an addition. */
  function CnvxTopSwapped(typ: nat, step: nat): (w: uint16)
    requires typ <= 0xFFF && step <= 0xF
    ensures Swap16(w) / 0x10 == typ && Swap16(w) % 0x10 == step
  {
    Swap16(typ * 0x10 + step)
  }

  /** Swapping twice restores a 16-bit word. */
  lemma Swap16Involutive(v: uint16)
    ensures Swap16(Swap16(v)) == v
  {
  }

  // ---------------------------------------------------------------------
  // TLV type codes of the version record.

  datatype TlvType =
    | CnviTop | CnvrTop | CnviBT | CnvrBT | CnviOTP | CnvrOTP
    | DeviceRevisionID | UsbVendorID | UsbProductID | PcieVendorID | PcieDeviceID | PcieSubsystemID
    | ImageType | Timestamp | BuildType | BuildNum
    | FirmwareBuildProduct | FirmwareBuildHardware | FirmwareStep | BluetoothSpecification
    | ManufacturingName | HciRevision | LmpSubversion | OtpPatchVersion
    | SecureBoot | KeyFromHeader | OtpLock | ApiLock | DebugLock
    | MinimumFirmware | LimitedCCE | SbeType | OtpDeviceAddress | UnlockedState

  /** The code a TLV type carries on the wire: the enumeration starts at 0x10
      and counts up by one per entry. */
  function TlvCode(t: TlvType): (c: byte)
    ensures 0x10 <= c <= 0x31
    ensures TlvTypeOf(c) == Some(t)
  {
    match t
    case CnviTop => 0x10 case CnvrTop => 0x11 case CnviBT => 0x12 case CnvrBT => 0x13
    case CnviOTP => 0x14 case CnvrOTP => 0x15 case DeviceRevisionID => 0x16
    case UsbVendorID => 0x17 case UsbProductID => 0x18 case PcieVendorID => 0x19
    case PcieDeviceID => 0x1A case PcieSubsystemID => 0x1B case ImageType => 0x1C
    case Timestamp => 0x1D case BuildType => 0x1E case BuildNum => 0x1F
    case FirmwareBuildProduct => 0x20 case FirmwareBuildHardware => 0x21
    case FirmwareStep => 0x22 case BluetoothSpecification => 0x23
    case ManufacturingName => 0x24 case HciRevision => 0x25 case LmpSubversion => 0x26
    case OtpPatchVersion => 0x27 case SecureBoot => 0x28 case KeyFromHeader => 0x29
    case OtpLock => 0x2A case ApiLock => 0x2B case DebugLock => 0x2C
    case MinimumFirmware => 0x2D case LimitedCCE => 0x2E case SbeType => 0x2F
    case OtpDeviceAddress => 0x30 case UnlockedState => 0x31
  }

  /** The TLV type a wire code names, if any. */
  function TlvTypeOf(c: byte): (t: Option<TlvType>)
    ensures t.None? <==> c < 0x10 || c > 0x31
  {
    match c
    case 0x10 => Some(CnviTop)
    case 0x11 => Some(CnvrTop)
    case 0x12 => Some(CnviBT)
    case 0x13 => Some(CnvrBT)
    case 0x14 => Some(CnviOTP)
    case 0x15 => Some(CnvrOTP)
    case 0x16 => Some(DeviceRevisionID)
    case 0x17 => Some(UsbVendorID)
    case 0x18 => Some(UsbProductID)
    case 0x19 => Some(PcieVendorID)
    case 0x1A => Some(PcieDeviceID)
    case 0x1B => Some(PcieSubsystemID)
    case 0x1C => Some(ImageType)
    case 0x1D => Some(Timestamp)
    case 0x1E => Some(BuildType)
    case 0x1F => Some(BuildNum)
    case 0x20 => Some(FirmwareBuildProduct)
    case 0x21 => Some(FirmwareBuildHardware)
    case 0x22 => Some(FirmwareStep)
    case 0x23 => Some(BluetoothSpecification)
    case 0x24 => Some(ManufacturingName)
    case 0x25 => Some(HciRevision)
    case 0x26 => Some(LmpSubversion)
    case 0x27 => Some(OtpPatchVersion)
    case 0x28 => Some(SecureBoot)
    case 0x29 => Some(KeyFromHeader)
    case 0x2A => Some(OtpLock)
    case 0x2B => Some(ApiLock)
    case 0x2C => Some(DebugLock)
    case 0x2D => Some(MinimumFirmware)
    case 0x2E => Some(LimitedCCE)
    case 0x2F => Some(SbeType)
    case 0x30 => Some(OtpDeviceAddress)
    case 0x31 => Some(UnlockedState)
    case _ => None
  }

  /** Every code in 0x10..0x31 names exactly the type whose code it is. */
  lemma TlvCodesConsecutive(c: byte)
    requires 0x10 <= c <= 0x31
    ensures TlvTypeOf(c).Some? && TlvCode(TlvTypeOf(c).value) == c
  {
  }

  // ---------------------------------------------------------------------
  // Packed wire structures.

  /** `BluetoothIntelTLV`: a type byte and a length byte precede the value. */
  const TlvHeaderSize := 2

  /** HCI command header: 16-bit opcode and 8-bit parameter length. */
  const CommandHeaderSize := 3

  /** HCI event header: event code and 8-bit parameter length. */
  const EventHeaderSize := 2

  /** `BluetoothIntelCommandWriteBootParams`. */
  datatype WriteBootParams = WriteBootParams(bootAddress: uint32, number: byte, week: byte, year: byte)

  const WriteBootParamsSize := 7

  function DecodeWriteBootParams(s: seq<byte>, i: nat): (p: WriteBootParams)
    requires i + WriteBootParamsSize <= |s|
  {
    WriteBootParams(LE32(s, i), s[i + 4], s[i + 5], s[i + 6])
  }

  function EncodeWriteBootParams(p: WriteBootParams): (s: seq<byte>)
    ensures |s| == WriteBootParamsSize
  {
    EncodeLE32(p.bootAddress) + [p.number, p.week, p.year]
  }

  /** The seven bytes read as Write_Boot_Params are exactly the bytes its
      fields encode to, and the other way round. */
  lemma WriteBootParamsRoundTrip(p: WriteBootParams, s: seq<byte>, i: nat)
    requires i + WriteBootParamsSize <= |s|
    ensures DecodeWriteBootParams(EncodeWriteBootParams(p), 0) == p
    ensures EncodeWriteBootParams(DecodeWriteBootParams(s, i)) == s[i..i + WriteBootParamsSize]
  {
    var e := EncodeWriteBootParams(p);
    assert LE32(e, 0) == LE32(EncodeLE32(p.bootAddress), 0);
    DecodeEncodeLE32(s, i);
  }

  /** `BluetoothIntelBootupEventParams`. */
  datatype BootupEventParams = BootupEventParams(
    zero: byte, numCommands: byte, source: byte, resetType: byte, resetReason: byte, ddcStatus: byte)

  const BootupEventParamsSize := 6

  function DecodeBootupEventParams(s: seq<byte>): (p: Option<BootupEventParams>)
    ensures p.Some? <==> |s| == BootupEventParamsSize
  {
    if |s| != BootupEventParamsSize then None
    else Some(BootupEventParams(s[0], s[1], s[2], s[3], s[4], s[5]))
  }

  function EncodeBootupEventParams(p: BootupEventParams): (s: seq<byte>)
    ensures |s| == BootupEventParamsSize
  {
    [p.zero, p.numCommands, p.source, p.resetType, p.resetReason, p.ddcStatus]
  }

  lemma BootupEventParamsRoundTrip(p: BootupEventParams, s: seq<byte>)
    ensures DecodeBootupEventParams(EncodeBootupEventParams(p)) == Some(p)
    ensures DecodeBootupEventParams(s).Some? ==> EncodeBootupEventParams(DecodeBootupEventParams(s).value) == s
  {
  }

  /** `BluetoothIntelSecureSendResultEventParams`. */
  datatype SecureSendResult = SecureSendResult(result: byte, opCode: uint16, status: byte)

  const SecureSendResultSize := 4

  function DecodeSecureSendResult(s: seq<byte>): (p: Option<SecureSendResult>)
    ensures p.Some? <==> |s| == SecureSendResultSize
    ensures p.Some? ==> p.value.result == s[0]
  {
    if |s| != SecureSendResultSize then None
    else Some(SecureSendResult(s[0], LE16(s, 1), s[3]))
  }

  function EncodeSecureSendResult(p: SecureSendResult): (s: seq<byte>)
    ensures |s| == SecureSendResultSize
  {
    [p.result] + EncodeLE16(p.opCode) + [p.status]
  }

  lemma SecureSendResultRoundTrip(p: SecureSendResult, s: seq<byte>)
    ensures DecodeSecureSendResult(EncodeSecureSendResult(p)) == Some(p)
    ensures DecodeSecureSendResult(s).Some? ==> EncodeSecureSendResult(DecodeSecureSendResult(s).value) == s
  {
    var e := EncodeSecureSendResult(p);
    assert LE16(e, 1) == LE16(EncodeLE16(p.opCode), 0);
    if |s| == SecureSendResultSize {
      DecodeEncodeLE16(s, 1);
    }
  }

  /** `BluetoothIntelVersionInfo`: the legacy (pre-TLV) version record. */
  datatype VersionInfo = VersionInfo(
    hardwarePlatform: byte, hardwareVariant: byte, hardwareRevision: byte,
    firmwareVariant: byte, firmwareRevision: byte, firmwareBuildNum: byte,
    firmwareBuildWeek: byte, firmwareBuildYear: byte, firmwarePatchVersion: byte)

  const VersionInfoSize := 9

  function DecodeVersionInfo(s: seq<byte>): (v: Option<VersionInfo>)
    ensures v.Some? <==> |s| == VersionInfoSize
  {
    if |s| != VersionInfoSize then None
    else Some(VersionInfo(s[0], s[1], s[2], s[3], s[4], s[5], s[6], s[7], s[8]))
  }

  function EncodeVersionInfo(v: VersionInfo): (s: seq<byte>)
    ensures |s| == VersionInfoSize
  {
    [v.hardwarePlatform, v.hardwareVariant, v.hardwareRevision,
     v.firmwareVariant, v.firmwareRevision, v.firmwareBuildNum,
     v.firmwareBuildWeek, v.firmwareBuildYear, v.firmwarePatchVersion]
  }

  lemma VersionInfoRoundTrip(v: VersionInfo, s: seq<byte>)
    ensures DecodeVersionInfo(EncodeVersionInfo(v)) == Some(v)
    ensures DecodeVersionInfo(s).Some? ==> EncodeVersionInfo(DecodeVersionInfo(s).value) == s
  {
  }

  type int16 = x: int | -0x8000 <= x < 0x8000

  /** `BluetoothIntelBootParams` (the reply to Read Boot Params). */
  datatype BootParams = BootParams(
    otpFormat: byte, otpContent: byte, otpPatch: byte, deviceRevisionID: int16,
    secureBoot: byte, keyFromHeader: byte, keyType: byte,
    otpLock: byte, apiLock: byte, debugLock: byte,
    otpDeviceAddress: seq<byte>,
    minFirmwareBuildNumber: byte, minFirmwareBuildWeek: byte, minFirmwareBuildYear: byte,
    limitedCCE: byte, unlockedState: byte)

  const BootParamsSize := 22

  /** Two's-complement reading of a 16-bit word. */
  function Signed16(u: uint16): (x: int16)
    ensures x % 0x1_0000 == u
  {
    if u < 0x8000 then u else u - 0x1_0000
  }

  function DecodeBootParams(s: seq<byte>): (p: Option<BootParams>)
    ensures p.Some? <==> |s| == BootParamsSize
    ensures p.Some? ==> |p.value.otpDeviceAddress| == 6
  {
    if |s| != BootParamsSize then None
    else Some(BootParams(s[0], s[1], s[2], Signed16(LE16(s, 3)), s[5], s[6], s[7], s[8], s[9], s[10],
                         s[11..17], s[17], s[18], s[19], s[20], s[21]))
  }

  /** The 22 wire bytes of a boot-params reply; the 16-bit revision is
      stored in two's complement. */
  function EncodeBootParams(p: BootParams): (s: seq<byte>)
    requires |p.otpDeviceAddress| == 6
    ensures |s| == BootParamsSize
  {
    [p.otpFormat, p.otpContent, p.otpPatch] + EncodeLE16(p.deviceRevisionID % 0x1_0000)
    + [p.secureBoot, p.keyFromHeader, p.keyType, p.otpLock, p.apiLock, p.debugLock]
    + p.otpDeviceAddress
    + [p.minFirmwareBuildNumber, p.minFirmwareBuildWeek, p.minFirmwareBuildYear, p.limitedCCE, p.unlockedState]
  }

  lemma BootParamsRoundTrip(p: BootParams, s: seq<byte>)
    requires |p.otpDeviceAddress| == 6
    ensures DecodeBootParams(EncodeBootParams(p)) == Some(p)
    ensures DecodeBootParams(s).Some? ==> EncodeBootParams(DecodeBootParams(s).value) == s
  {
    var e := EncodeBootParams(p);
    assert LE16(e, 3) == LE16(EncodeLE16(p.deviceRevisionID % 0x1_0000), 0);
    assert e[11..17] == p.otpDeviceAddress;
    if |s| == BootParamsSize {
      DecodeEncodeLE16(s, 3);
      var q := DecodeBootParams(s).value;
      assert EncodeBootParams(q) == s[..3] + s[3..5] + s[5..11] + s[11..17] + s[17..];
    }
  }
}

=== FILE: usb.dfy ===
/** The parts of the USB transport that decide something: where an HCI
    command packet goes, the Command Complete event the transport makes up
    for the vendor Reset, the power-state request, and the generic firmware
    lookup the generation-specific transports build on. */
module UsbTransport {
  import opened Bytes
  import opened IntelTypes
  import opened Controller
  import opened BootloaderEvents

  // ---------------------------------------------------------------------
  // InjectCommandCompleteEvent

  /** The parameters of a Command Complete event the transport fills in:
      the number of commands the controller can take (one byte) and the
      opcode (two bytes), taken to be packed. */
  const CommandCompleteResultsSize := 3

  /** The packet `InjectCommandCompleteEvent` hands to the receive path:
      event code 0x0E, a length of the results plus one, one command
      allowed, the opcode low byte first, and a zero status byte. */
  function CommandCompletePacket(op: uint16): (p: seq<byte>)
    ensures |p| == EventHeaderSize + CommandCompleteResultsSize + 1
  {
    [EventCommandComplete, CommandCompleteResultsSize + 1, 1] + EncodeLE16(op) + [0]
  }

  /** What a receiver reads from a Command Complete packet of this shape:
      the opcode it completes and the status. */
  datatype Completion = Completion(op: uint16, status: byte)

  function DecodeCommandComplete(p: seq<byte>): (c: Option<Completion>)
    ensures c.Some? ==> Framed(p) && p[0] == EventCommandComplete
  {
    if |p| != EventHeaderSize + CommandCompleteResultsSize + 1 || p[0] != EventCommandComplete
       || p[1] as int != CommandCompleteResultsSize + 1 || p[2] != 1 then None
    else Some(Completion(LE16(p, 3), p[5]))
  }

  /** The injected packet reads back as a successful completion of the
      opcode it was made for, and a packet that reads back is the packet
      made for the opcode it names whenever its status is zero. */
  lemma CommandCompleteRoundTrip(op: uint16, p: seq<byte>)
    ensures DecodeCommandComplete(CommandCompletePacket(op)) == Some(Completion(op, 0))
    ensures DecodeCommandComplete(p).Some? && DecodeCommandComplete(p).value.status == 0 ==>
      CommandCompletePacket(DecodeCommandComplete(p).value.op) == p
  {
    var q := CommandCompletePacket(op);
    assert q[3..5] == EncodeLE16(op);
    assert LE16(q, 3) == LE16(EncodeLE16(op), 0);
    if DecodeCommandComplete(p).Some? {
      DecodeEncodeLE16(p, 3);
      assert p == p[..3] + p[3..5] + [p[5]];
    }
  }

  /** The injected event is a well-framed ordinary event: it completes a
      command the driver waits on with Command Complete, and the bootloader
      flags ignore it. */
  lemma InjectedEventIsOrdinary(bootloaderMode: bool, f: Flags)
    ensures Framed(CommandCompletePacket(OpReset))
    ensures CompleteCodeFor(OpReset) == Some(CommandCompletePacket(OpReset)[0])
    ensures ProcessEvent(bootloaderMode, f, CommandCompletePacket(OpReset)) == f
  {
  }

  // ---------------------------------------------------------------------
  // SendHCIRequest

  /** Where a command packet went. */
  datatype Route = Rejected | SecureSendBulk | Control

  /** The outcome of `SendHCIRequest`: the status, the route, and the
      event injected into the receive path, if any. */
  datatype Sent = Sent(status: Status, route: Route, injected: Option<seq<byte>>)

  /** The statuses of the I/O the transport starts: the bulk write of a
      secure send, whether the read of its answer could be posted, and the
      ordinary send through the IOBluetoothFamily superclass. */
  datatype Io = Io(bulkWrite: Status, readPosted: bool, control: Status)

  /** The opcode a command packet starts with. */
  function PacketOpCode(packet: seq<byte>): (op: uint16)
    requires |packet| >= CommandHeaderSize
  {
    LE16(packet, 0)
  }

  /** `SendHCIRequest`: a packet shorter than a command header is refused;
      a secure send while the controller runs its bootloader goes only to
      the bulk pipe and succeeds when the read of its answer is posted;
      everything else goes the ordinary way, and a vendor Reset that went
      out is answered by an injected Command Complete, since the controller
      does not send one. */
  function SendRequest(packet: seq<byte>, bootloaderMode: bool, io: Io): (r: Sent)
    ensures r.route == Rejected <==> |packet| < CommandHeaderSize
    ensures r.route == Rejected ==> r.status == Invalid
    ensures r.route == SecureSendBulk <==>
      |packet| >= CommandHeaderSize && PacketOpCode(packet) == OpSecureSend && bootloaderMode
    ensures r.injected.Some? <==>
      r.route == Control && r.status == Success && PacketOpCode(packet) == OpReset
    ensures r.injected.Some? ==> DecodeCommandComplete(r.injected.value) == Some(Completion(OpReset, 0))
    ensures r.route == Control ==> r.status == io.control
  {
    if |packet| < CommandHeaderSize then Sent(Invalid, Rejected, None)
    else if LE16(packet, 0) == 0xFC09 && bootloaderMode then
      if io.bulkWrite != Success then Sent(io.bulkWrite, SecureSendBulk, None)
      else if io.readPosted then Sent(Success, SecureSendBulk, None)
      else Sent(Error, SecureSendBulk, None)
    else if io.control != Success then Sent(io.control, Control, None)
    else if LE16(packet, 0) == 0xFC01 then
      CommandCompleteRoundTrip(OpReset, []);
      Sent(Success, Control, Some(CommandCompletePacket(0xFC01)))
    else Sent(Success, Control, None)
  }

  /** A secure send in bootloader mode never reaches the ordinary path, so
      its outcome depends only on the bulk pipe; outside bootloader mode it
      is an ordinary command. */
  lemma SecureSendRouting(packet: seq<byte>, io: Io, io2: Io)
    requires |packet| >= CommandHeaderSize && PacketOpCode(packet) == OpSecureSend
    requires io2.bulkWrite == io.bulkWrite && io2.readPosted == io.readPosted
    ensures SendRequest(packet, true, io) == SendRequest(packet, true, io2)
    ensures SendRequest(packet, true, io).status == Success <==> io.bulkWrite == Success && io.readPosted
    ensures SendRequest(packet, false, io).status == io.control
  {
  }

  // ---------------------------------------------------------------------
  // CallPowerManagerChangePowerStateTo

  /** The power-state ordinals of the IOBluetooth controller. */
  datatype PowerOrdinal = OrdinalOff | OrdinalIdle | OrdinalOn

  /** The state asked of the power manager, `None` when the ordinal is not
      one the transport acts on (it then reports `kIOPMNoErr`). */
  function PowerStateFor(ordinal: PowerOrdinal): (state: Option<nat>)
    ensures state.Some? ==> state.value < 2
  {
    match ordinal
    case OrdinalOff => Some(0)
    case OrdinalOn => Some(1)
    case _ => None
  }

  /** The ordinal a transport power state stands for. */
  function OrdinalFor(state: nat): (ordinal: PowerOrdinal)
    requires state < 2
  {
    if state == 0 then OrdinalOff else OrdinalOn
  }

  /** The two mappings are inverse on the two states the transport has,
      and only Off and On reach the power manager. */
  lemma PowerStatesRoundTrip(ordinal: PowerOrdinal, state: nat)
    requires state < 2
    ensures PowerStateFor(OrdinalFor(state)) == Some(state)
    ensures PowerStateFor(ordinal).Some? ==> OrdinalFor(PowerStateFor(ordinal).value) == ordinal
    ensures PowerStateFor(ordinal).None? <==> ordinal == OrdinalIdle
  {
  }

  // ---------------------------------------------------------------------
  // GetFirmware

  /** What opening a firmware file by name gives: its bytes, or the status
      the loader reports. */
  datatype Opened = Opened(data: seq<byte>) | OpenFailed(error: Status)

  /** The outcome of a firmware fetch: the status and the file handed out. */
  datatype Fetched = Fetched(status: Status, data: Option<seq<byte>>)

  /** `GetFirmware` of the transport: without a name the fetch is invalid;
      a file that does not open is left to the error handler, whose
      outcome `onMissing` stands for; otherwise the file is handed out. */
  function GetFirmware(name: Option<string>, open: string -> Opened, onMissing: Fetched): (r: Fetched)
    ensures name.None? ==> r == Fetched(Invalid, None)
    ensures name.Some? && open(name.value).Opened? ==> r == Fetched(Success, Some(open(name.value).data))
    ensures name.Some? && open(name.value).OpenFailed? ==> r == onMissing
  {
    if name.None? then Fetched(Invalid, None)
    else match open(name.value)
      case Opened(data) => Fetched(Success, Some(data))
      case OpenFailed(_) => onMissing
  }

  /** The base class has no firmware name (`kIOReturnUnsupported`) and its
      error handler gives up with `kIOReturnUnsupported`. */
  const BaseFirmwareName: Option<string> := None
  const BaseErrorHandler := Fetched(Unsupported, None)

  /** On the base class every fetch is invalid; with any name it is the
      file that opens, or the handler's failure. */
  lemma BaseFetchFails(name: string, open: string -> Opened)
    ensures GetFirmware(BaseFirmwareName, open, BaseErrorHandler).status == Invalid
    ensures var r := GetFirmware(Some(name), open, BaseErrorHandler);
      (r.status == Success <==> open(name).Opened?) && (r.status != Success ==> r.status == Unsupported)
  {
  }
}

=== FILE: versiontlv.dfy ===
/** The TLV form of the Read Version reply that newer controllers send: a run
    of (type, length, value) triples from which the driver keeps the fields it
    needs. Two parsers exist. The lenient one stops at a triple that does not
    fit and still succeeds; the strict one fails there. Both update the
    caller's record in place, so a field no triple mentions keeps its value. */
module TlvParser {
  import opened Bytes
  import opened IntelTypes

  /** `BluetoothIntelVersionInfoTLV`. */
  datatype VersionInfoTlv = VersionInfoTlv(
    cnviTop: uint32, cnvrTop: uint32, cnviBT: uint32, cnvrBT: uint32,
    deviceRevisionID: uint16, imageType: byte, timestamp: uint16, buildType: byte,
    buildNumber: uint32, secureBoot: byte, otpLock: byte, apiLock: byte, debugLock: byte,
    firmwareBuildNumber: byte, firmwareBuildWeek: byte, firmwareBuildYear: byte,
    limitedCCE: byte, sbeType: byte, otpDeviceAddress: seq<byte>)

  /** One triple; its length byte is the length of `value`. */
  datatype Tlv = Tlv(code: byte, value: seq<byte>)

  /** The complete triples at the start of `data`, in order, and the bytes
      left where the walk stopped: either nothing, or a triple whose length
      exceeds what remains. (A lone trailing byte also stops the walk: the
      comparison `1 < length + 2` holds whatever the missing length byte is.) */
  function SplitTlvs(data: seq<byte>): (r: (seq<Tlv>, seq<byte>))
    ensures forall i :: 0 <= i < |r.0| ==> |r.0[i].value| <= 0xFF
    ensures r.1 != [] ==> |r.1| < 2 || |r.1| < r.1[1] + TlvHeaderSize
    decreases |data|
  {
    if data == [] then ([], [])
    else if |data| < TlvHeaderSize || |data| < data[1] + TlvHeaderSize then ([], data)
    else
      var n := data[1] + TlvHeaderSize;
      var (tlvs, rest) := SplitTlvs(data[n..]);
      ([Tlv(data[0], data[2..n])] + tlvs, rest)
  }

  /** The bytes a list of triples occupies on the wire. */
  function EncodeTlvs(tlvs: seq<Tlv>): (b: seq<byte>)
    requires forall i :: 0 <= i < |tlvs| ==> |tlvs[i].value| <= 0xFF
    decreases |tlvs|
  {
    if tlvs == [] then []
    else [tlvs[0].code, |tlvs[0].value|] + tlvs[0].value + EncodeTlvs(tlvs[1..])
  }

  /** Every iteration consumes exactly 2 + length bytes: the triples read
      and the bytes left over make up the whole buffer. */
  lemma {:induction false} SplitConsumes(data: seq<byte>)
    ensures EncodeTlvs(SplitTlvs(data).0) + SplitTlvs(data).1 == data
    decreases |data|
  {
    if data != [] && !(|data| < TlvHeaderSize || |data| < data[1] + TlvHeaderSize) {
      var n := data[1] + TlvHeaderSize;
      var head := Tlv(data[0], data[2..n]);
      assert data == [data[0], data[1]] + data[2..n] + data[n..];
      var (tlvs, rest) := SplitTlvs(data[n..]);
      assert SplitTlvs(data) == ([head] + tlvs, rest);
      assert EncodeTlvs([head] + tlvs) == [head.code, |head.value|] + head.value + EncodeTlvs(tlvs) by {
        assert ([head] + tlvs)[1..] == tlvs;
      }
      SplitConsumes(data[n..]);
      assert EncodeTlvs(tlvs) + rest == data[n..];
    }
  }

  /** Encoded triples are read back exactly, with nothing left over. */
  lemma {:induction false} SplitEncoded(tlvs: seq<Tlv>)
    requires forall i :: 0 <= i < |tlvs| ==> |tlvs[i].value| <= 0xFF
    ensures SplitTlvs(EncodeTlvs(tlvs)) == (tlvs, [])
    decreases |tlvs|
  {
    if tlvs != [] {
      var t, more := tlvs[0], tlvs[1..];
      assert EncodeTlvs(tlvs) == [t.code, |t.value| as byte] + t.value + EncodeTlvs(more);
      SplitOne(t, EncodeTlvs(more));
      SplitEncoded(more);
      assert [t] + more == tlvs;
    }
  }

  /** One encoded triple in front of any bytes is read as that triple, and
      the walk goes on with those bytes. */
  lemma SplitOne(t: Tlv, tail: seq<byte>)
    requires |t.value| <= 0xFF
    ensures SplitTlvs([t.code, |t.value| as byte] + t.value + tail) == ([t] + SplitTlvs(tail).0, SplitTlvs(tail).1)
  {
    var b := [t.code, |t.value| as byte] + t.value + tail;
    var n := |t.value| + TlvHeaderSize;
    assert b[1] == |t.value| && b[2..n] == t.value && b[n..] == tail;
  }

  /** How many value bytes the driver reads for a triple of this type. */
  function FieldWidth(code: byte): (w: nat)
  {
    match TlvTypeOf(code)
    case Some(CnviTop) => 4 case Some(CnvrTop) => 4 case Some(CnviBT) => 4 case Some(CnvrBT) => 4
    case Some(DeviceRevisionID) => 2 case Some(ImageType) => 1 case Some(Timestamp) => 2
    case Some(BuildType) => 1 case Some(BuildNum) => 4
    case Some(SecureBoot) => 1 case Some(OtpLock) => 1 case Some(ApiLock) => 1 case Some(DebugLock) => 1
    case Some(MinimumFirmware) => 3 case Some(LimitedCCE) => 1 case Some(SbeType) => 1
    case Some(OtpDeviceAddress) => 6
    case _ => 0
  }

  /** Each triple is long enough for the fields read from it. */
  predicate FieldsFit(tlvs: seq<Tlv>)
  {
    forall i :: 0 <= i < |tlvs| ==> |tlvs[i].value| >= FieldWidth(tlvs[i].code)
  }

  /** Where the read of a triple starting at the head of `data` ends: the
      switch reads its field from the start of the value whatever the
      length byte says, so a value shorter than the field is read on into
      the bytes after it, up to the end of the buffer at most. */
  function ReadEnd(data: seq<byte>): (m: nat)
    requires |data| >= TlvHeaderSize && |data| >= data[1] + TlvHeaderSize
    ensures data[1] + TlvHeaderSize <= m <= |data|
    ensures m - TlvHeaderSize >= FieldWidth(data[0]) || m == |data|
  {
    var n := data[1] + TlvHeaderSize;
    var wide := TlvHeaderSize + FieldWidth(data[0]);
    if n >= wide then n else if wide <= |data| then wide else |data|
  }

  /** The bytes the switch reads for each complete triple, in order: the
      triple's code with its value widened to the field it reads. */
  function Reads(data: seq<byte>): (r: seq<Tlv>)
    decreases |data|
  {
    if data == [] || |data| < TlvHeaderSize || |data| < data[1] + TlvHeaderSize then []
    else [Tlv(data[0], data[2..ReadEnd(data)])] + Reads(data[data[1] + TlvHeaderSize..])
  }

  /** When every triple is at least as long as its field, the driver reads
      each field inside its own triple. */
  lemma {:induction false} ReadsAreTriples(data: seq<byte>)
    requires FieldsFit(SplitTlvs(data).0)
    ensures Reads(data) == SplitTlvs(data).0
    decreases |data|
  {
    if data != [] && !(|data| < TlvHeaderSize || |data| < data[1] + TlvHeaderSize) {
      var n := data[1] + TlvHeaderSize;
      var tlvs := SplitTlvs(data).0;
      assert tlvs[0] == Tlv(data[0], data[2..n]) && tlvs[1..] == SplitTlvs(data[n..]).0;
      assert |tlvs[0].value| >= FieldWidth(tlvs[0].code);
      assert ReadEnd(data) == n;
      assert FieldsFit(SplitTlvs(data[n..]).0) by {
        forall i | 0 <= i < |tlvs[1..]| ensures |tlvs[1..][i].value| >= FieldWidth(tlvs[1..][i].code) {
          assert tlvs[1..][i] == tlvs[i + 1];
        }
      }
      ReadsAreTriples(data[n..]);
      assert tlvs == [tlvs[0]] + tlvs[1..];
    }
  }

  /** A CNVi BT triple whose length byte says 1 sets the register from its
      one value byte and the next triple's type, length and first value
      byte; the next triple is then walked as usual. */
  lemma ShortTripleReadsOn(version: VersionInfoTlv)
    ensures var data: seq<byte> := [0x12, 0x01, 0xAA, 0x50, 0x02, 0xBB, 0xCC];
      FieldsFit(Reads(data))
      && ParseStrict(version, data) == ParseResult(Success, Some(version.(cnviBT := 0xBB02_50AA)))
  {
    var data: seq<byte> := [0x12, 0x01, 0xAA, 0x50, 0x02, 0xBB, 0xCC];
    var next: seq<byte> := [0x50, 0x02, 0xBB, 0xCC];
    assert ReadEnd(data) == 6 && data[2..6] == [0xAA, 0x50, 0x02, 0xBB] && data[3..] == next;
    assert ReadEnd(next) == 4 && next[2..4] == [0xBB, 0xCC] && next[4..] == [];
    assert Reads(next) == [Tlv(0x50, [0xBB, 0xCC])] + Reads([]);
    assert Reads(data) == [Tlv(0x12, [0xAA, 0x50, 0x02, 0xBB]), Tlv(0x50, [0xBB, 0xCC])];
    assert LE32([0xAA, 0x50, 0x02, 0xBB], 0) == 0xBB02_50AA;
  }

  /** The switch on the triple's type. */
  function Apply(v: VersionInfoTlv, t: Tlv): (r: VersionInfoTlv)
    requires |t.value| >= FieldWidth(t.code)
  {
    var x := t.value;
    match TlvTypeOf(t.code)
    case Some(CnviTop) => v.(cnviTop := LE32(x, 0))
    case Some(CnvrTop) => v.(cnvrTop := LE32(x, 0))
    case Some(CnviBT) => v.(cnviBT := LE32(x, 0))
    case Some(CnvrBT) => v.(cnvrBT := LE32(x, 0))
    case Some(DeviceRevisionID) => v.(deviceRevisionID := LE16(x, 0))
    case Some(ImageType) => v.(imageType := x[0])
    case Some(Timestamp) => v.(firmwareBuildWeek := x[0], firmwareBuildYear := x[1], timestamp := LE16(x, 0))
    case Some(BuildType) => v.(buildType := x[0])
    case Some(BuildNum) => v.(firmwareBuildNumber := x[0], buildNumber := LE32(x, 0))
    case Some(SecureBoot) => v.(secureBoot := x[0])
    case Some(OtpLock) => v.(otpLock := x[0])
    case Some(ApiLock) => v.(apiLock := x[0])
    case Some(DebugLock) => v.(debugLock := x[0])
    case Some(MinimumFirmware) => v.(firmwareBuildNumber := x[0], firmwareBuildWeek := x[1], firmwareBuildYear := x[2])
    case Some(LimitedCCE) => v.(limitedCCE := x[0])
    case Some(SbeType) => v.(sbeType := x[0])
    case Some(OtpDeviceAddress) => v.(otpDeviceAddress := x[..6])
    case _ => v
  }

  /** The triples applied in buffer order. */
  function ApplyAll(v: VersionInfoTlv, tlvs: seq<Tlv>): (r: VersionInfoTlv)
    requires FieldsFit(tlvs)
    decreases |tlvs|
  {
    if tlvs == [] then v else ApplyAll(Apply(v, tlvs[0]), tlvs[1..])
  }

  lemma {:induction false} ApplyAllSnoc(v: VersionInfoTlv, tlvs: seq<Tlv>, t: Tlv)
    requires FieldsFit(tlvs + [t])
    ensures FieldsFit(tlvs) && |t.value| >= FieldWidth(t.code)
    ensures ApplyAll(v, tlvs + [t]) == Apply(ApplyAll(v, tlvs), t)
    decreases |tlvs|
  {
    assert (tlvs + [t])[|tlvs|] == t;
    assert forall i :: 0 <= i < |tlvs| ==> (tlvs + [t])[i] == tlvs[i];
    if tlvs == [] {
      assert [t][1..] == [];
    } else {
      assert (tlvs + [t])[1..] == tlvs[1..] + [t];
      ApplyAllSnoc(Apply(v, tlvs[0]), tlvs[1..], t);
    }
  }

  /** The outcome of a parse: its status and the caller's record after it. */
  datatype ParseResult = ParseResult(status: Status, version: Option<VersionInfoTlv>)

  /** Every field read stays inside the buffer. */
  predicate DataFits(data: Option<seq<byte>>)
  {
    data.Some? ==> FieldsFit(Reads(data.value))
  }

  /** `ParseVersionInfoTLV` of the Gen3 transport: a missing record or
      buffer is refused; otherwise every complete triple is applied and the
      parse succeeds even when a truncated triple ends it early. A value
      shorter than its field is read on into the bytes that follow it. */
  function ParseLenient(version: Option<VersionInfoTlv>, data: Option<seq<byte>>): (r: ParseResult)
    requires DataFits(data)
    ensures r.status == Success <==> version.Some? && data.Some?
    ensures r.status != Success ==> r.version == version
    ensures r.version.None? <==> version.None?
  {
    if version.None? || data.None? then ParseResult(Invalid, version)
    else ParseResult(Success, Some(ApplyAll(version.value, Reads(data.value))))
  }

  /** `ParseVersionInfoTLV` of the Gen3 USB transport and of the Family Gen3
      controller: the same walk, but a triple that does not fit fails the
      parse (after the triples before it have been applied). */
  function ParseStrict(version: VersionInfoTlv, data: seq<byte>): (r: ParseResult)
    requires FieldsFit(Reads(data))
    ensures r.version.Some?
    decreases |data|
  {
    if data == [] then ParseResult(Success, Some(version))
    else if |data| < TlvHeaderSize || |data| < data[1] + TlvHeaderSize then ParseResult(Invalid, Some(version))
    else
      var n := data[1] + TlvHeaderSize;
      var read := Tlv(data[0], data[2..ReadEnd(data)]);
      assert Reads(data)[0] == read;
      assert Reads(data)[1..] == Reads(data[n..]);
      ParseStrict(Apply(version, read), data[n..])
  }

  /** The strict parser succeeds exactly when the triples cover the buffer
      with nothing left over, and either way leaves the record as the lenient
      parser does: the two differ only in the status of a truncated buffer. */
  lemma {:induction false} StrictMatchesLenient(version: VersionInfoTlv, data: seq<byte>)
    requires FieldsFit(Reads(data))
    ensures ParseStrict(version, data).status == Success <==> SplitTlvs(data).1 == []
    ensures ParseStrict(version, data).status != Success ==> ParseStrict(version, data).status == Invalid
    ensures ParseStrict(version, data).version == ParseLenient(Some(version), Some(data)).version
    decreases |data|
  {
    if data != [] && !(|data| < TlvHeaderSize || |data| < data[1] + TlvHeaderSize) {
      var n := data[1] + TlvHeaderSize;
      var t := Tlv(data[0], data[2..ReadEnd(data)]);
      var tlvs := Reads(data);
      assert tlvs[0] == t && tlvs[1..] == Reads(data[n..]);
      assert FieldsFit(Reads(data[n..])) by {
        forall i | 0 <= i < |tlvs[1..]| ensures |tlvs[1..][i].value| >= FieldWidth(tlvs[1..][i].code) {
          assert tlvs[1..][i] == tlvs[i + 1];
        }
      }
      StrictMatchesLenient(Apply(version, t), data[n..]);
    }
  }

  /** Buffers made of whole triples are accepted by the strict parser. */
  lemma StrictAcceptsEncoded(version: VersionInfoTlv, tlvs: seq<Tlv>)
    requires forall i :: 0 <= i < |tlvs| ==> |tlvs[i].value| <= 0xFF
    requires FieldsFit(tlvs)
    ensures SplitTlvs(EncodeTlvs(tlvs)) == (tlvs, [])
    ensures Reads(EncodeTlvs(tlvs)) == tlvs
    ensures ParseStrict(version, EncodeTlvs(tlvs)) == ParseResult(Success, Some(ApplyAll(version, tlvs)))
  {
    SplitEncoded(tlvs);
    ReadsAreTriples(EncodeTlvs(tlvs));
    StrictMatchesLenient(version, EncodeTlvs(tlvs));
  }

  /** Triples whose type the switch does not list change no field. */
  lemma UnknownTypeIgnored(v: VersionInfoTlv, t: Tlv)
    requires TlvTypeOf(t.code).None? || TlvTypeOf(t.code).value in
      {CnviOTP, CnvrOTP, UsbVendorID, UsbProductID, PcieVendorID, PcieDeviceID, PcieSubsystemID,
       FirmwareBuildProduct, FirmwareBuildHardware, FirmwareStep, BluetoothSpecification,
       ManufacturingName, HciRevision, LmpSubversion, OtpPatchVersion, KeyFromHeader, UnlockedState}
    ensures FieldWidth(t.code) == 0 && Apply(v, t) == v
  {
  }

  /** The Timestamp triple sets week and year from its two bytes and the
      timestamp to the little-endian word they form. */
  lemma TimestampFields(v: VersionInfoTlv, t: Tlv)
    requires t.code == TlvCode(Timestamp) && |t.value| >= 2
    ensures Apply(v, t).timestamp == Apply(v, t).firmwareBuildWeek + 0x100 * Apply(v, t).firmwareBuildYear
    ensures Apply(v, t).firmwareBuildWeek == t.value[0] && Apply(v, t).firmwareBuildYear == t.value[1]
  {
  }

  // Fields written by more than one triple type: the last writer wins.

  function NumberWriter(t: Tlv): (b: Option<byte>)
  {
    match TlvTypeOf(t.code)
    case Some(BuildNum) => if |t.value| >= 1 then Some(t.value[0]) else None
    case Some(MinimumFirmware) => if |t.value| >= 1 then Some(t.value[0]) else None
    case _ => None
  }

  function WeekWriter(t: Tlv): (b: Option<byte>)
  {
    match TlvTypeOf(t.code)
    case Some(Timestamp) => if |t.value| >= 1 then Some(t.value[0]) else None
    case Some(MinimumFirmware) => if |t.value| >= 2 then Some(t.value[1]) else None
    case _ => None
  }

  function YearWriter(t: Tlv): (b: Option<byte>)
  {
    match TlvTypeOf(t.code)
    case Some(Timestamp) => if |t.value| >= 2 then Some(t.value[1]) else None
    case Some(MinimumFirmware) => if |t.value| >= 3 then Some(t.value[2]) else None
    case _ => None
  }

  /** The value of the last triple (scanning from the end) that writes a
      field, or `default` when none does. */
  function LastWritten(tlvs: seq<Tlv>, writer: Tlv -> Option<byte>, default: byte): (b: byte)
    decreases |tlvs|
  {
    if tlvs == [] then default
    else match writer(tlvs[|tlvs| - 1])
      case Some(x) => x
      case None => LastWritten(tlvs[..|tlvs| - 1], writer, default)
  }

  /** BuildNum and MinimumFirmware both set the build number, Timestamp and
      MinimumFirmware both set week and year: in each case the field ends up
      with the value of the last triple in the buffer that writes it. */
  lemma {:induction false} LaterTlvWins(v: VersionInfoTlv, tlvs: seq<Tlv>)
    requires FieldsFit(tlvs)
    ensures ApplyAll(v, tlvs).firmwareBuildNumber == LastWritten(tlvs, NumberWriter, v.firmwareBuildNumber)
    ensures ApplyAll(v, tlvs).firmwareBuildWeek == LastWritten(tlvs, WeekWriter, v.firmwareBuildWeek)
    ensures ApplyAll(v, tlvs).firmwareBuildYear == LastWritten(tlvs, YearWriter, v.firmwareBuildYear)
    decreases |tlvs|
  {
    if tlvs != [] {
      var init, t := tlvs[..|tlvs| - 1], tlvs[|tlvs| - 1];
      assert tlvs == init + [t];
      ApplyAllSnoc(v, init, t);
      LaterTlvWins(v, init);
      ApplyWrites(ApplyAll(v, init), t);
    }
  }

  /** One triple sets the contested fields exactly as its writer says. */
  lemma ApplyWrites(w: VersionInfoTlv, t: Tlv)
    requires |t.value| >= FieldWidth(t.code)
    ensures Apply(w, t).firmwareBuildNumber == match NumberWriter(t) case Some(x) => x case None => w.firmwareBuildNumber
    ensures Apply(w, t).firmwareBuildWeek == match WeekWriter(t) case Some(x) => x case None => w.firmwareBuildWeek
    ensures Apply(w, t).firmwareBuildYear == match YearWriter(t) case Some(x) => x case None => w.firmwareBuildYear
  {
  }
}
